=== FILE: README.md ===
# Dragon Dev Companion — a Dafny model of its rule sets

Dragon Dev Companion is a developer dashboard: a React desktop front end, a
FastAPI back end, and a command-line tool with its own SQLite store. Under
the panels, routes and SQL sit small pure rule sets. This project models
those rule sets in Dafny and proves what they promise:

- **Colour and grid engine of the dashboard** (`ddc-desktop/frontend/src/App.jsx`).
  - Palette quantisation (`scaleColor`, `pickHeatColor`, `pickContributionColor`).
  - The one-year contribution and activity grids, with their month and quarter label rows.
  - The intraday timeline row.
  - `formatDateKey`, `defaultHeatmapDate` and `normalizeGithubUrl`.
  - Modules `Palette`, `YearGrid`, `TimelineGrid`.
- **Editor-activity aggregation** (`vscode_service.py`): the event-type check, the clamped dense day window of `heatmap`, and the bucket tally of `timeline`. Module `VsCodeActivity`.
- **GitHub rules** (`github_service.py`). Module `GitHub`.
  - The contribution-count text classifier.
  - The max-per-date merge, and the sorted list built from it.
  - Username parsing.
  - Year selection in `summary`, and the file `sync` writes.
  - The avatar file name.
- **Git summary** (`git_service.py`): the porcelain status counting and the summary built around it. Module `Git`.
- **Pomodoro sessions** (`pomodoro_service.py`): start, pause, resume, stop, status and stats, as a state machine over a session table and an integer clock. Module `Pomodoro`.
- **Back-end task store** (`task_service.py`): add, list, partial update, toggle and delete. Modules `Tasks` and `DueOrder`; the latter holds the shared due-date ordering.
- **Command-line store** (`packages/core/storage.py`): tasks (add, list, mark done) and the focus statistics (today, week, streak). Module `Storage`.
- **Task table of the stand-up view** (`modules/project_roost/core.py`). Module `Roost`.
- **README generator** (`modules/repo_forge`): its four templates, the style fallback and the default description. Module `RepoForge`.
- **Date helpers** (`packages/core/time_utils.py`): the `YYYY-MM-DD` parser and `format_dt`. Modules `TimeUtils` and `Calendar`.

Modelling choices that hold throughout:

- Dates are `(year, month, day)` triples with Gregorian rules. Day arithmetic steps one day at a time.
- Python's `date.isoformat` and JavaScript's `formatDateKey` are modelled as the text functions they are. Their text order is proved to agree with the calendar.
- Database tables are sequences of rows in id order, with a counter for the next id.
- The clock, today's date and timestamp text are parameters.
- Shared helpers live in `Wrappers` (`Option`, `Result`), `Strings` (digits, padding, Python `strip` and `lower`, text order), `Collections` and `Calendar`.

Where the repository's written description and its code differ, the model follows the code:

- The front-end timeline row has `max(1, round(1440/b))` buckets, not a ceiling.
- The back end has `int(1440/b)` buckets, so for widths that do not divide the day, the front end can add one zero-filled bucket.
- The activity heatmap has no Monday-aligned padding mode: `startWeekday` is fixed at 0, so cell i is day i of the year.
- The "week" ranges of the pomodoro stats and of the focus stats have a lower bound (today − 6) and no upper bound.

## Model

| member | source | states |
|---|---|---|
| Palette.ScaleIndex | ddc-desktop/frontend/src/App.jsx:1208-1215 | The palette index is always valid. It is 0 when `max <= 0` and the last index when `value >= max > 0`. Otherwise it is the floor of `clamp(value/max)·(n-1)`, characterised by two multiplication bounds. |
| Palette.ScaleColor | ddc-desktop/frontend/src/App.jsx:1208-1215 | The colour is always a palette entry. It is the first entry when `max <= 0` and the last when `value >= max > 0`. |
| Palette.ScaleIndexMonotone | ddc-desktop/frontend/src/App.jsx:1212-1213 | A larger value never gets a lower palette index. |
| Palette.PickHeatColor | ddc-desktop/frontend/src/App.jsx:1191-1199 | Typing activity gives a typing colour even when there is active time; otherwise active time gives an active colour; otherwise the idle colour. |
| Palette.PickContributionColor | ddc-desktop/frontend/src/App.jsx:1201-1206 | A count of zero or less gives the empty colour; a positive count gives a contribution palette entry. |
| Palette.HeatColorCategory | ddc-desktop/frontend/src/App.jsx:1191-1199 | The three heat categories use disjoint colours, so the colour alone tells the category (both directions). |
| Palette.ContributionColorEmpty | ddc-desktop/frontend/src/App.jsx:1201-1206 | The empty colour appears exactly when the count is not positive. |
| Palette.PeakIsBrightest | ddc-desktop/frontend/src/App.jsx:1191-1215 | The busiest cell of a category gets that category's brightest colour. |
| TimelineGrid.ClockLabelRoundTrip | ddc-desktop/frontend/src/App.jsx:1155-1159 | An `HH:MM` label inside the day is five characters and reads back as the hour and minute it was built from. |
| TimelineGrid.ClockLabelInjective | ddc-desktop/frontend/src/App.jsx:1155-1159 | Different minute offsets inside the day get different labels. |
| TimelineGrid.ExpectedBuckets | ddc-desktop/frontend/src/App.jsx:1147 | The row has at least one bucket, and exactly `max(1, round(1440/b))` with halves rounded up. This is stated without division, as bounds. |
| TimelineGrid.Normalize | ddc-desktop/frontend/src/App.jsx:1148-1164 | The normalised list has the expected length. Sent items are kept by position, and the missing positions are zero-filled with their own `HH:MM` label. |
| TimelineGrid.BuildTimelineGrid | ddc-desktop/frontend/src/App.jsx:1146-1189 | One cell per expected bucket, built from the normalised list. |
| TimelineGrid.TimelineKeepsItem | ddc-desktop/frontend/src/App.jsx:1151-1153 | A bucket the back end sent is shown at its position, with its own label and counts. |
| TimelineGrid.TimelineZeroFill | ddc-desktop/frontend/src/App.jsx:1155-1163 | A bucket the back end did not send is idle, and is titled with the label of its own start time. |
| TimelineGrid.TimelineDropsExtra | ddc-desktop/frontend/src/App.jsx:1150 | Items beyond the expected count never reach the row: the row depends only on the first items. |
| TimelineGrid.TimelinePeak | ddc-desktop/frontend/src/App.jsx:1166-1178 | The busiest typing bucket, with zero-filled buckets taken into account, gets the brightest typing colour. |
| TimelineGrid.ExpectedBucketsFromFloor | ddc-desktop/frontend/src/App.jsx:1147 | When the bucket width divides the day, the rounded front-end count equals the back end's floored `1440/b`. |
| YearGrid.JsYear | ddc-desktop/frontend/src/App.jsx:1038 | `new Date(y, 0, 1)` reads the years 0..99 as 1900..1999 and keeps every other year. |
| YearGrid.DateKeyInjective | ddc-desktop/frontend/src/App.jsx:991-996 | Different days have different `formatDateKey` keys. |
| YearGrid.DateKeyIsIso | ddc-desktop/frontend/src/App.jsx:991-996 | For four-digit years the front-end key is the back end's ISO date text. |
| YearGrid.PlaceLabelsLastWins | ddc-desktop/frontend/src/App.jsx:1060-1068 | A label column shows the last label aimed at it, or keeps its old text when none is. |
| YearGrid.MonthMarks | ddc-desktop/frontend/src/App.jsx:1059-1064 | Twelve marks, month k+1's short name at the column of its first day. |
| YearGrid.DistinctMarks | ddc-desktop/frontend/src/App.jsx:1060-1068 | With strictly increasing columns, a mark's column shows its text, and a column no mark names keeps its old text. |
| YearGrid.MonthColumnsApart | ddc-desktop/frontend/src/App.jsx:1063-1064 | The columns of the first days of two different months are at least four weeks apart. |
| YearGrid.Weeks | ddc-desktop/frontend/src/App.jsx:1043 | The week count is the ceiling of days/7. |
| YearGrid.MonthLabels | ddc-desktop/frontend/src/App.jsx:1059-1068 | The label row has one entry per week. Month m's short name is at the column of its first day, and every other column is blank. |
| YearGrid.QuarterCells | ddc-desktop/frontend/src/App.jsx:1115-1130 | The quarter row has "mar", "jun", "sep" and "dec" over the columns of the first days of March, June, September and December, and blanks elsewhere. |
| YearGrid.QuarterMarkersAgreeWithMonths | ddc-desktop/frontend/src/App.jsx:1104-1130 | A non-blank quarter cell holds the same text as the month label of its column. |
| YearGrid.DayOfInYear | ddc-desktop/frontend/src/App.jsx:1047-1049 | Cell i of a year's grid holds the day of ordinal i+1 of that year. |
| YearGrid.DayOfOrder | ddc-desktop/frontend/src/App.jsx:1047-1050 | Later cells hold later days, under different keys. |
| YearGrid.GridEnds | ddc-desktop/frontend/src/App.jsx:1038-1042 | The first cell is January 1 and the last is December 31. |
| YearGrid.ContribCount | ddc-desktop/frontend/src/App.jsx:1031-1036 | A day no item names shows count 0. |
| YearGrid.ContribCells | ddc-desktop/frontend/src/App.jsx:1046-1057 | The contribution grid has exactly one cell per day of the year (365 or 366). |
| YearGrid.BuildContributionGrid | ddc-desktop/frontend/src/App.jsx:1030-1071 | The grid's cells, its weeks = ceil(cells/7), its month labels and its year. |
| YearGrid.ContributionCellOfDay | ddc-desktop/frontend/src/App.jsx:1050-1056 | Each day has its cell at its ordinal minus one, titled `"{key} \| contributions: {count}"`. |
| YearGrid.ContributionPeakDay | ddc-desktop/frontend/src/App.jsx:1044-1052 | The busiest day of the year gets the brightest contribution colour. |
| YearGrid.ContributionLastWins | ddc-desktop/frontend/src/App.jsx:1032-1036 | A later item for a day overrides an earlier one. |
| YearGrid.ContributionOtherDays | ddc-desktop/frontend/src/App.jsx:1032-1036 | An item for another day leaves a day's count unchanged. |
| YearGrid.HeatEntry | ddc-desktop/frontend/src/App.jsx:1074-1098 | The entry shown for a key is the last item with that date when one exists (no later item has that date), and all zeros when none does. |
| YearGrid.HeatmapLastWins | ddc-desktop/frontend/src/App.jsx:1074-1077 | An item appended for a day replaces whatever the heatmap held for that day. |
| YearGrid.HeatmapOtherDays | ddc-desktop/frontend/src/App.jsx:1074-1077 | An item appended for another day leaves a day's entry unchanged. |
| YearGrid.HeatCells | ddc-desktop/frontend/src/App.jsx:1086-1102 | The heatmap has exactly one cell per day of the year (365 or 366). |
| YearGrid.BuildHeatmapGrid | ddc-desktop/frontend/src/App.jsx:1073-1144 | Cells, week count, month and quarter rows, the year, and the "january"/"december" range labels. |
| YearGrid.HeatmapKeysDistinct | ddc-desktop/frontend/src/App.jsx:1096-1101 | The heatmap's cells carry pairwise different date keys. |
| YearGrid.HeatmapEnds | ddc-desktop/frontend/src/App.jsx:1079-1083 | The heatmap runs from the key of January 1 to the key of December 31. |
| YearGrid.HeatmapCoversYear | ddc-desktop/frontend/src/App.jsx:1093-1101 | Every day of the year has its cell, at its ordinal minus one. |
| YearGrid.HeatmapCellOfDay | ddc-desktop/frontend/src/App.jsx:1097-1100 | A cell's tooltip shows the day's entry (the last item for the day, zeros when there is none), and its colour family says which count is positive. |
| YearGrid.HeatmapCellShowsLastItem | ddc-desktop/frontend/src/App.jsx:1074-1100 | When item k is the last one dated on a day, that day's cell tooltip shows item k's counts. |
| YearGrid.DecemberKey | ddc-desktop/frontend/src/App.jsx:1021 | The key of December 31 is the year followed by "-12-31". |
| YearGrid.DefaultHeatmapDay | ddc-desktop/frontend/src/App.jsx:1016-1022 | The default day is today in the current year and December 31 in any other year. |
| YearGrid.DefaultHeatmapDate | ddc-desktop/frontend/src/App.jsx:1016-1022 | The default selection is the key of that day. |
| YearGrid.DefaultDateHasCell | ddc-desktop/frontend/src/App.jsx:1016-1022 | Outside the two-digit years, the default selection names a cell of the heatmap. |
| VsCodeActivity.ParseEventKind | ddc-desktop/backend/app/services/vscode_service.py:11 | A type name is accepted exactly when it is one of active, inactive and typing, and it maps back to its kind. |
| VsCodeActivity.RecordEvent | ddc-desktop/backend/app/services/vscode_service.py:14-30 | An unknown type is an error that stores nothing. An accepted one appends exactly one row carrying that type, the details and the time. |
| VsCodeActivity.RecordedKindsAllowed | ddc-desktop/backend/app/services/vscode_service.py:11-27 | Recording keeps the invariant that every stored row has an admitted type. |
| VsCodeActivity.ClampDays | ddc-desktop/backend/app/services/vscode_service.py:112-115 | The day count is clamped into [7, 365] and left alone inside it. |
| VsCodeActivity.DayTotal | ddc-desktop/backend/app/services/vscode_service.py:133-138 | A day and type with no rows count 0; otherwise the count is the total of the last row for them. |
| VsCodeActivity.Window | ddc-desktop/backend/app/services/vscode_service.py:117-153 | Exactly n days, ending today, each within the valid date range and not after today. |
| VsCodeActivity.WalkWindow | ddc-desktop/backend/app/services/vscode_service.py:141-153 | The cursor loop from today-(n-1) while not past today emits exactly the window. |
| VsCodeActivity.Heatmap | ddc-desktop/backend/app/services/vscode_service.py:111-155 | Reports the clamped day count and one item per day of the window, in order. |
| VsCodeActivity.WindowShape | ddc-desktop/backend/app/services/vscode_service.py:141-153 | The window ends today and steps forward one day at a time. |
| VsCodeActivity.WindowAscending | ddc-desktop/backend/app/services/vscode_service.py:143-147 | The window's date texts are strictly ascending, so they are distinct. |
| VsCodeActivity.HeatmapDayCounts | ddc-desktop/backend/app/services/vscode_service.py:133-150 | A day without rows reports zeros. A type with exactly one row for the day reports that row's total. |
| VsCodeActivity.Landed | ddc-desktop/backend/app/services/vscode_service.py:183-190 | The number of landed events is at most the number of rows. |
| VsCodeActivity.Bump | ddc-desktop/backend/app/services/vscode_service.py:190 | An event adds one to its own type and leaves the other types alone. |
| VsCodeActivity.TotalBump | ddc-desktop/backend/app/services/vscode_service.py:190 | One event adds exactly one to the total over all buckets. |
| VsCodeActivity.StepBucket | ddc-desktop/backend/app/services/vscode_service.py:188-190 | One event changes one bucket's count of one type, by one, exactly when it lands there. |
| VsCodeActivity.TallyStepKeeps | ddc-desktop/backend/app/services/vscode_service.py:183-190 | The tally of a prefix, plus one more event, is the tally of the longer prefix. |
| VsCodeActivity.TallyBuckets | ddc-desktop/backend/app/services/vscode_service.py:167-190 | Every bucket's count of every type is the number of events landing there with that type. |
| VsCodeActivity.StartLabelsAt | ddc-desktop/backend/app/services/vscode_service.py:193-199 | Bucket k's start label is the `HH:MM` of k·b. |
| VsCodeActivity.RenderedAreExpected | ddc-desktop/backend/app/services/vscode_service.py:192-204 | Items built from a correct tally, with the start labels, are exactly the timeline's bucket items. |
| VsCodeActivity.BucketItems | ddc-desktop/backend/app/services/vscode_service.py:167-204 | One item per whole bucket of the day: floor(1440/b) items. |
| VsCodeActivity.Timeline | ddc-desktop/backend/app/services/vscode_service.py:158-210 | A bad date or a width outside [5, 60] is an error. Otherwise the items are the promised buckets, and their total is the number of landed events, which is at most the number of rows. |
| VsCodeActivity.RenderBuckets | ddc-desktop/backend/app/services/vscode_service.py:192-204 | One item per bucket, carrying that bucket's label and counts. The item totals equal the bucket totals. |
| VsCodeActivity.TimelineLabels | ddc-desktop/backend/app/services/vscode_service.py:193-199 | Every bucket carries a five-character label, and different buckets carry different labels. |
| VsCodeActivity.BucketStartsDistinct | ddc-desktop/backend/app/services/vscode_service.py:194-199 | Bucket start labels are five characters and pairwise different. |
| VsCodeActivity.TimelineDropsOnlyTail | ddc-desktop/backend/app/services/vscode_service.py:167-189 | An event is dropped exactly when its minute lies past the last whole bucket. When the width divides the day, none is dropped. |
| VsCodeActivity.FrontendShowsBackendTimeline | ddc-desktop/frontend/src/App.jsx:1146-1189 | For every width the back end accepts, the front-end row shows each back-end bucket at its position with that bucket's label. It adds one zero-filled bucket exactly when the front end's rounding exceeds the back end's floor. |
| GitHub.ParseContributionCount | ddc-desktop/backend/app/services/github_service.py:166-171 | No text, or text that strips to nothing, gives no count. |
| GitHub.ParseSaysDigits | ddc-desktop/backend/app/services/github_service.py:167-173 | Any text whose stripped form is a non-empty digit string gives that number. |
| GitHub.ParseSaysNone | ddc-desktop/backend/app/services/github_service.py:167-176 | Any text whose stripped form is not a digit string and contains "no contribution", in any case, gives 0. |
| GitHub.ParseFindsCount | ddc-desktop/backend/app/services/github_service.py:167-180 | Otherwise, when the leftmost match of `(\d+)\s+contribution` in the stripped text starts at k, the result is the number it captures. |
| GitHub.ParseSaysNothing | ddc-desktop/backend/app/services/github_service.py:167-183 | Otherwise, with no match anywhere in the stripped text, there is no count. |
| GitHub.CountOfDigits | ddc-desktop/backend/app/services/github_service.py:172-173 | A zero-padded count reads as its number. |
| GitHub.CountOfTooltip | ddc-desktop/backend/app/services/github_service.py:177-180 | GitHub's "N contribution(s)" tooltip reads as N. |
| GitHub.NoContributionsTooltip | ddc-desktop/backend/app/services/github_service.py:174-176 | GitHub's "No contributions …" tooltip reads as 0. |
| GitHub.MergeContributions | ddc-desktop/backend/app/services/github_service.py:297-303 | The merged keys are exactly the dates of the cells. Each value is the maximum count of that date's cells, where a cell without a count gives 0. |
| GitHub.MergeKeys | ddc-desktop/backend/app/services/github_service.py:299-302 | Any merge has exactly the cells' dates as keys. |
| GitHub.MergeUnique | ddc-desktop/backend/app/services/github_service.py:297-303 | The merge is determined by its inputs, whatever order the loop visits the cells in. |
| GitHub.SortedContributions | ddc-desktop/backend/app/services/github_service.py:291-294 | The list is sorted by date, names each date of the map once, and carries the map's count. |
| GitHub.SortedDatesCount | ddc-desktop/backend/app/services/github_service.py:291-294 | A date-sorted list has exactly as many entries as distinct dates. |
| GitHub.PreferParsed | ddc-desktop/backend/app/services/github_service.py:286-290 | The parsed merge is kept when it has a non-zero count or the fallback is empty; otherwise the fallback is used. |
| GitHub.FetchedContributions | ddc-desktop/backend/app/services/github_service.py:279-294 | Sorted by date, covering either the parsed dates or the fallback's. It covers the parsed dates whenever some cell has a positive count. |
| GitHub.HandleUsername | ddc-desktop/backend/app/services/github_service.py:237-239 | A non-URL profile gives a non-empty string of `[A-Za-z0-9-]` or nothing. |
| GitHub.UrlUsername | ddc-desktop/backend/app/services/github_service.py:230-236 | A URL profile gives, if anything, text free of '/', '?' and '#'. |
| GitHub.ParseUsername | ddc-desktop/backend/app/services/github_service.py:226-239 | Blank text gives nothing. Non-URL text gives a handle; URL text gives text free of '/' and '?'. |
| GitHub.HandleNamesItself | ddc-desktop/backend/app/services/github_service.py:237-239 | A handle parses as itself. |
| GitHub.AtHandleNamesItself | ddc-desktop/backend/app/services/github_service.py:237-239 | "@handle" parses as the handle. |
| GitHub.ParsedHandleStable | ddc-desktop/backend/app/services/github_service.py:237-239 | A parsed non-URL name parses back as itself. |
| GitHub.ProfileUrlNamesUser | ddc-desktop/backend/app/services/github_service.py:230-236 | `https://host/u` and `https://host/u/` name the user u. |
| GitHub.ProfileUrlOfHandle | ddc-desktop/backend/app/services/github_service.py:230-236 | `https://github.com/u` names the user u. |
| GitHub.UrlPath | ddc-desktop/backend/app/services/github_service.py:231-235 | The path `urlparse` yields holds no '?' or '#' and only URL characters. |
| GitHub.UrlUsernameOf | ddc-desktop/backend/app/services/github_service.py:230-236 | A URL whose path, with slashes trimmed, is one segment u names the user u. |
| GitHub.NormalizeGithubUrl | ddc-desktop/frontend/src/App.jsx:513-523 | Blank input gives "" (both directions). A URL is returned trimmed. Anything else gets the profile prefix, with one leading '@' removed. |
| GitHub.NormalizedHandleNamesUser | ddc-desktop/frontend/src/App.jsx:513-523 | The URL the front end stores for a handle, with or without '@', parses back on the back end to that handle. |
| GitHub.NormalizeIdempotent | ddc-desktop/frontend/src/App.jsx:513-523 | Normalising twice is normalising once. |
| GitHub.PyIntOfIntToString | ddc-desktop/backend/app/services/github_service.py:64-66 | The year key `sync` writes reads back as that year. |
| GitHub.PyIntOfDigits | ddc-desktop/backend/app/services/github_service.py:64-66 | A digit key, leading zeros and all, reads as its value. |
| GitHub.PyIntRefuses | ddc-desktop/backend/app/services/github_service.py:64-68 | A key holding a character that is no digit, sign or '_' is skipped. |
| GitHub.SortedYears | ddc-desktop/backend/app/services/github_service.py:69 | The result is strictly increasing and holds exactly the years of the set. |
| GitHub.AvailableYears | ddc-desktop/backend/app/services/github_service.py:63-69 | The result is strictly increasing and holds exactly the years some key reads as. |
| GitHub.LastSyncYear | ddc-desktop/backend/app/services/github_service.py:71-75 | An integer is kept and a boolean reads as 0 or 1. Text reads as `int()` reads it. A finite float is truncated toward zero. Null, a list, an object or NaN gives nothing. An infinite float is an OverflowError that nothing catches. |
| GitHub.TruncReal | ddc-desktop/backend/app/services/github_service.py:73 | `int()` of a finite float is the integer next to it on the side toward zero. |
| GitHub.LastSyncOfFloat | ddc-desktop/backend/app/services/github_service.py:71-75 | Those bounds pin the year of a finite float down to one integer. |
| GitHub.LastSyncOfWholeFloat | ddc-desktop/backend/app/services/github_service.py:71-75 | A year stored as `2024.0` reads as 2024. |
| GitHub.MaxYear | ddc-desktop/backend/app/services/github_service.py:79 | The largest element of a non-empty list. |
| GitHub.SelectedYear | ddc-desktop/backend/app/services/github_service.py:77-81 | The explicit non-zero year; else the last synced year; else the largest available year; else the current year. |
| GitHub.ReportedContributions | ddc-desktop/backend/app/services/github_service.py:83-89 | With a per-year table, the selected year's list, or [] when it has none. Without one, the top-level list. |
| GitHub.RequestedYear | ddc-desktop/backend/app/services/github_service.py:330 | A non-zero year given is used; otherwise the current year. |
| GitHub.Summary | ddc-desktop/backend/app/services/github_service.py:59-102 | Fails exactly when the stored last sync year is an infinite float, with `int()`'s message. Otherwise it gives the available years, last sync year, selected year and contributions, each as the functions above define them. |
| GitHub.SyncedFile | ddc-desktop/backend/app/services/github_service.py:346-368 | The synced list is stored at the top level and under the target year's key. The other years are kept, and the last sync year is the target year. |
| GitHub.SyncThenSummary | ddc-desktop/backend/app/services/github_service.py:346-368 | After a sync, a summary with no year requested shows the synced year and its list. |
| GitHub.SyncedYearListed | ddc-desktop/backend/app/services/github_service.py:351 | After a sync, the target year is among the available years. |
| GitHub.SplitOnJoin | ddc-desktop/backend/app/services/github_service.py:108 | Splitting a path on '/' and joining the pieces gives it back. |
| GitHub.PathName | ddc-desktop/backend/app/services/github_service.py:108 | A path's name holds no '/' and is never ".". |
| GitHub.PathNameOfJoin | ddc-desktop/backend/app/services/github_service.py:108 | The name of `dir/n` is n. |
| GitHub.PathNameIdempotent | ddc-desktop/backend/app/services/github_service.py:108 | Taking the name twice is taking it once. |
| GitHub.PathNameOfName | ddc-desktop/backend/app/services/github_service.py:108 | A plain name is its own name. |
| GitHub.PathNameTrailingSlash | ddc-desktop/backend/app/services/github_service.py:108 | A trailing '/' does not change the name. |
| GitHub.AvatarPath | ddc-desktop/backend/app/services/github_service.py:105-114 | Empty input or an empty name gives nothing. A result is the input's name, holds no '/', and is present or "..". |
| GitHub.AvatarPathEscapes | ddc-desktop/backend/app/services/github_service.py:105-114 | `avatar_path("..")` returns "..", which is not an entry of the data directory. |
| GitHub.AvatarPathSafe | ddc-desktop/backend/app/services/github_service.py:105-114 | With ".." refused, every result is a present, direct entry of the data directory. |
| GitHub.AvatarPathSafeAgrees | ddc-desktop/backend/app/services/github_service.py:105-114 | The corrected function agrees with the original on every name but "..". |
| GitHub.AvatarUrl | ddc-desktop/backend/app/services/github_service.py:43-50 | A link is the avatar route plus an existing name free of '/'. No file field gives no link. |
| GitHub.AvatarUrlServed | ddc-desktop/backend/app/services/github_service.py:43-50 | A link `summary` makes is one whose file the avatar route finds. |
| Git.SplitLines | ddc-desktop/backend/app/services/git_service.py:39 | `splitlines` gives lines without line breaks, and no lines exactly for empty text. |
| Git.SplitTerminated | ddc-desktop/backend/app/services/git_service.py:39 | Lines each ending in a newline split back into those lines. |
| Git.CountPorcelain | ddc-desktop/backend/app/services/git_service.py:37-47 | The counting loop computes the number of staged lines and of unstaged lines. |
| Git.StatusCodes | ddc-desktop/backend/app/services/git_service.py:42-47 | "??" is unstaged and never staged; " M" is unstaged only; "M " is staged only. |
| Git.CountsAtMostLines | ddc-desktop/backend/app/services/git_service.py:37-47 | Each count is at most the number of non-empty lines. |
| Git.EmptyLinesIgnored | ddc-desktop/backend/app/services/git_service.py:40-41 | An empty line changes neither count. |
| Git.RunGit | ddc-desktop/backend/app/services/git_service.py:9-19 | A non-zero exit is an error. Its message is the stripped stderr when that is non-empty, and "git command failed" otherwise. Success gives the stripped stdout. |
| Git.RawListing | ddc-desktop/backend/app/services/git_service.py:33-35 | The corrected status call fails exactly on a non-zero exit and otherwise keeps stdout unstripped. |
| Git.SummaryWith | ddc-desktop/backend/app/services/git_service.py:22-56 | Given any listing, there is a summary exactly when the directory exists, is inside a work tree, and every call succeeds. It carries "OK", the branch and the last commit. Otherwise the message is that of the first check that fails: the missing directory, the failing `rev-parse` call, "not a repository", then the failing branch, log or listing call. |
| Git.SummaryOfListing | ddc-desktop/backend/app/services/git_service.py:37-56 | Inside a work tree, the summary counts are the counts of the listing's lines. |
| Git.StrippedListing | ddc-desktop/backend/app/services/git_service.py:18-19 | The listing " M path\n" comes back from `_run_git` as "M path". |
| Git.RepoSummaryOf | ddc-desktop/backend/app/services/git_service.py:22-56 | A missing directory fails first. Outside a work tree the call fails. There is a summary exactly when every git call succeeds, and it then carries "OK", the branch and the last commit. Otherwise the message is `str(exc)` of the first git call that fails, in the order rev-parse, branch, log, status. |
| Git.StripMisreadsFirstLine | ddc-desktop/backend/app/services/git_service.py:18-47 | As written, a single worktree-only change " M path" is counted as staged, not unstaged. |
| Git.RepoSummaryFixed | ddc-desktop/backend/app/services/git_service.py:22-56 | Reads the porcelain listing unstripped. It succeeds and fails exactly as the original does, with the same failure messages. |
| Git.FixedReadsFirstLine | ddc-desktop/backend/app/services/git_service.py:42-47 | The corrected summary counts " M path" as one unstaged change and no staged one. |
| Git.SummaryMeansWorkTree | ddc-desktop/backend/app/services/git_service.py:26-35 | When the status call succeeds, the written summary succeeds exactly when the directory exists, `rev-parse` prints `true`, and the branch and log calls succeed. |
| Git.FixedCountsEveryLine | ddc-desktop/backend/app/services/git_service.py:37-47 | The corrected summary's counts are exactly the counts of the lines git printed. |
| Git.FirstLineExample | ddc-desktop/backend/app/services/git_service.py:18-47 | On " M a.txt\n" the original reports one staged change; the corrected summary reports one unstaged change. |
| Pomodoro.ActiveIndex | ddc-desktop/backend/app/services/pomodoro_service.py:15-26 | The newest running or paused session, or none exactly when there is none. |
| Pomodoro.Start | ddc-desktop/backend/app/services/pomodoro_service.py:29-50 | Fails with "Session already running or paused." exactly when one is active. Otherwise appends a running session with elapsed 0 and its last start at the start time. |
| Pomodoro.Pause | ddc-desktop/backend/app/services/pomodoro_service.py:53-79 | Succeeds exactly when the active session is running. It adds now − last start to elapsed, clears the last start and sets paused; other sessions are unchanged. |
| Pomodoro.Resume | ddc-desktop/backend/app/services/pomodoro_service.py:82-103 | Succeeds exactly when the active session is paused. It sets running and last start = now and keeps elapsed. |
| Pomodoro.Stop | ddc-desktop/backend/app/services/pomodoro_service.py:106-134 | Fails exactly when nothing is active. It adds the current interval only when running, then sets stopped, the end time, and no last start. |
| Pomodoro.StatusOf | ddc-desktop/backend/app/services/pomodoro_service.py:137-139 | Idle exactly when nothing is active; otherwise the active session with the highest id. |
| Pomodoro.TransitionsKeepValid | ddc-desktop/backend/app/services/pomodoro_service.py:29-134 | Every transition keeps the table valid: ids are 1, 2, … in order, at most one session is active, and a last start is set exactly while running. |
| Pomodoro.StartKeepsValid | ddc-desktop/backend/app/services/pomodoro_service.py:29-50 | Start keeps the table valid. |
| Pomodoro.PauseKeepsValid | ddc-desktop/backend/app/services/pomodoro_service.py:53-79 | Pause keeps the table valid. |
| Pomodoro.ResumeKeepsValid | ddc-desktop/backend/app/services/pomodoro_service.py:82-103 | Resume keeps the table valid. |
| Pomodoro.StopKeepsValid | ddc-desktop/backend/app/services/pomodoro_service.py:106-134 | Stop keeps the table valid. |
| Pomodoro.ReplaceActive | ddc-desktop/backend/app/services/pomodoro_service.py:15-26 | Replacing the one active session keeps at most one active. |
| Pomodoro.ErrorsOfOneActive | ddc-desktop/backend/app/services/pomodoro_service.py:53-85 | In a valid table, pause fails exactly when no session is running, and resume exactly when none is paused. |
| Pomodoro.StopThenIdle | ddc-desktop/backend/app/services/pomodoro_service.py:106-139 | After stop, the status is idle. |
| Pomodoro.StartThenActive | ddc-desktop/backend/app/services/pomodoro_service.py:29-50 | From idle, start succeeds and the status shows the new running session. |
| Pomodoro.ElapsedMonotone | ddc-desktop/backend/app/services/pomodoro_service.py:58-115 | Under a clock that does not go back, no transition lowers any session's elapsed time. |
| Pomodoro.StartGrows | ddc-desktop/backend/app/services/pomodoro_service.py:29-50 | Start lowers no elapsed time and starts no interval in the future. |
| Pomodoro.PauseGrows | ddc-desktop/backend/app/services/pomodoro_service.py:58-61 | Pause lowers no elapsed time. |
| Pomodoro.ResumeGrows | ddc-desktop/backend/app/services/pomodoro_service.py:82-103 | Resume lowers no elapsed time. |
| Pomodoro.StopGrows | ddc-desktop/backend/app/services/pomodoro_service.py:112-115 | Stop lowers no elapsed time. |
| Pomodoro.ClockAdvances | ddc-desktop/backend/app/services/pomodoro_service.py:58-61 | A later clock stays after every current interval's start. |
| Pomodoro.PauseResume | ddc-desktop/backend/app/services/pomodoro_service.py:53-103 | Pause then resume leaves the session running with the paused interval added. |
| Pomodoro.StatsOf | ddc-desktop/backend/app/services/pomodoro_service.py:142-173 | The count is at most the number of sessions. It is zero exactly when no stopped focus session with an end time falls in the range. The total is not negative when no elapsed time is. |
| Pomodoro.RangesNest | ddc-desktop/backend/app/services/pomodoro_service.py:148-153 | "today" counts no more sessions than "week", and "week" no more than any other range. When no elapsed time is negative, the same holds for the totals. |
| Pomodoro.StatsReplace | ddc-desktop/backend/app/services/pomodoro_service.py:155-173 | Turning one row into a counted one adds one session and its elapsed time. |
| Pomodoro.StopCounts | ddc-desktop/backend/app/services/pomodoro_service.py:106-134 | Stopping a focus session adds it to the "all" stats. |
| Pomodoro.Lifecycle | ddc-desktop/backend/tests/test_pomodoro.py:6-20 | Start, pause, resume, stop gives running, paused, running, stopped. The elapsed time is the two running intervals, and the "all" stats count one more session. |
| DueOrder.BeforeTransitive | ddc-desktop/backend/app/services/task_service.py:42 | The due-date order is transitive. |
| DueOrder.BeforeIrreflexive | ddc-desktop/backend/app/services/task_service.py:42 | No key comes before itself. |
| DueOrder.BeforeAsymmetric | ddc-desktop/backend/app/services/task_service.py:42 | Two keys are never ordered both ways. |
| DueOrder.BeforeTotal | ddc-desktop/backend/app/services/task_service.py:42 | Two keys are equal or ordered one way. |
| DueOrder.InsertByDue | ddc-desktop/backend/app/services/task_service.py:42 | Inserting into a sorted list keeps it sorted and adds exactly that row. |
| DueOrder.SortByDue | ddc-desktop/backend/app/services/task_service.py:42 | The result is sorted and a permutation of the input. |
| DueOrder.SortedMeaning | ddc-desktop/backend/app/services/task_service.py:42 | In sorted order, rows with a due date come first, by due date, then by creation time. |
| Tasks.IndexOf | ddc-desktop/backend/app/services/task_service.py:64-69 | Finds the row with the id, and finds none exactly when no row has it. |
| Tasks.AddTask | ddc-desktop/backend/app/services/task_service.py:13-33 | Appends a row with the next id, status "todo", priority "med" unless given, and the given fields and time. |
| Tasks.Matching | ddc-desktop/backend/app/services/task_service.py:36-41 | "all" keeps every row; any other status keeps exactly the rows with that status. |
| Tasks.ListTasks | ddc-desktop/backend/app/services/task_service.py:36-45 | The listing is sorted by the due-date order and is a permutation of the matching rows. |
| Tasks.ListedRows | ddc-desktop/backend/app/services/task_service.py:36-45 | A row is listed exactly when it is stored and wanted; "all" lists every row once. |
| Tasks.UpdateTask | ddc-desktop/backend/app/services/task_service.py:48-71 | An empty patch fails with "No updates provided." before the id is looked up. An unknown id fails with "Task not found." Otherwise exactly the found row is replaced by the patched row. |
| Tasks.UpdateChangesOnlyGiven | ddc-desktop/backend/app/services/task_service.py:51-59 | A given field takes its new value; every other field except the update time keeps its old one. |
| Tasks.UpdateIdempotent | ddc-desktop/backend/app/services/task_service.py:48-71 | Applying the same patch again at the same time changes nothing. |
| Tasks.ToggledStatus | ddc-desktop/backend/app/services/task_service.py:79 | "done" becomes "todo", and any other status becomes "done". |
| Tasks.ToggleDone | ddc-desktop/backend/app/services/task_service.py:74-86 | An unknown id fails. Otherwise only the found row changes, to the toggled status. |
| Tasks.ToggleTwice | ddc-desktop/backend/app/services/task_service.py:79 | Toggling twice restores "todo" and "done", and turns any other status into "todo". |
| Tasks.DeleteTask | ddc-desktop/backend/app/services/task_service.py:89-95 | An unknown id fails with "Task not found."; otherwise exactly that row is removed. |
| Tasks.OperationsKeepValid | ddc-desktop/backend/app/services/task_service.py:13-95 | Every operation keeps ids increasing and below the counter. |
| Tasks.AddKeepsValid | ddc-desktop/backend/app/services/task_service.py:13-33 | Adding keeps ids increasing and below the counter. |
| Tasks.DeleteKeepsValid | ddc-desktop/backend/app/services/task_service.py:89-95 | Deleting keeps ids increasing and below the counter. |
| Tasks.AddedIdFresh | ddc-desktop/backend/app/services/task_service.py:13-33 | A new task's id was in no earlier row. |
| Tasks.AddThenDelete | ddc-desktop/backend/app/services/task_service.py:13-95 | Deleting a task just added restores the rows. |
| Tasks.CrudFlow | ddc-desktop/backend/tests/test_tasks.py:6-23 | Create "todo", list one row, set "doing", toggle to "done", delete. |
| Tasks.ListAllLength | ddc-desktop/backend/app/services/task_service.py:36-45 | Listing "all" gives as many rows as are stored. |
| Tasks.SetStatusOfOnlyRow | ddc-desktop/backend/app/services/task_service.py:48-71 | A status update on a one-row table succeeds, sets the status, keeps the id, and leaves the table holding just the updated row. |
| Tasks.ToggleOnlyRow | ddc-desktop/backend/app/services/task_service.py:74-86 | Toggling the row of a one-row table succeeds with the toggled status and the same id. |
| Storage.AddTask | packages/core/storage.py:152-164 | Appends an "open" task with the next id, no done time, and the due date as ISO text or none. |
| Storage.OpenRows | packages/core/storage.py:169-170 | Keeps exactly the open rows. |
| Storage.ListTasks | packages/core/storage.py:166-175 | Sorted by the due-date order; a permutation of all rows, or of the open rows. |
| Storage.ListOpenTasksWithDue | packages/core/storage.py:191-201 | Sorted; lists exactly the open tasks. |
| Storage.ListedOpen | packages/core/storage.py:166-175 | The open listing holds exactly the open tasks. |
| Storage.OpenListingsAgree | packages/core/storage.py:166-201 | The open listing with due dates equals `list_tasks(include_done=False)`. |
| Storage.TaskIndex | packages/core/storage.py:180-183 | Finds the row with the id, and finds none exactly when no row has it. |
| Storage.MarkTaskDone | packages/core/storage.py:177-189 | Reports an update exactly for an existing open task, and then sets done and the done time on that row only. Otherwise nothing changes. |
| Storage.MarkedNotOpen | packages/core/storage.py:177-189 | After marking, the task is not open and the table stays valid. |
| Storage.MarkTwice | packages/core/storage.py:177-189 | A second mark reports no update and changes nothing. |
| Storage.AddKeepsValid | packages/core/storage.py:152-164 | Adding keeps ids increasing and below the counter. |
| Storage.AddedIsListed | packages/core/storage.py:152-175 | A new task appears in the open listing. |
| Storage.MarkedNotListed | packages/core/storage.py:166-189 | A marked task leaves the open listing. |
| Storage.TaskLifecycle | tests/test_storage.py:19-28 | Add, list, mark done and list again, as the storage test does. |
| Storage.AddFocusSession | packages/core/storage.py:88-104 | Appends exactly one session and leaves the tasks alone. |
| Storage.TallyOf | packages/core/storage.py:110-127 | The count never exceeds the number of sessions. |
| Storage.TallyEmpty | packages/core/storage.py:110-127 | The count is zero exactly when no work session falls in the window. |
| Storage.TallyMinutesNonNegative | packages/core/storage.py:110-127 | The minutes total is not negative when no duration is. |
| Storage.WindowMeaning | packages/core/storage.py:113-124 | The text comparisons of start days mean the same day, and not before the first day of the week. |
| Storage.TodayWithinWeek | packages/core/storage.py:110-127 | Today's count and minutes are within the week's. |
| Storage.AddedSessionCounts | packages/core/storage.py:88-118 | A work session started today adds itself to today's tally; a session of another type changes nothing. |
| Storage.WorkDays | packages/core/storage.py:128-136 | Holds the start day of every work session, and only valid days. |
| Storage.Streak | packages/core/storage.py:138-142 | Every day from today back through streak-1 days has work, and the day before that has none. |
| Storage.StreakUnique | packages/core/storage.py:138-142 | That property determines the streak. |
| Storage.StreakZero | packages/core/storage.py:138-142 | The streak is 0 exactly when today has no work. |
| Storage.GetFocusStats | packages/core/storage.py:106-150 | Today's and the week's tallies, today within the week, and the streak. |
| Storage.FocusStatsExample | tests/test_storage.py:31-42 | A 25-minute work session started today counts in today's tally. |
| Roost.DueLabel | modules/project_roost/core.py:15-22 | "-" exactly for a missing or empty due date. Otherwise the label starts with the due date. |
| Roost.DueLabelMeaning | modules/project_roost/core.py:18-22 | For an ISO due date: " (overdue)" exactly when the day is past, " (today)" exactly on the day, and unmarked exactly when it lies ahead. |
| Roost.TaskRow | modules/project_roost/core.py:34-36 | The id, title and due label, plus the status only when shown. |
| Roost.RenderTasksTable | modules/project_roost/core.py:25-38 | Title "Project Roost Tasks". Three columns, plus Status when shown. One row per task, in input order, each as wide as the header. |
| Roost.TableConcat | modules/project_roost/core.py:33-37 | The rows of a concatenated list are the two lists' rows, one after the other. |
| RepoForge.Render | modules/repo_forge/core.py:15 | A rendering starts with the template's first piece, filled. |
| RepoForge.RenderHas | modules/repo_forge/core.py:10-23 | Every literal piece and every placeholder's value appears in the output. |
| RepoForge.ProfileTemplate | modules/repo_forge/core.py:9 | The cute template exactly for "cute"; clean for anything else. |
| RepoForge.ProjectTemplate | modules/repo_forge/core.py:19 | The cute template exactly for "cute"; clean for anything else. |
| RepoForge.DescriptionOrDefault | modules/repo_forge/core.py:22 | A non-empty description is kept; an empty one is replaced by a non-empty default. |
| RepoForge.RenderProfile | modules/repo_forge/core.py:8-15 | A profile README starts with a level-one heading. |
| RepoForge.RenderProject | modules/repo_forge/core.py:18-23 | A project README starts with a level-one heading. |
| RepoForge.UnknownStyleIsClean | modules/repo_forge/core.py:9-19 | An unknown style renders both README kinds exactly as "clean". |
| RepoForge.ProfileSections | modules/repo_forge/core.py:8-15 | A profile README starts with "# " + name and contains "## About" and "## Tech Stack", in both styles. |
| RepoForge.CleanProfileSections | modules/repo_forge/core.py:8-15 | The clean profile starts with "# " + name and has the About and Tech Stack headings. |
| RepoForge.CuteProfileSections | modules/repo_forge/core.py:8-15 | The cute profile starts with "# " + name and has the About and Tech Stack headings. |
| RepoForge.ProjectSections | modules/repo_forge/core.py:18-23 | A project README starts with "# " + title and contains "## About", "## Roadmap" and the description, or the default when it is empty. |
| TimeUtils.ParseYmd | packages/core/time_utils.py:24 | Every accepted date is a valid Gregorian date within Python's range. |
| TimeUtils.ParseDueDate | packages/core/time_utils.py:20-26 | No value or "" gives no date (both directions). Anything else is accepted exactly when it parses, and a failure carries "Date must be in YYYY-MM-DD format.". |
| TimeUtils.ParseCanonical | packages/core/time_utils.py:24 | Zero-padded `YYYY-MM-DD` text is accepted exactly for the real days, so Feb 30 and Feb 29 in a common year are refused. |
| TimeUtils.ParseIsoFormat | packages/core/time_utils.py:20-26 | Parsing `d.isoformat()` gives d back. |
| TimeUtils.ParseShortFields | packages/core/time_utils.py:24 | The parser also accepts a one-digit month and day. |
| TimeUtils.FormatDtRoundTrip | packages/core/time_utils.py:12-13 | `format_dt` is 19 characters: the ISO date, which parses back to the date, then a space and `HH:MM:SS`. |
| Calendar.IsoOrder | modules/project_roost/core.py:18 | Comparing ISO date texts is comparing the dates. |
| Calendar.IsoInjective | modules/project_roost/core.py:20 | Different dates have different ISO texts. |

## Left out

- SQL, connections and the database schema: tables are sequences, and every query is the function it computes.
- The clock: the current time, today's date and timestamp text are parameters. Timestamps are treated as opaque text, except for the day `date()` reads from them.
- The git subprocess and the file system: each git call is an exit code with its stdout and stderr, and path existence is a flag or a set of present names.
- Network fetches, the HTML parser and the regex fallback scraper of the GitHub service: their results are the parameters of the merge.
- `unescape` is taken as the identity.
- React components, effects, local storage and the API wrapper.
- The Spotify service, the VS Code extension, the focus-den timer and the CLI/TUI entry points.
- `render_standup`: it only prints panels.
- Floating point: pomodoro elapsed time is kept in whole seconds, and the stats report seconds rather than float minutes.
- The typing/idle percentages and `formatRepoUpdated` of the dashboard are display-only float code.
- Unicode: `strip` removes every character of Python's `str.isspace` (Strings.PyWhitespace) and `splitlines` splits at every boundary Python recognises (Git.LineBreak). `lower()` and `re.IGNORECASE` are modelled on ASCII letters only (Strings.LowerAscii): non-ASCII letters keep their case, and Python's extra case equivalences (such as the dotless ı matching i) are not modelled.
- `urlparse` is modelled for the characters a profile URL holds. Its IPv6 and port validation errors are not modelled.
- Windows path separators for `Path(...).name` are not modelled (POSIX paths only).
- Local time and DST: a pomodoro day is the Unix time divided by 86400.
- Storage.GetFocusStats: requires today − 6 days to be a valid Python date, because Python raises OverflowError in the first week of year 1.
- Storage.Streak: when every day from today back to 0001-01-01 has a work session, the model returns that count, while Python raises OverflowError when it steps the cursor before 0001-01-01. Storage.GetFocusStats inherits this.
- Storage.AddTask: `created_ts` and `done_ts` are the given timestamp text rather than `format_dt` of the clock.
- Tasks.UpdateTask: `created_at`/`updated_at` are the given timestamp text.
- RepoForge.Render: placeholders are filled by name as `str.format` does; format specs and escaped braces are not modelled, since the templates use neither.
- Pomodoro.Pause: requires the table to be well formed (a running session has a last start time), as the service keeps it.
- VsCodeActivity.Heatmap: requires the first day of the window and the day after today to be valid Python dates. Python raises OverflowError when `today - timedelta(days - 1)` falls before year 1, and when the walk's last `cursor += timedelta(days=1)` passes 9999-12-31 (today = 9999-12-31). VsCodeActivity.WalkWindow has the same requires.
- Storage.TallyOf: its own contract only bounds the count. The zero-count and non-negative-minutes facts are separate lemmas (Storage.TallyEmpty, Storage.TallyMinutesNonNegative).
- GitHub.ParseContributionCount: its own contract covers only the no-count case. The digit, "no contribution", "N contribution" and no-match cases are the lemmas GitHub.ParseSaysDigits, GitHub.ParseSaysNone, GitHub.ParseFindsCount and GitHub.ParseSaysNothing, each stated for any text through its stripped form. A digit is only '0'–'9': Python's `\d` and `int()` also accept other Unicode decimal digits (Arabic-Indic, fullwidth, ...), which the model treats as non-digits.
- GitHub.PyIntOfDigits: only '0'–'9' count as digits; Python's `int()` also reads other Unicode decimal digits. GitHub.PyInt has the same restriction.
- TimeUtils.ParseYmd: only '0'–'9' count as digits; `strptime`'s `%Y` (`\d\d\d\d`) and the second digit of a `%d` starting with 1 or 2 (`[12]\d`) also accept other Unicode decimal digits. Every other position of `%m` and `%d` is an ASCII character class, which the model matches exactly.

## Findings

| source | as written | input that shows it | evidently intended | confidence | as-written member | corrected member |
|---|---|---|---|---|---|---|
| ddc-desktop/backend/app/services/git_service.py:19 | `_run_git` strips stdout, so the leading space of the first porcelain line is lost and its worktree code moves into the index column | `git status --porcelain` printing " M a.txt\n" (one unstaged change) | counted as one unstaged change, no staged change | high, not executed | Git.StripMisreadsFirstLine | Git.FixedReadsFirstLine |
| ddc-desktop/backend/app/services/github_service.py:108-111 | `Path(file_name).name` of ".." is "..", so `avatar_path("..")` returns the data directory's parent | `avatar_path("..")` | only entries of the data directory are returned | medium, not executed | GitHub.AvatarPathEscapes | GitHub.AvatarPathSafe |

=== FILE: calendar.dfy ===
/** Proleptic Gregorian calendar dates as (year, month, day) triples, with
    day stepping instead of instants. Both Python's `datetime.date` and the
    JavaScript `Date` arithmetic of the dashboard (anchored at noon, so day
    deltas are exact) reduce to these operations. */
module Calendar {
  import opened Strings

  datatype Date = Date(year: int, month: int, day: int)

  predicate IsLeapYear(y: int) {
    y % 4 == 0 && (y % 100 != 0 || y % 400 == 0)
  }

  function DaysInYear(y: int): int {
    if IsLeapYear(y) then 366 else 365
  }

  function DaysInMonth(y: int, m: int): int
    requires 1 <= m <= 12
  {
    if m == 2 then (if IsLeapYear(y) then 29 else 28)
    else if m == 4 || m == 6 || m == 9 || m == 11 then 30
    else 31
  }

  predicate Valid(d: Date) {
    1 <= d.month <= 12 && 1 <= d.day <= DaysInMonth(d.year, d.month)
  }

  /** A value Python's `datetime.date` can hold (years 1 through 9999). */
  predicate IsPyDate(d: Date) {
    Valid(d) && 1 <= d.year <= 9999
  }

  /** Number of days of year `y` before the first of month `m`; month 13
      stands for the day after December 31. */
  function DaysBeforeMonth(y: int, m: int): int
    requires 1 <= m <= 13
  {
    var common :=
      if m == 1 then 0 else if m == 2 then 31 else if m == 3 then 59
      else if m == 4 then 90 else if m == 5 then 120 else if m == 6 then 151
      else if m == 7 then 181 else if m == 8 then 212 else if m == 9 then 243
      else if m == 10 then 273 else if m == 11 then 304 else if m == 12 then 334
      else 365;
    common + (if m > 2 && IsLeapYear(y) then 1 else 0)
  }

  /** 1-based ordinal of `d` within its year. */
  function DayOfYear(d: Date): (r: int)
    requires Valid(d)
    ensures 1 <= r <= DaysInYear(d.year)
  {
    DaysBeforeMonthStep(d.year, d.month);
    DaysBeforeMonthMonotone(d.year, d.month + 1, 13);
    DaysBeforeMonth(d.year, d.month) + d.day
  }

  function Jan1(y: int): Date {
    Date(y, 1, 1)
  }

  function Dec31(y: int): Date {
    Date(y, 12, 31)
  }

  /** Chronological order: lexicographic on (year, month, day). */
  predicate Before(a: Date, b: Date) {
    a.year < b.year
    || (a.year == b.year && (a.month < b.month || (a.month == b.month && a.day < b.day)))
  }

  predicate NotAfter(a: Date, b: Date) {
    a == b || Before(a, b)
  }

  /** The following day. */
  function Next(d: Date): (n: Date)
    requires Valid(d)
    ensures Valid(n) && Before(d, n)
  {
    if d.day < DaysInMonth(d.year, d.month) then Date(d.year, d.month, d.day + 1)
    else if d.month < 12 then Date(d.year, d.month + 1, 1)
    else Date(d.year + 1, 1, 1)
  }

  /** The preceding day. */
  function Prev(d: Date): (p: Date)
    requires Valid(d)
    ensures Valid(p) && Before(p, d)
  {
    if d.day > 1 then Date(d.year, d.month, d.day - 1)
    else if d.month > 1 then Date(d.year, d.month - 1, DaysInMonth(d.year, d.month - 1))
    else Date(d.year - 1, 12, 31)
  }

  /** `d + timedelta(days=n)`. */
  function AddDays(d: Date, n: nat): (r: Date)
    requires Valid(d)
    ensures Valid(r)
    decreases n
  {
    if n == 0 then d else AddDays(Next(d), n - 1)
  }

  /** `d - timedelta(days=n)`. */
  function SubDays(d: Date, n: nat): (r: Date)
    requires Valid(d)
    ensures Valid(r)
    decreases n
  {
    if n == 0 then d else SubDays(Prev(d), n - 1)
  }

  // ---------------------------------------------------------------------------
  // Day stepping
  // ---------------------------------------------------------------------------

  lemma PrevNext(d: Date)
    requires Valid(d)
    ensures Prev(Next(d)) == d
  {
  }

  lemma NextPrev(d: Date)
    requires Valid(d)
    ensures Next(Prev(d)) == d
  {
  }

  lemma BeforeTransitive(a: Date, b: Date, c: Date)
    requires Before(a, b) && NotAfter(b, c)
    ensures Before(a, c)
  {
  }

  lemma {:induction false} AddDaysSucc(d: Date, n: nat)
    requires Valid(d)
    ensures AddDays(d, n + 1) == Next(AddDays(d, n))
    decreases n
  {
    if n > 0 {
      AddDaysSucc(Next(d), n - 1);
    }
  }

  lemma {:induction false} SubDaysSucc(d: Date, n: nat)
    requires Valid(d)
    ensures SubDays(d, n + 1) == Prev(SubDays(d, n))
    decreases n
  {
    if n > 0 {
      SubDaysSucc(Prev(d), n - 1);
    }
  }

  /** Moving forward never lands earlier: `d + n` is `d` or later. */
  lemma {:induction false} AddDaysNotBefore(d: Date, n: nat)
    requires Valid(d)
    ensures NotAfter(d, AddDays(d, n))
    ensures n > 0 ==> Before(d, AddDays(d, n))
    decreases n
  {
    if n > 0 {
      AddDaysNotBefore(Next(d), n - 1);
    }
  }

  lemma {:induction false} SubDaysNotAfter(d: Date, n: nat)
    requires Valid(d)
    ensures NotAfter(SubDays(d, n), d)
    ensures n > 0 ==> Before(SubDays(d, n), d)
    decreases n
  {
    if n > 0 {
      SubDaysNotAfter(Prev(d), n - 1);
    }
  }

  /** Stepping back `n` days and then forward `n` days returns to `d`. */
  lemma {:induction false} AddSubDays(d: Date, n: nat)
    requires Valid(d)
    ensures AddDays(SubDays(d, n), n) == d
    decreases n
  {
    if n > 0 {
      SubDaysSucc(d, n - 1);
      AddSubDays(d, n - 1);
      var p := SubDays(d, n - 1);
      // SubDays(d, n) == Prev(p), and AddDays(Prev(p), n) == AddDays(p, n - 1)
      NextPrev(p);
      assert AddDays(Prev(p), n) == AddDays(Next(Prev(p)), n - 1);
    }
  }

  /** Offsets from a start day are strictly increasing in the offset. */
  lemma {:induction false} AddDaysMonotone(d: Date, i: nat, j: nat)
    requires Valid(d) && i < j
    ensures Before(AddDays(d, i), AddDays(d, j))
    decreases j
  {
    AddDaysSucc(d, j - 1);
    if i < j - 1 {
      AddDaysMonotone(d, i, j - 1);
    }
  }

  // ---------------------------------------------------------------------------
  // Ordinal within a year
  // ---------------------------------------------------------------------------

  lemma DaysBeforeMonthStep(y: int, m: int)
    requires 1 <= m <= 12
    ensures DaysBeforeMonth(y, m + 1) == DaysBeforeMonth(y, m) + DaysInMonth(y, m)
  {
  }

  lemma {:induction false} DaysBeforeMonthMonotone(y: int, a: int, b: int)
    requires 1 <= a <= b <= 13
    ensures DaysBeforeMonth(y, a) + 28 * (b - a) <= DaysBeforeMonth(y, b)
    decreases b - a
  {
    if a < b {
      DaysBeforeMonthStep(y, a);
      DaysBeforeMonthMonotone(y, a + 1, b);
    }
  }

  lemma DayOfYearRange(d: Date)
    requires Valid(d)
    ensures DaysBeforeMonth(d.year, d.month) < DayOfYear(d) <= DaysBeforeMonth(d.year, d.month + 1)
    ensures 1 <= DayOfYear(d) <= DaysInYear(d.year)
  {
    DaysBeforeMonthStep(d.year, d.month);
    DaysBeforeMonthMonotone(d.year, d.month + 1, 13);
  }

  /** Within a year, the ordinal determines the date. */
  lemma DayOfYearInjective(a: Date, b: Date)
    requires Valid(a) && Valid(b) && a.year == b.year
    requires DayOfYear(a) == DayOfYear(b)
    ensures a == b
  {
    DayOfYearRange(a);
    DayOfYearRange(b);
    if a.month < b.month {
      DaysBeforeMonthMonotone(a.year, a.month + 1, b.month);
    } else if b.month < a.month {
      DaysBeforeMonthMonotone(a.year, b.month + 1, a.month);
    }
  }

  lemma NextWithinYear(d: Date)
    requires Valid(d) && d != Dec31(d.year)
    ensures Next(d).year == d.year && DayOfYear(Next(d)) == DayOfYear(d) + 1
  {
    if d.day == DaysInMonth(d.year, d.month) && d.month < 12 {
      DaysBeforeMonthStep(d.year, d.month);
    }
  }

  /** `Jan1(y) + i` is the day of year `y` with ordinal `i + 1`. */
  lemma {:induction false} OffsetInYear(y: int, i: nat)
    requires i < DaysInYear(y)
    ensures AddDays(Jan1(y), i).year == y
    ensures DayOfYear(AddDays(Jan1(y), i)) == i + 1
    decreases i
  {
    if i > 0 {
      OffsetInYear(y, i - 1);
      var p := AddDays(Jan1(y), i - 1);
      AddDaysSucc(Jan1(y), i - 1);
      assert p != Dec31(y) by {
        assert DayOfYear(Dec31(y)) == DaysInYear(y);
      }
      NextWithinYear(p);
    }
  }

  /** Every day of year `y` is `Jan1(y)` plus its ordinal minus one. */
  lemma DateAsOffset(d: Date)
    requires Valid(d)
    ensures DayOfYear(d) - 1 < DaysInYear(d.year)
    ensures AddDays(Jan1(d.year), DayOfYear(d) - 1) == d
  {
    DayOfYearRange(d);
    OffsetInYear(d.year, DayOfYear(d) - 1);
    DayOfYearInjective(AddDays(Jan1(d.year), DayOfYear(d) - 1), d);
  }

  /** The first of month `m` lies `DaysBeforeMonth(y, m)` days after January 1. */
  lemma FirstOfMonthOffset(y: int, m: int)
    requires 1 <= m <= 12
    ensures DaysBeforeMonth(y, m) < DaysInYear(y)
    ensures AddDays(Jan1(y), DaysBeforeMonth(y, m)) == Date(y, m, 1)
  {
    DateAsOffset(Date(y, m, 1));
  }

  /** The last day of the year is `Jan1(y) + DaysInYear(y) - 1`. */
  lemma LastDayOffset(y: int)
    ensures AddDays(Jan1(y), DaysInYear(y) - 1) == Dec31(y)
  {
    DateAsOffset(Dec31(y));
  }

  // ---------------------------------------------------------------------------
  // ISO 8601 calendar-date text (RFC 3339 full-date)
  // ---------------------------------------------------------------------------

  /** Python `date.isoformat()`: `YYYY-MM-DD`, every field zero-padded. */
  function IsoFormat(d: Date): string
    requires IsPyDate(d)
  {
    PadNat(d.year, 4) + "-" + PadNat(d.month, 2) + "-" + PadNat(d.day, 2)
  }

  lemma IsoFieldWidths(d: Date)
    requires IsPyDate(d)
    ensures |PadNat(d.year, 4)| == 4 && |PadNat(d.month, 2)| == 2 && |PadNat(d.day, 2)| == 2
    ensures DigitsValue(PadNat(d.year, 4)) == d.year
    ensures DigitsValue(PadNat(d.month, 2)) == d.month
    ensures DigitsValue(PadNat(d.day, 2)) == d.day
    ensures |IsoFormat(d)| == 10
  {
    assert Pow10(4) == 10000 && Pow10(2) == 100;
    PadNatExactWidth(d.year, 4);
    PadNatExactWidth(d.month, 2);
    PadNatExactWidth(d.day, 2);
    PadNatValue(d.year, 4);
    PadNatValue(d.month, 2);
    PadNatValue(d.day, 2);
  }

  /** Text order of a fixed-width numeric field followed by more text. */
  lemma FieldOrder(p1: string, r1: string, p2: string, r2: string)
    requires AllDigits(p1) && AllDigits(p2) && |p1| == |p2|
    ensures Less(p1 + r1, p2 + r2) <==>
      DigitsValue(p1) < DigitsValue(p2) || (DigitsValue(p1) == DigitsValue(p2) && Less(r1, r2))
  {
    LessDigitsNumeric(p1, p2);
    LessDigitsNumeric(p2, p1);
    if p1 != p2 {
      LessDifferentPrefix(p1, p2, r1, r2);
      LessTotal(p1, p2);
    } else {
      LessCommonPrefix(p1, r1, r2);
    }
  }

  lemma IsoSplit(d: Date)
    requires IsPyDate(d)
    ensures IsoFormat(d)
      == PadNat(d.year, 4) + ("-" + (PadNat(d.month, 2) + ("-" + PadNat(d.day, 2))))
  {
    var y, m, dd := PadNat(d.year, 4), PadNat(d.month, 2), PadNat(d.day, 2);
    assert IsoFormat(d) == y + "-" + m + "-" + dd;
    Regroup(y, m, dd);
  }

  lemma Regroup(y: string, m: string, d: string)
    ensures y + "-" + m + "-" + d == y + ("-" + (m + ("-" + d)))
  {
  }

  /** Comparing ISO date strings as text is comparing the dates. */
  lemma IsoOrder(a: Date, b: Date)
    requires IsPyDate(a) && IsPyDate(b)
    ensures Less(IsoFormat(a), IsoFormat(b)) <==> Before(a, b)
  {
    IsoFieldWidths(a);
    IsoFieldWidths(b);
    IsoSplit(a);
    IsoSplit(b);
    var ya, ma, da := PadNat(a.year, 4), PadNat(a.month, 2), PadNat(a.day, 2);
    var yb, mb, db := PadNat(b.year, 4), PadNat(b.month, 2), PadNat(b.day, 2);
    var sa, sb := "-" + da, "-" + db;
    var ra, rb := "-" + (ma + sa), "-" + (mb + sb);
    var dayLess := Less(sa, sb);
    var monthLess := Less(ra, rb);
    assert dayLess <==> a.day < b.day by {
      LessCommonPrefix("-", da, db);
      LessDigitsNumeric(da, db);
    }
    assert monthLess <==> a.month < b.month || (a.month == b.month && a.day < b.day) by {
      LessCommonPrefix("-", ma + sa, mb + sb);
      FieldOrder(ma, sa, mb, sb);
    }
    FieldOrder(ya, ra, yb, rb);
  }

  lemma IsoInjective(a: Date, b: Date)
    requires IsPyDate(a) && IsPyDate(b) && IsoFormat(a) == IsoFormat(b)
    ensures a == b
  {
    IsoOrder(a, b);
    IsoOrder(b, a);
    LessIrreflexive(IsoFormat(a));
  }
}

=== FILE: collections.dfy ===
/** Sequence helpers shared by the grids and the services: the maximum of a
    list of counts floored at zero (`Math.max(0, ...xs)`, `max(xs, default=0)`),
    "the last entry wins" lookups (a `Map`/`dict` filled by a forward loop)
    and counting. */
module Collections {
  import opened Wrappers

  /** `Math.max(0, ...xs)`. */
  function Max0(xs: seq<int>): (r: int)
    ensures r >= 0
    ensures forall i :: 0 <= i < |xs| ==> xs[i] <= r
    ensures r == 0 || exists i :: 0 <= i < |xs| && xs[i] == r
  {
    if |xs| == 0 then 0
    else
      var m := Max0(xs[..|xs| - 1]);
      if xs[|xs| - 1] > m then xs[|xs| - 1] else m
  }

  /** `items.map(f)`: one value per element, in order. */
  function Values<T>(xs: seq<T>, f: T -> int): (r: seq<int>)
    ensures |r| == |xs| && forall k :: 0 <= k < |xs| ==> r[k] == f(xs[k])
  {
    seq(|xs|, k requires 0 <= k < |xs| => f(xs[k]))
  }

  /** Index of the last element satisfying `p`: the entry a dictionary keeps
      when a forward loop stores every matching element under one key. */
  function LastIndex<T>(xs: seq<T>, p: T -> bool): (r: Option<nat>)
    ensures r.Some? ==> r.value < |xs| && p(xs[r.value])
    ensures r.Some? ==> forall j :: r.value < j < |xs| ==> !p(xs[j])
    ensures r.None? <==> forall j :: 0 <= j < |xs| ==> !p(xs[j])
  {
    if |xs| == 0 then None
    else if p(xs[|xs| - 1]) then Some(|xs| - 1)
    else LastIndex(xs[..|xs| - 1], p)
  }

  /** Number of elements satisfying `p`. */
  function Count<T>(xs: seq<T>, p: T -> bool): (n: nat)
    ensures n <= |xs|
    ensures n == 0 <==> forall j :: 0 <= j < |xs| ==> !p(xs[j])
    ensures n == |xs| <==> forall j :: 0 <= j < |xs| ==> p(xs[j])
  {
    if |xs| == 0 then 0
    else
      var rest := Count(xs[..|xs| - 1], p);
      assert forall j :: 0 <= j < |xs| - 1 ==> xs[..|xs| - 1][j] == xs[j];
      rest + if p(xs[|xs| - 1]) then 1 else 0
  }

  lemma {:induction false} CountAppend<T>(xs: seq<T>, x: T, p: T -> bool)
    ensures Count(xs + [x], p) == Count(xs, p) + if p(x) then 1 else 0
  {
    assert (xs + [x])[..|xs|] == xs;
  }

  /** Counting splits over concatenation. */
  lemma {:induction false} CountConcat<T>(xs: seq<T>, ys: seq<T>, p: T -> bool)
    ensures Count(xs + ys, p) == Count(xs, p) + Count(ys, p)
    decreases |ys|
  {
    if |ys| > 0 {
      var init := ys[..|ys| - 1];
      assert xs + ys == (xs + init) + [ys[|ys| - 1]];
      assert ys == init + [ys[|ys| - 1]];
      CountConcat(xs, init, p);
      CountAppend(xs + init, ys[|ys| - 1], p);
      CountAppend(init, ys[|ys| - 1], p);
    } else {
      assert xs + ys == xs;
    }
  }

  /** A predicate implied by another counts at least as many elements. */
  lemma {:induction false} CountMonotone<T>(xs: seq<T>, p: T -> bool, q: T -> bool)
    requires forall x :: p(x) ==> q(x)
    ensures Count(xs, p) <= Count(xs, q)
    decreases |xs|
  {
    if |xs| > 0 {
      CountMonotone(xs[..|xs| - 1], p, q);
    }
  }
}

=== FILE: due_order.dfy ===
/** The row order both task stores ask SQLite for:
    `ORDER BY due_date IS NULL, due_date, <creation time>` — rows with a due
    date first, by due date (text order), then by creation time (text
    order). Rows with equal keys may come in any order; the sort here keeps
    table order among them. */
module DueOrder {
  import opened Wrappers
  import opened Strings

  /** The sort key of a row: its due date, if any, and its creation
      timestamp. */
  datatype DueKey = DueKey(due: Option<string>, created: string)

  /** `a` sorts strictly before `b`. */
  predicate Before(a: DueKey, b: DueKey) {
    if a.due.Some? != b.due.Some? then a.due.Some?
    else if a.due.Some? && a.due.value != b.due.value then Less(a.due.value, b.due.value)
    else Less(a.created, b.created)
  }

  /** `a` may come before `b`. */
  predicate AtMost(a: DueKey, b: DueKey) {
    !Before(b, a)
  }

  lemma BeforeIrreflexive(a: DueKey)
    ensures !Before(a, a)
  {
    LessIrreflexive(a.created);
  }

  lemma BeforeTransitive(a: DueKey, b: DueKey, c: DueKey)
    requires Before(a, b) && Before(b, c)
    ensures Before(a, c)
  {
    if a.due.Some? && b.due.Some? && c.due.Some? {
      if a.due.value != b.due.value && b.due.value != c.due.value {
        LessTransitive(a.due.value, b.due.value, c.due.value);
        if a.due.value == c.due.value {
          LessAsymmetric(a.due.value, b.due.value);
        }
      } else if a.due.value == b.due.value && b.due.value == c.due.value {
        LessTransitive(a.created, b.created, c.created);
      }
    } else if a.due.None? && b.due.None? && c.due.None? {
      LessTransitive(a.created, b.created, c.created);
    }
  }

  lemma BeforeAsymmetric(a: DueKey, b: DueKey)
    requires Before(a, b)
    ensures !Before(b, a)
  {
    if Before(b, a) {
      BeforeTransitive(a, b, a);
      BeforeIrreflexive(a);
    }
  }

  /** Any two keys are ordered one way or the other, and equal when
      neither comes first. */
  lemma BeforeTotal(a: DueKey, b: DueKey)
    ensures a == b || Before(a, b) || Before(b, a)
  {
    if a.due.Some? && b.due.Some? && a.due.value != b.due.value {
      LessTotal(a.due.value, b.due.value);
    } else {
      LessTotal(a.created, b.created);
    }
  }

  predicate SortedBy<T>(xs: seq<T>, key: T -> DueKey) {
    forall i, j :: 0 <= i < j < |xs| ==> AtMost(key(xs[i]), key(xs[j]))
  }

  /** One step of the sort: `x` placed before the first element that
      sorts strictly after it. */
  function InsertByDue<T>(xs: seq<T>, x: T, key: T -> DueKey): (r: seq<T>)
    requires SortedBy(xs, key)
    ensures SortedBy(r, key)
    ensures multiset(r) == multiset(xs) + multiset{x}
  {
    if |xs| == 0 then [x]
    else if Before(key(x), key(xs[0])) then
      FirstBelowAll(xs, key(x), key);
      [x] + xs
    else
      var rest := InsertByDue(xs[1..], x, key);
      assert xs == [xs[0]] + xs[1..];
      assert forall j :: 0 <= j < |rest| ==> AtMost(key(xs[0]), key(rest[j])) by {
        forall j | 0 <= j < |rest| ensures AtMost(key(xs[0]), key(rest[j])) {
          assert rest[j] in multiset(rest);
          if rest[j] != x {
            assert rest[j] in multiset(xs[1..]);
            var m :| 0 <= m < |xs[1..]| && xs[1..][m] == rest[j];
            assert xs[m + 1] == rest[j];
          }
        }
      }
      [xs[0]] + rest
  }

  /** A key before the first of a sorted list is before every element. */
  lemma FirstBelowAll<T>(xs: seq<T>, k: DueKey, key: T -> DueKey)
    requires SortedBy(xs, key) && |xs| > 0 && Before(k, key(xs[0]))
    ensures forall j :: 0 <= j < |xs| ==> AtMost(k, key(xs[j]))
  {
    forall j | 0 <= j < |xs| ensures AtMost(k, key(xs[j])) {
      if j == 0 {
        BeforeAsymmetric(k, key(xs[0]));
      } else if Before(key(xs[j]), k) {
        BeforeTransitive(key(xs[j]), k, key(xs[0]));
      }
    }
  }

  /** Insertion sort of the rows, in table order. */
  function SortByDue<T>(xs: seq<T>, key: T -> DueKey): (r: seq<T>)
    ensures SortedBy(r, key)
    ensures multiset(r) == multiset(xs)
  {
    if |xs| == 0 then []
    else
      assert xs == xs[..|xs| - 1] + [xs[|xs| - 1]];
      InsertByDue(SortByDue(xs[..|xs| - 1], key), xs[|xs| - 1], key)
  }

  /** In the sorted order, rows with a due date come first, in due-date
      order, and rows with the same due date in creation order. */
  lemma SortedMeaning<T>(xs: seq<T>, key: T -> DueKey, i: nat, j: nat)
    requires SortedBy(xs, key) && i < j < |xs|
    ensures key(xs[i]).due.None? ==> key(xs[j]).due.None?
    ensures key(xs[i]).due.Some? && key(xs[j]).due.Some? ==>
              LessEq(key(xs[i]).due.value, key(xs[j]).due.value)
    ensures key(xs[i]).due == key(xs[j]).due ==> LessEq(key(xs[i]).created, key(xs[j]).created)
  {
    var a := key(xs[i]);
    var b := key(xs[j]);
    assert !Before(b, a);
    if a.due.Some? && b.due.Some? {
      LessTotal(a.due.value, b.due.value);
    }
    LessTotal(a.created, b.created);
  }
}

=== FILE: git_service.dfy ===
/** ddc-desktop/backend/app/services/git_service.py: the repository panel.
    `summary` runs four git commands and reads `git status --porcelain`
    (format version 1 of git-status(1), section "Porcelain Format Version
    1": two status columns XY, then the path) into counts of staged and
    unstaged entries. The file system check and the subprocess calls are
    abstracted to their outcomes. */
module Git {
  import opened Wrappers
  import opened Strings
  import opened Collections

  // ---------------------------------------------------------------------------
  // `str.splitlines`
  // ---------------------------------------------------------------------------

  /** The line boundaries of Python's `str.splitlines`. */
  predicate LineBreak(c: char) {
    c == '\n' || c == '\r' || c == '\U{0B}' || c == '\U{0C}' || c == '\U{1C}' || c == '\U{1D}'
    || c == '\U{1E}' || c == '\U{85}' || c == '\U{2028}' || c == '\U{2029}'
  }

  predicate NoBreak(s: string) {
    forall i :: 0 <= i < |s| ==> !LineBreak(s[i])
  }

  /** Index of the first line boundary at or after `i`, or `|s|`. */
  function FirstBreak(s: string, i: nat): (j: nat)
    requires i <= |s|
    ensures i <= j <= |s|
    ensures forall k :: i <= k < j ==> !LineBreak(s[k])
    ensures j < |s| ==> LineBreak(s[j])
    decreases |s| - i
  {
    if i == |s| || LineBreak(s[i]) then i else FirstBreak(s, i + 1)
  }

  /** `s.splitlines()`: the text between boundaries, `\r\n` counting as
      one boundary and a final boundary opening no empty last line. */
  function SplitLines(s: string): (lines: seq<string>)
    ensures forall k :: 0 <= k < |lines| ==> NoBreak(lines[k])
    ensures lines == [] <==> s == ""
    decreases |s|
  {
    if s == "" then []
    else
      var j := FirstBreak(s, 0);
      if j == |s| then [s]
      else
        var next := if s[j] == '\r' && j + 1 < |s| && s[j + 1] == '\n' then j + 2 else j + 1;
        [s[..j]] + SplitLines(s[next..])
  }

  /** The text of `lines`, each one followed by a newline, as git prints
      its porcelain listing. */
  function Terminated(lines: seq<string>): (s: string)
    ensures |lines| > 0 ==> |s| > 0 && s[|s| - 1] == '\n'
  {
    if |lines| == 0 then "" else lines[0] + "\n" + Terminated(lines[1..])
  }

  lemma FirstBreakOfLine(line: string, rest: string)
    requires NoBreak(line)
    ensures FirstBreak(line + "\n" + rest, 0) == |line|
  {
    var s := line + "\n" + rest;
    assert forall k :: 0 <= k < |line| ==> s[k] == line[k];
    assert s[|line|] == '\n';
  }

  /** Splitting undoes `Terminated` when no line holds a boundary. */
  lemma {:induction false} SplitTerminated(lines: seq<string>)
    requires forall k :: 0 <= k < |lines| ==> NoBreak(lines[k])
    ensures SplitLines(Terminated(lines)) == lines
    decreases |lines|
  {
    if |lines| > 0 {
      var line, tail := lines[0], lines[1..];
      assert forall k :: 0 <= k < |tail| ==> tail[k] == lines[k + 1];
      SplitTerminated(tail);
      SplitLinesStep(line, Terminated(tail));
      assert lines == [line] + tail;
    }
  }

  /** A line free of boundaries followed by "\n" splits off as one line. */
  lemma SplitLinesStep(line: string, rest: string)
    requires NoBreak(line)
    ensures SplitLines(line + "\n" + rest) == [line] + SplitLines(rest)
  {
    var s := line + "\n" + rest;
    FirstBreakOfLine(line, rest);
    assert s[|line|] == '\n';
    assert s[..|line|] == line && s[|line| + 1..] == rest;
  }

  // ---------------------------------------------------------------------------
  // Porcelain counting
  // ---------------------------------------------------------------------------

  /** The worktree column Y, a space when the line is one character long. */
  function WorktreeCode(line: string): char {
    if |line| > 1 then line[1] else ' '
  }

  /** The line counts as staged: its index column X is neither a space
      nor `?`. */
  predicate IsStaged(line: string) {
    line != "" && line[0] != ' ' && line[0] != '?'
  }

  /** The line counts as unstaged: its worktree column is not a space, or
      the entry is untracked. */
  predicate IsUnstaged(line: string) {
    line != "" && (WorktreeCode(line) != ' ' || line[0] == '?')
  }

  predicate NonEmpty(line: string) {
    line != ""
  }

  datatype Counts = Counts(staged: nat, unstaged: nat)

  /** The counts a listing should produce: how many lines are staged and
      how many unstaged. */
  function PorcelainCounts(lines: seq<string>): Counts {
    Counts(Count(lines, IsStaged), Count(lines, IsUnstaged))
  }

  /** The counting loop of `summary`, line by line: empty lines are
      skipped, each other line adds at most one to each counter. */
  method CountPorcelain(lines: seq<string>) returns (c: Counts)
    ensures c == PorcelainCounts(lines)
  {
    var staged, unstaged := 0, 0;
    var i := 0;
    while i < |lines|
      invariant 0 <= i <= |lines|
      invariant Counts(staged, unstaged) == PorcelainCounts(lines[..i])
    {
      var line := lines[i];
      CountStep(lines, i);
      if line != "" {
        var x := line[0];
        var y := if |line| > 1 then line[1] else ' ';
        if x != ' ' && x != '?' {
          staged := staged + 1;
        }
        if y != ' ' || x == '?' {
          unstaged := unstaged + 1;
        }
      }
      i := i + 1;
    }
    assert lines[..|lines|] == lines;
    c := Counts(staged, unstaged);
  }

  /** One more line adds one to a counter exactly when the source's test
      for that counter holds. */
  lemma CountStep(lines: seq<string>, i: nat)
    requires i < |lines|
    ensures var line, c := lines[i], PorcelainCounts(lines[..i]);
      PorcelainCounts(lines[..i + 1])
      == Counts(c.staged + (if line != "" && line[0] != ' ' && line[0] != '?' then 1 else 0),
                c.unstaged + (if line != "" && ((if |line| > 1 then line[1] else ' ') != ' ' || line[0] == '?')
                              then 1 else 0))
  {
    assert lines[..i + 1] == lines[..i] + [lines[i]];
    CountAppend(lines[..i], lines[i], IsStaged);
    CountAppend(lines[..i], lines[i], IsUnstaged);
  }

  /** Neither count exceeds the number of non-empty lines. */
  lemma CountsAtMostLines(lines: seq<string>)
    ensures PorcelainCounts(lines).staged <= Count(lines, NonEmpty)
    ensures PorcelainCounts(lines).unstaged <= Count(lines, NonEmpty)
  {
    CountMonotone(lines, IsStaged, NonEmpty);
    CountMonotone(lines, IsUnstaged, NonEmpty);
  }

  /** Empty lines change neither count. */
  lemma EmptyLinesIgnored(before: seq<string>, after: seq<string>)
    ensures PorcelainCounts(before + [""] + after) == PorcelainCounts(before + after)
  {
    CountConcat(before + [""], after, IsStaged);
    CountConcat(before + [""], after, IsUnstaged);
    CountAppend(before, "", IsStaged);
    CountAppend(before, "", IsUnstaged);
    CountConcat(before, after, IsStaged);
    CountConcat(before, after, IsUnstaged);
  }

  /** An untracked entry (`??`) is unstaged and never staged; a
      modification only in the worktree (` M`) likewise; one only in the
      index (`M `) is staged only. */
  lemma StatusCodes(path: string)
    ensures IsUnstaged("??" + path) && !IsStaged("??" + path)
    ensures IsUnstaged(" M" + path) && !IsStaged(" M" + path)
    ensures IsStaged("M " + path) && !IsUnstaged("M " + path)
  {
    assert ("??" + path)[0] == '?';
    assert (" M" + path)[0] == ' ' && (" M" + path)[1] == 'M';
    assert ("M " + path)[0] == 'M' && ("M " + path)[1] == ' ';
  }

  // ---------------------------------------------------------------------------
  // `summary`
  // ---------------------------------------------------------------------------

  /** What one `subprocess.run(["git", ...])` call gave back. */
  datatype GitRun = GitRun(returnCode: int, stdout: string, stderr: string)

  const RepoMissing: string := "Repo path tidak ditemukan."
  const NotARepo: string := "Bukan repository git."
  const GitFailed: string := "git command failed"
  const OkMessage: string := "OK"

  /** `_run_git`: a non-zero exit raises with the stripped stderr, or a
      fixed text when that is empty; success yields the stripped stdout. */
  function RunGit(run: GitRun): (r: Result<string>)
    ensures r.Err? <==> run.returnCode != 0
    ensures r.Err? && PyStrip(run.stderr) != "" ==> r.message == PyStrip(run.stderr)
    ensures r.Err? && PyStrip(run.stderr) == "" ==> r.message == GitFailed
    ensures r.Ok? ==> r.value == PyStrip(run.stdout)
  {
    if run.returnCode != 0 then
      var e := PyStrip(run.stderr);
      Err(if e != "" then e else GitFailed)
    else Ok(PyStrip(run.stdout))
  }

  datatype RepoSummary =
    | Failed(message: string)
    | Summary(message: string, branch: string, lastCommit: string, staged: nat, unstaged: nat)

  /** The listing as `summary` counts it. */
  function StatusLines(status: string): seq<string> {
    SplitLines(status)
  }

  /** `summary(repo_path)` as written: a missing directory, a failing git
      command and a directory outside a work tree are reported in that
      order; otherwise the counts are taken from the stripped porcelain
      output. */
  function RepoSummaryOf(isDir: bool, inside: GitRun, branch: GitRun, log: GitRun, status: GitRun)
    : (r: RepoSummary)
    ensures !isDir ==> r == Failed(RepoMissing)
    ensures r.Summary? <==> isDir && inside.returnCode == 0 && LowerAscii(PyStrip(inside.stdout)) == "true"
                            && branch.returnCode == 0 && log.returnCode == 0 && status.returnCode == 0
    ensures r.Summary? ==> r.message == OkMessage && r.branch == PyStrip(branch.stdout)
                           && r.lastCommit == PyStrip(log.stdout)
    ensures isDir && inside.returnCode == 0 && LowerAscii(PyStrip(inside.stdout)) != "true" ==> r == Failed(NotARepo)
    ensures isDir && inside.returnCode != 0 ==> r == Failed(RunGit(inside).message)
    ensures InsideWorkTree(isDir, inside) && branch.returnCode != 0 ==> r == Failed(RunGit(branch).message)
    ensures InsideWorkTree(isDir, inside) && branch.returnCode == 0 && log.returnCode != 0 ==>
      r == Failed(RunGit(log).message)
    ensures InsideWorkTree(isDir, inside) && branch.returnCode == 0 && log.returnCode == 0 && status.returnCode != 0 ==>
      r == Failed(RunGit(status).message)
  {
    SummaryWith(isDir, inside, branch, log, status, RunGit(status))
  }

  /** The directory exists and `git rev-parse --is-inside-work-tree`
      succeeded and printed `true`. */
  predicate InsideWorkTree(isDir: bool, inside: GitRun) {
    isDir && inside.returnCode == 0 && LowerAscii(PyStrip(inside.stdout)) == "true"
  }

  /** The common shape of `summary`, given how the status listing is
      read. The first git call that fails decides the message: `str(exc)`
      of the error `_run_git` raised. */
  function SummaryWith(isDir: bool, inside: GitRun, branch: GitRun, log: GitRun, status: GitRun,
                       listing: Result<string>): (r: RepoSummary)
    ensures r.Summary? <==> isDir && inside.returnCode == 0 && LowerAscii(PyStrip(inside.stdout)) == "true"
                            && branch.returnCode == 0 && log.returnCode == 0 && listing.Ok?
    ensures r.Summary? ==> r.message == OkMessage && r.branch == PyStrip(branch.stdout)
                           && r.lastCommit == PyStrip(log.stdout)
    ensures !isDir ==> r == Failed(RepoMissing)
    ensures isDir && inside.returnCode != 0 ==> r == Failed(RunGit(inside).message)
    ensures isDir && inside.returnCode == 0 && LowerAscii(PyStrip(inside.stdout)) != "true" ==> r == Failed(NotARepo)
    ensures InsideWorkTree(isDir, inside) && branch.returnCode != 0 ==> r == Failed(RunGit(branch).message)
    ensures InsideWorkTree(isDir, inside) && branch.returnCode == 0 && log.returnCode != 0 ==>
      r == Failed(RunGit(log).message)
    ensures InsideWorkTree(isDir, inside) && branch.returnCode == 0 && log.returnCode == 0 && listing.Err? ==>
      r == Failed(listing.message)
  {
    if !isDir then Failed(RepoMissing)
    else match RunGit(inside)
      case Err(e) => Failed(e)
      case Ok(answer) =>
        if LowerAscii(answer) != "true" then Failed(NotARepo)
        else match RunGit(branch)
          case Err(e) => Failed(e)
          case Ok(b) =>
            match RunGit(log)
            case Err(e) => Failed(e)
            case Ok(l) =>
              match listing
              case Err(e) => Failed(e)
              case Ok(s) =>
                var c := PorcelainCounts(StatusLines(s));
                Summary(OkMessage, b, l, c.staged, c.unstaged)
  }

  /** The status listing read without stripping: git's own lines. */
  function RawListing(status: GitRun): (r: Result<string>)
    ensures r.Err? <==> status.returnCode != 0
    ensures r.Ok? ==> r.value == status.stdout
  {
    if status.returnCode != 0 then RunGit(status) else Ok(status.stdout)
  }

  /** `summary` with the porcelain listing counted as git printed it. */
  function RepoSummaryFixed(isDir: bool, inside: GitRun, branch: GitRun, log: GitRun, status: GitRun)
    : (r: RepoSummary)
    ensures r.Summary? <==> RepoSummaryOf(isDir, inside, branch, log, status).Summary?
    ensures !r.Summary? ==> r == RepoSummaryOf(isDir, inside, branch, log, status)
  {
    SummaryWith(isDir, inside, branch, log, status, RawListing(status))
  }

  /** With the listing counted as printed, every line git reports is
      classified by its own XY columns. */
  lemma FixedCountsEveryLine(isDir: bool, inside: GitRun, branch: GitRun, log: GitRun,
                             lines: seq<string>)
    requires forall k :: 0 <= k < |lines| ==> NoBreak(lines[k])
    requires isDir && InWorkTree(inside, branch, log)
    ensures var r := RepoSummaryFixed(isDir, inside, branch, log, GitRun(0, Terminated(lines), ""));
      r.Summary? && r.staged == Count(lines, IsStaged) && r.unstaged == Count(lines, IsUnstaged)
  {
    var status := GitRun(0, Terminated(lines), "");
    SplitTerminated(lines);
    FixedCountsOf(inside, branch, log, status, lines);
  }

  lemma FixedCountsOf(inside: GitRun, branch: GitRun, log: GitRun, status: GitRun, lines: seq<string>)
    requires InWorkTree(inside, branch, log) && status.returnCode == 0 && SplitLines(status.stdout) == lines
    ensures var r := RepoSummaryFixed(true, inside, branch, log, status);
      r.Summary? && r.staged == Count(lines, IsStaged) && r.unstaged == Count(lines, IsUnstaged)
  {
    FixedSummaryOfListing(inside, branch, log, status);
  }

  /** The written summary succeeds on a listing git printed exactly when
      the directory is a work tree whose branch and log calls succeed. */
  lemma SummaryMeansWorkTree(isDir: bool, inside: GitRun, branch: GitRun, log: GitRun, status: GitRun)
    requires status.returnCode == 0
    ensures RepoSummaryOf(isDir, inside, branch, log, status).Summary? <==> isDir && InWorkTree(inside, branch, log)
  {
  }

  lemma FixedSummaryOfListing(inside: GitRun, branch: GitRun, log: GitRun, status: GitRun)
    requires InWorkTree(inside, branch, log) && status.returnCode == 0
    ensures var c := PorcelainCounts(SplitLines(status.stdout));
      RepoSummaryFixed(true, inside, branch, log, status)
      == Summary(OkMessage, PyStrip(branch.stdout), PyStrip(log.stdout), c.staged, c.unstaged)
  {
    assert RawListing(status) == Ok(status.stdout);
    SummaryOfListing(inside, branch, log, status, RawListing(status));
    assert RepoSummaryFixed(true, inside, branch, log, status)
      == SummaryWith(true, inside, branch, log, status, RawListing(status));
  }

  /** `inside` reports a work tree, and the branch and log commands
      succeed. */
  predicate InWorkTree(inside: GitRun, branch: GitRun, log: GitRun) {
    RunGit(inside).Ok? && LowerAscii(RunGit(inside).value) == "true"
    && branch.returnCode == 0 && log.returnCode == 0
  }

  /** A path as git prints it in a porcelain line: no line boundary, and
      not ending in whitespace. */
  predicate PlainPath(path: string) {
    path != "" && NoBreak(path) && !PyWhitespace(path[|path| - 1])
  }

  /** As written, stripping the whole output takes the leading space of
      the first line with it: a file modified only in the worktree,
      ` M a.txt`, is counted as staged and not as unstaged. */
  lemma StripMisreadsFirstLine(inside: GitRun, branch: GitRun, log: GitRun, path: string)
    requires InWorkTree(inside, branch, log) && PlainPath(path)
    ensures var r := RepoSummaryOf(true, inside, branch, log, GitRun(0, " M " + path + "\n", ""));
      r.Summary? && r.staged == 1 && r.unstaged == 0
  {
    var status := GitRun(0, " M " + path + "\n", "");
    StrippedListing(path);
    StagedLineCounts(path);
    SummaryOfListing(inside, branch, log, status, Ok("M " + path));
  }

  /** Stripping ` M <path>` and its newline leaves `M <path>`. */
  lemma StrippedListing(path: string)
    requires PlainPath(path)
    ensures RunGit(GitRun(0, " M " + path + "\n", "")) == Ok("M " + path)
  {
    var line := "M " + path;
    assert " M " + path + "\n" == " " + line + "\n";
    StripEnds(" ", line, "\n");
  }

  /** `M <path>` alone is one staged entry and no unstaged one. */
  lemma StagedLineCounts(path: string)
    requires PlainPath(path)
    ensures PorcelainCounts(SplitLines("M " + path)) == Counts(1, 0)
  {
    var line := "M " + path;
    assert line[0] == 'M' && line[1] == ' ';
    assert NoBreak(line) by {
      forall i | 0 <= i < |line| ensures !LineBreak(line[i]) {
        if i >= 2 { assert line[i] == path[i - 2]; }
      }
    }
    SplitOneLine(line);
    OneLineCounts(line);
  }

  /** Counted as printed, the same listing gives one unstaged entry and no
      staged one. */
  lemma FixedReadsFirstLine(inside: GitRun, branch: GitRun, log: GitRun, path: string)
    requires InWorkTree(inside, branch, log) && PlainPath(path)
    ensures var r := RepoSummaryFixed(true, inside, branch, log, GitRun(0, " M " + path + "\n", ""));
      r.Summary? && r.staged == 0 && r.unstaged == 1
  {
    var line := " M " + path;
    assert line[0] == ' ' && line[1] == 'M';
    assert !IsStaged(line) && IsUnstaged(line);
    assert NoBreak(line);
    assert Terminated([line]) == line + "\n";
    SplitTerminated([line]);
    OneLineCounts(line);
    var status := GitRun(0, line + "\n", "");
    assert RawListing(status) == Ok(line + "\n");
    SummaryOfListing(inside, branch, log, status, Ok(line + "\n"));
    assert RepoSummaryFixed(true, inside, branch, log, status)
      == SummaryWith(true, inside, branch, log, status, Ok(line + "\n"));
  }

  /** The listing ` M a.txt` of a repository whose `inside` check printed
      `true`: two counts apart between the written and the corrected
      reading. */
  lemma FirstLineExample(inside: GitRun, branch: GitRun, log: GitRun)
    requires InWorkTree(inside, branch, log)
    ensures RepoSummaryOf(true, inside, branch, log, GitRun(0, " M a.txt\n", "")).staged == 1
    ensures RepoSummaryFixed(true, inside, branch, log, GitRun(0, " M a.txt\n", "")).unstaged == 1
  {
    assert PlainPath("a.txt");
    assert " M " + "a.txt" + "\n" == " M a.txt\n";
    StripMisreadsFirstLine(inside, branch, log, "a.txt");
    FixedReadsFirstLine(inside, branch, log, "a.txt");
  }

  lemma OneLineCounts(line: string)
    ensures PorcelainCounts([line]) == Counts(if IsStaged(line) then 1 else 0, if IsUnstaged(line) then 1 else 0)
  {
    CountAppend([], line, IsStaged);
    CountAppend([], line, IsUnstaged);
    assert [] + [line] == [line];
  }

  /** Once every earlier step succeeds, the summary carries the counts of
      the listing's lines. */
  lemma SummaryOfListing(inside: GitRun, branch: GitRun, log: GitRun, status: GitRun, listing: Result<string>)
    requires InWorkTree(inside, branch, log) && listing.Ok?
    ensures var c := PorcelainCounts(SplitLines(listing.value));
      SummaryWith(true, inside, branch, log, status, listing)
      == Summary(OkMessage, PyStrip(branch.stdout), PyStrip(log.stdout), c.staged, c.unstaged)
  {
  }

  lemma SplitOneLine(line: string)
    requires line != "" && NoBreak(line)
    ensures SplitLines(line) == [line]
  {
  }

  lemma StripEnds(pre: string, mid: string, post: string)
    requires mid != "" && !PyWhitespace(mid[0]) && !PyWhitespace(mid[|mid| - 1])
    requires forall i :: 0 <= i < |pre| ==> PyWhitespace(pre[i])
    requires forall i :: 0 <= i < |post| ==> PyWhitespace(post[i])
    ensures PyStrip(pre + mid + post) == mid
  {
    var x, rest := pre + mid + post, mid + post;
    assert x == pre + rest;
    assert rest[0] == mid[0];
    StripPrefix(pre, rest);
    StripSuffix(mid, post);
    assert PyStrip(x) == TrimEnd(TrimStart(x, PyWhitespace), PyWhitespace);
  }

  lemma {:induction false} StripPrefix(pre: string, s: string)
    requires s != "" && !PyWhitespace(s[0])
    requires forall i :: 0 <= i < |pre| ==> PyWhitespace(pre[i])
    ensures TrimStart(pre + s, PyWhitespace) == s
    decreases |pre|
  {
    if |pre| > 0 {
      assert (pre + s)[1..] == pre[1..] + s;
      StripPrefix(pre[1..], s);
    } else {
      assert pre + s == s;
    }
  }

  lemma {:induction false} StripSuffix(s: string, post: string)
    requires s != "" && !PyWhitespace(s[|s| - 1])
    requires forall i :: 0 <= i < |post| ==> PyWhitespace(post[i])
    ensures TrimEnd(s + post, PyWhitespace) == s
    decreases |post|
  {
    if |post| > 0 {
      var init := post[..|post| - 1];
      assert (s + post)[..|s + post| - 1] == s + init;
      StripSuffix(s, init);
    } else {
      assert s + post == s;
    }
  }
}

=== FILE: github_service.dfy ===
/** ddc-desktop/backend/app/services/github_service.py: the pure rules
    behind the offline GitHub profile. Contribution counts are read from
    tooltip text, merged per day (the highest count of the day's cells)
    and listed in date order; a profile reference is reduced to a user
    name; the summary picks the year to show; the avatar route keeps only
    the last component of the requested name. The profile-field
    normalisation of ddc-desktop/frontend/src/App.jsx sits here as well,
    since it feeds the same user-name rule. */
module GitHub {
  import opened Wrappers
  import opened Strings

  // ---------------------------------------------------------------------------
  // Text helpers
  // ---------------------------------------------------------------------------

  /** The text before the first character of `stops`, or all of `s`. */
  function Until(s: string, stops: set<char>): (r: string)
    ensures StartsWith(s, r)
    ensures forall i :: 0 <= i < |r| ==> r[i] !in stops
    ensures |r| < |s| ==> s[|r|] in stops
  {
    if |s| == 0 || s[0] in stops then []
    else
      var rest := Until(s[1..], stops);
      assert s[..|rest| + 1] == [s[0]] + s[1..][..|rest|];
      [s[0]] + rest
  }

  /** A prefix free of stop characters, followed by a stop character, is
      exactly what `Until` keeps. */
  lemma UntilStops(s: string, stops: set<char>, n: nat)
    requires n <= |s| && (forall i :: 0 <= i < n ==> s[i] !in stops) && (n < |s| ==> s[n] in stops)
    ensures Until(s, stops) == s[..n]
  {
  }

  function LastIndexOf(s: string, c: char): (r: Option<nat>)
    ensures r.Some? ==> r.value < |s| && s[r.value] == c
    ensures r.Some? ==> forall k :: r.value < k < |s| ==> s[k] != c
    ensures r.None? ==> forall k :: 0 <= k < |s| ==> s[k] != c
  {
    if |s| == 0 then None
    else if s[|s| - 1] == c then Some(|s| - 1)
    else LastIndexOf(s[..|s| - 1], c)
  }

  // ---------------------------------------------------------------------------
  // `_parse_contribution_count`
  // ---------------------------------------------------------------------------

  const NoContributionText: string := "no contribution"
  const ContributionWord: string := "contribution"

  /** End of the run of digits starting at `i`. */
  function DigitRunEnd(s: string, i: nat): (j: nat)
    requires i <= |s|
    ensures i <= j <= |s|
    ensures forall k :: i <= k < j ==> IsDigit(s[k])
    ensures j == |s| || !IsDigit(s[j])
    decreases |s| - i
  {
    if i < |s| && IsDigit(s[i]) then DigitRunEnd(s, i + 1) else i
  }

  /** End of the run of whitespace (`\s`) starting at `i`. */
  function SpaceRunEnd(s: string, i: nat): (j: nat)
    requires i <= |s|
    ensures i <= j <= |s|
    ensures forall k :: i <= k < j ==> PyWhitespace(s[k])
    ensures j == |s| || !PyWhitespace(s[j])
    decreases |s| - i
  {
    if i < |s| && PyWhitespace(s[i]) then SpaceRunEnd(s, i + 1) else i
  }

  /** `(\d+)\s+contribution`, ignoring case, matches at `i`. Neither run
      can hand characters back to the pattern after it (a digit is not
      whitespace, whitespace is not "c"), so the greedy runs are the only
      candidates. */
  predicate CountMatchAt(s: string, i: nat)
    requires i <= |s|
  {
    var j := DigitRunEnd(s, i);
    var k := SpaceRunEnd(s, j);
    i < j < k && k + |ContributionWord| <= |s|
    && LowerAscii(s[k..k + |ContributionWord|]) == ContributionWord
  }

  /** The number a match at `i` captures. */
  function MatchValue(s: string, i: nat): nat
    requires i <= |s|
  {
    DigitsValue(s[i..DigitRunEnd(s, i)])
  }

  /** `re.search`: the leftmost match at or after `i`. */
  function FirstCountMatch(s: string, i: nat): (r: Option<nat>)
    requires i <= |s|
    ensures r.Some? ==> i <= r.value < |s| && CountMatchAt(s, r.value)
    ensures r.Some? ==> forall m :: i <= m < r.value ==> !CountMatchAt(s, m)
    ensures r.None? ==> forall m :: i <= m <= |s| ==> !CountMatchAt(s, m)
    decreases |s| - i
  {
    if i == |s| then None
    else if CountMatchAt(s, i) then Some(i)
    else FirstCountMatch(s, i + 1)
  }

  /** `_parse_contribution_count(text)`, with `unescape` as the identity:
      nothing for absent or blank text; the number itself for a digit
      string; 0 when the text says "no contribution" in any case; else the
      number before the first "contribution". */
  function ParseContributionCount(text: Option<string>): (r: Option<nat>)
    ensures text.None? || PyStrip(text.value) == "" ==> r.None?
  {
    match text
    case None => None
    case Some(t) =>
      var value := PyStrip(t);
      if value == "" then None
      else if AllDigits(value) then Some(DigitsValue(value))
      else if Contains(LowerAscii(value), NoContributionText) then Some(0)
      else
        match FirstCountMatch(value, 0)
        case Some(k) => Some(MatchValue(value, k))
        case None => None
  }

  /** Stripped text that is not a plain number and says "no contribution"
      in any case reads as 0. */
  lemma ParseSaysNone(t: string)
    requires var v := PyStrip(t); v != "" && !AllDigits(v) && Contains(LowerAscii(v), NoContributionText)
    ensures ParseContributionCount(Some(t)) == Some(0)
  {
  }

  /** Otherwise the number is the one captured by the leftmost match of
      `(\d+)\s+contribution` in the stripped text (`FirstCountMatch`
      states that no match starts before `k`). */
  lemma ParseFindsCount(t: string, k: nat)
    requires var v := PyStrip(t);
      v != "" && !AllDigits(v) && !Contains(LowerAscii(v), NoContributionText)
      && FirstCountMatch(v, 0) == Some(k)
    ensures k < |PyStrip(t)| && CountMatchAt(PyStrip(t), k)
    ensures ParseContributionCount(Some(t)) == Some(MatchValue(PyStrip(t), k))
  {
    var v := PyStrip(t);
    SearchBranch(t, v);
    var r := FirstCountMatch(v, 0);
    assert r.Some? ==> r.value < |v| && CountMatchAt(v, r.value);
  }

  /** Past the digit and "no contribution" tests, the result is that of
      the search. */
  lemma SearchBranch(t: string, v: string)
    requires v == PyStrip(t) && v != "" && !AllDigits(v) && !Contains(LowerAscii(v), NoContributionText)
    ensures ParseContributionCount(Some(t))
      == if FirstCountMatch(v, 0).Some? then Some(MatchValue(v, FirstCountMatch(v, 0).value)) else None
  {
  }

  /** And with no match at all the text reads as nothing. */
  lemma ParseSaysNothing(t: string)
    requires var v := PyStrip(t);
      !AllDigits(v) && !Contains(LowerAscii(v), NoContributionText)
      && forall m :: 0 <= m <= |v| ==> !CountMatchAt(v, m)
    ensures ParseContributionCount(Some(t)) == None
  {
  }

  /** A `data-count` attribute, leading zeros and all, reads as its number. */
  lemma CountOfDigits(n: nat, width: nat)
    ensures ParseContributionCount(Some(PadNat(n, width))) == Some(n)
  {
    PaddedIsPlain(n, width);
    ParseSaysDigits(PadNat(n, width));
  }

  lemma PaddedIsPlain(n: nat, width: nat)
    ensures var s := PadNat(n, width);
      PyStrip(s) == s && s != "" && AllDigits(s) && DigitsValue(s) == n
  {
    DigitsStripped(PadNat(n, width));
    PadNatValue(n, width);
  }

  lemma DigitsStripped(s: string)
    requires AllDigits(s)
    ensures PyStrip(s) == s
  {
    if |s| > 0 {
      assert IsDigit(s[0]) && IsDigit(s[|s| - 1]);
    }
    TrimNoop(s, PyWhitespace);
  }

  /** Text that strips to a non-empty run of digits reads as that number. */
  lemma ParseSaysDigits(t: string)
    requires var v := PyStrip(t); v != "" && AllDigits(v)
    ensures ParseContributionCount(Some(t)) == Some(DigitsValue(PyStrip(t)))
  {
  }

  function Plural(plural: bool): string {
    if plural then "s" else ""
  }

  /** GitHub's tooltip "N contribution(s)" reads as N. */
  lemma CountOfTooltip(n: nat, plural: bool)
    ensures ParseContributionCount(Some(NatToString(n) + " " + ContributionWord + Plural(plural))) == Some(n)
  {
    var d, w := NatToString(n), " " + ContributionWord + Plural(plural);
    assert d + " " + ContributionWord + Plural(plural) == d + w;
    TooltipDigits(d, plural);
  }

  lemma TooltipDigits(d: string, plural: bool)
    requires |d| > 0 && AllDigits(d)
    ensures ParseContributionCount(Some(d + (" " + ContributionWord + Plural(plural)))) == Some(DigitsValue(d))
  {
    var w := " " + ContributionWord + Plural(plural);
    TooltipStripped(d, w);
    TooltipNotEmpty(d, w);
    assert w[..1 + |ContributionWord|] == " " + ContributionWord;
    TooltipMatch(d, w);
    ParseFindsCount(d + w, 0);
  }

  lemma TooltipStripped(d: string, w: string)
    requires |d| > 0 && AllDigits(d) && |w| > 2 && w[0] == ' ' && w[|w| - 1] in {'n', 's'}
    ensures PyStrip(d + w) == d + w && !AllDigits(d + w)
  {
    var s := d + w;
    assert s[0] == d[0] && s[|s| - 1] == w[|w| - 1] && s[|d|] == ' ';
    TrimNoop(s, PyWhitespace);
  }

  lemma TooltipNotEmpty(d: string, w: string)
    requires AllDigits(d) && |w| <= |NoContributionText| - 1
    ensures !Contains(LowerAscii(d + w), NoContributionText)
  {
    var lower := LowerAscii(d + w);
    forall p | 0 <= p <= |lower| - |NoContributionText|
      ensures lower[p] != NoContributionText[0]
    {
      assert (d + w)[p] == d[p];
    }
    NotContains(lower, NoContributionText);
  }

  lemma TooltipMatch(d: string, w: string)
    requires |d| > 0 && AllDigits(d) && |w| >= 1 + |ContributionWord|
    requires w[..1 + |ContributionWord|] == " " + ContributionWord
    ensures FirstCountMatch(d + w, 0) == Some(0) && MatchValue(d + w, 0) == DigitsValue(d)
  {
    var s, n := d + w, |d|;
    assert forall p :: 0 <= p < n ==> s[p] == d[p];
    assert s[n..n + 1 + |ContributionWord|] == w[..1 + |ContributionWord|];
    assert s[0..n] == d;
    MatchAtStart(s, n);
  }

  lemma MatchAtStart(s: string, n: nat)
    requires 0 < n && n + 1 + |ContributionWord| <= |s| && (forall p :: 0 <= p < n ==> IsDigit(s[p]))
    requires s[n..n + 1 + |ContributionWord|] == " " + ContributionWord
    ensures FirstCountMatch(s, 0) == Some(0) && MatchValue(s, 0) == DigitsValue(s[0..n])
  {
    RunEnds(s, n);
    WordIsLower();
    assert CountMatchAt(s, 0);
  }

  lemma WordIsLower()
    ensures LowerAscii(ContributionWord) == ContributionWord
  {
    assert NoUpperAscii(ContributionWord);
    LowerAsciiNoop(ContributionWord);
  }

  lemma RunEnds(s: string, n: nat)
    requires 0 < n && n + 1 + |ContributionWord| <= |s| && (forall p :: 0 <= p < n ==> IsDigit(s[p]))
    requires s[n..n + 1 + |ContributionWord|] == " " + ContributionWord
    ensures DigitRunEnd(s, 0) == n && SpaceRunEnd(s, n) == n + 1
    ensures s[n + 1..n + 1 + |ContributionWord|] == ContributionWord
  {
    assert s[n] == ' ' && s[n + 1] == 'c';
    assert s[n + 1..n + 1 + |ContributionWord|] == s[n..n + 1 + |ContributionWord|][1..];
  }

  /** GitHub's tooltip for an empty day, "No contributions ...", reads as
      0 whatever follows it. */
  lemma NoContributionsTooltip(tail: string)
    requires tail == "" || !PyWhitespace(tail[|tail| - 1])
    ensures ParseContributionCount(Some("No contributions" + tail)) == Some(0)
  {
    var s := "No contributions" + tail;
    EmptyDayStripped(s, tail);
    EmptyDaySaysNone(s, tail);
    ParseSaysNone(s);
  }

  lemma EmptyDayStripped(s: string, tail: string)
    requires s == "No contributions" + tail
    requires tail == "" || !PyWhitespace(tail[|tail| - 1])
    ensures PyStrip(s) == s && s != "" && !AllDigits(s)
  {
    assert s[0] == 'N' && s[|s| - 1] == if tail == "" then 's' else tail[|tail| - 1];
    TrimNoop(s, PyWhitespace);
    assert !IsDigit(s[0]);
  }

  lemma EmptyDaySaysNone(s: string, tail: string)
    requires s == "No contributions" + tail
    ensures Contains(LowerAscii(s), NoContributionText)
  {
    var rest := "o contribution";
    EmptyDayShape(s, tail);
    LowerAsciiConcat(['N'] + rest, "s" + tail);
    LowerAsciiConcat(['N'], rest);
    LowerCaseWords();
    var lower := ['n'] + rest + LowerAscii("s" + tail);
    assert LowerAscii(s) == lower;
    NoContributionPrefix(LowerAscii("s" + tail));
  }

  lemma EmptyDayShape(s: string, tail: string)
    requires s == "No contributions" + tail
    ensures s == ['N'] + "o contribution" + ("s" + tail)
  {
  }

  lemma LowerCaseWords()
    ensures LowerAscii(['N']) == ['n'] && LowerAscii("o contribution") == "o contribution"
  {
    LowerN();
    LowerRest();
  }

  lemma LowerN()
    ensures LowerAscii(['N']) == ['n']
  {
  }

  lemma LowerRest()
    ensures LowerAscii("o contribution") == "o contribution"
  {
    assert NoUpperAscii("o contribution");
    LowerAsciiNoop("o contribution");
  }

  lemma NoContributionPrefix(x: string)
    ensures StartsWith(['n'] + "o contribution" + x, NoContributionText)
  {
    assert (['n'] + "o contribution" + x)[..15] == ['n'] + "o contribution";
  }

  // ---------------------------------------------------------------------------
  // `_merge_contributions`
  // ---------------------------------------------------------------------------

  /** `count_by_id.get(id_value, 0)`. */
  function CountFor(countById: map<string, int>, id: string): int {
    if id in countById then countById[id] else 0
  }

  /** `merged` is the merge of the cells `ids`: one key per date of those
      cells, and each date's value is the highest count among its cells. */
  predicate IsMerge(dateById: map<string, string>, countById: map<string, int>, ids: set<string>,
                    merged: map<string, int>)
    requires ids <= dateById.Keys
  {
    (forall id :: id in ids ==> dateById[id] in merged && CountFor(countById, id) <= merged[dateById[id]])
    && (forall d :: d in merged ==> exists id :: id in ids && dateById[id] == d && CountFor(countById, id) == merged[d])
  }

  /** `_merge_contributions(date_by_id, count_by_id)`. The loop visits the
      cells in an arbitrary order; the result does not depend on it. */
  method MergeContributions(dateById: map<string, string>, countById: map<string, int>)
    returns (merged: map<string, int>)
    ensures IsMerge(dateById, countById, dateById.Keys, merged)
    ensures merged.Keys == dateById.Values
  {
    merged := map[];
    var done: set<string> := {};
    var todo := dateById.Keys;
    while todo != {}
      invariant done <= dateById.Keys && todo == dateById.Keys - done
      invariant IsMerge(dateById, countById, done, merged)
      decreases todo
    {
      var id :| id in todo;
      MergeStep(dateById, countById, done, merged, id);
      merged := MergeOne(merged, dateById[id], CountFor(countById, id));
      done := done + {id};
      todo := todo - {id};
    }
    assert done == dateById.Keys;
    MergeKeys(dateById, countById, merged);
  }

  /** The merged days are exactly the days some cell carries. */
  lemma MergeKeys(dateById: map<string, string>, countById: map<string, int>, merged: map<string, int>)
    requires IsMerge(dateById, countById, dateById.Keys, merged)
    ensures merged.Keys == dateById.Values
  {
    forall d | d in dateById.Values ensures d in merged {
      var id :| id in dateById && dateById[id] == d;
    }
  }

  /** One pass of the merging loop: the day's value is replaced when it is
      new or the cell's count is higher. */
  function MergeOne(merged: map<string, int>, d: string, c: int): map<string, int> {
    if d !in merged || c > merged[d] then merged[d := c] else merged
  }

  lemma MergeStep(dateById: map<string, string>, countById: map<string, int>, done: set<string>,
                  merged: map<string, int>, id: string)
    requires done <= dateById.Keys && id in dateById
    requires IsMerge(dateById, countById, done, merged)
    ensures IsMerge(dateById, countById, done + {id}, MergeOne(merged, dateById[id], CountFor(countById, id)))
  {
    var d, c := dateById[id], CountFor(countById, id);
    var next := MergeOne(merged, d, c);
    forall e | e in next
      ensures exists x :: x in done + {id} && dateById[x] == e && CountFor(countById, x) == next[e]
    {
      if e == d && next[e] == c {
        assert dateById[id] == e;
      } else {
        var x :| x in done && dateById[x] == e && CountFor(countById, x) == merged[e];
        assert x in done + {id};
      }
    }
  }

  /** The merge is determined by its inputs: whatever order the loop
      visits the cells in, the same map comes out. */
  lemma MergeUnique(dateById: map<string, string>, countById: map<string, int>,
                    m1: map<string, int>, m2: map<string, int>)
    requires IsMerge(dateById, countById, dateById.Keys, m1)
    requires IsMerge(dateById, countById, dateById.Keys, m2)
    ensures m1 == m2
  {
    forall d | d in m1 ensures m1[d] == m2[d] {
      var i1 :| i1 in dateById && dateById[i1] == d && CountFor(countById, i1) == m1[d];
      var i2 :| i2 in dateById && dateById[i2] == d && CountFor(countById, i2) == m2[d];
    }
  }

  // ---------------------------------------------------------------------------
  // The sorted tail of `_fetch_contributions`
  // ---------------------------------------------------------------------------

  datatype Contribution = Contribution(date: string, count: int)

  predicate SortedByDate(xs: seq<Contribution>) {
    forall i, j :: 0 <= i < j < |xs| ==> Less(xs[i].date, xs[j].date)
  }

  /** One step of sorting by date: `c` placed before the first later date. */
  function InsertByDate(xs: seq<Contribution>, c: Contribution): (r: seq<Contribution>)
    requires SortedByDate(xs) && forall i :: 0 <= i < |xs| ==> xs[i].date != c.date
    ensures SortedByDate(r) && |r| == |xs| + 1
    ensures forall x :: x in r <==> x == c || x in xs
  {
    if |xs| == 0 then [c]
    else if Less(c.date, xs[0].date) then
      assert forall j :: 0 < j < |xs| ==> Less(c.date, xs[j].date) by {
        forall j | 0 < j < |xs| ensures Less(c.date, xs[j].date) {
          LessTransitive(c.date, xs[0].date, xs[j].date);
        }
      }
      [c] + xs
    else
      LessTotal(c.date, xs[0].date);
      var rest := InsertByDate(xs[1..], c);
      assert forall x :: x in xs[1..] ==> x in xs;
      assert forall j :: 0 <= j < |rest| ==> Less(xs[0].date, rest[j].date) by {
        forall j | 0 <= j < |rest| ensures Less(xs[0].date, rest[j].date) {
          assert rest[j] in rest;
        }
      }
      [xs[0]] + rest
  }

  /** `list` holds exactly the days of `days`, once each, in date order,
      with their counts from `dedup`. */
  predicate ListsDays(list: seq<Contribution>, days: set<string>, dedup: map<string, int>) {
    SortedByDate(list)
    && (forall i :: 0 <= i < |list| ==>
          list[i].date in days && list[i].date in dedup && list[i].count == dedup[list[i].date])
    && (forall d :: d in days ==> exists i :: 0 <= i < |list| && list[i].date == d)
  }

  /** `[{"date": key, "count": dedup[key]} for key in sorted(dedup.keys())]`. */
  method SortedContributions(dedup: map<string, int>) returns (list: seq<Contribution>)
    ensures SortedByDate(list) && Dates(list) == dedup.Keys
    ensures forall i :: 0 <= i < |list| ==> list[i].count == dedup[list[i].date]
  {
    list := [];
    var todo := dedup.Keys;
    ghost var done: set<string> := {};
    while todo != {}
      invariant done <= dedup.Keys && todo == dedup.Keys - done
      invariant ListsDays(list, done, dedup)
      decreases todo
    {
      var d :| d in todo;
      InsertDay(list, done, dedup, d);
      list := InsertByDate(list, Contribution(d, dedup[d]));
      todo := todo - {d};
      done := done + {d};
    }
    assert done == dedup.Keys;
    assert Dates(list) == done;
  }

  /** The days a list of contributions mentions. */
  function Dates(list: seq<Contribution>): (r: set<string>)
    ensures forall i :: 0 <= i < |list| ==> list[i].date in r
  {
    set i | 0 <= i < |list| :: list[i].date
  }

  /** A date-sorted list names each of its days once, so it is exactly as
      long as its set of days. */
  lemma {:induction false} SortedDatesCount(list: seq<Contribution>)
    requires SortedByDate(list)
    ensures |Dates(list)| == |list|
  {
    if |list| > 0 {
      SortedTail(list);
      SortedDatesCount(list[1..]);
      DatesCons(list);
    }
  }

  lemma SortedTail(list: seq<Contribution>)
    requires SortedByDate(list) && |list| > 0
    ensures SortedByDate(list[1..])
  {
    var rest := list[1..];
    forall i, j | 0 <= i < j < |rest| ensures Less(rest[i].date, rest[j].date) {
      assert rest[i] == list[i + 1] && rest[j] == list[j + 1];
    }
  }

  lemma DatesCons(list: seq<Contribution>)
    requires SortedByDate(list) && |list| > 0
    ensures Dates(list) == {list[0].date} + Dates(list[1..]) && list[0].date !in Dates(list[1..])
  {
    var rest := list[1..];
    forall x | x in Dates(list) ensures x in {list[0].date} + Dates(rest) {
      var i :| 0 <= i < |list| && list[i].date == x;
      if i > 0 { assert rest[i - 1].date == x; }
    }
    forall x | x in Dates(rest) ensures x in Dates(list) {
      var i :| 0 <= i < |rest| && rest[i].date == x;
      assert list[i + 1].date == x;
    }
    if list[0].date in Dates(rest) {
      var i :| 0 <= i < |rest| && rest[i].date == list[0].date;
      assert Less(list[0].date, list[i + 1].date);
      LessIrreflexive(list[0].date);
    }
  }

  /** Inserting a new day keeps the list a sorted listing of the days seen. */
  lemma InsertDay(list: seq<Contribution>, done: set<string>, dedup: map<string, int>, d: string)
    requires ListsDays(list, done, dedup) && d in dedup && d !in done
    ensures forall i :: 0 <= i < |list| ==> list[i].date != d
    ensures ListsDays(InsertByDate(list, Contribution(d, dedup[d])), done + {d}, dedup)
  {
    var c := Contribution(d, dedup[d]);
    var next := InsertByDate(list, c);
    assert forall i :: 0 <= i < |list| ==> list[i].date != d;
    assert SortedByDate(next);
    InsertedEntries(list, done, dedup, c, next);
    InsertedCovers(list, done, c, next);
  }

  lemma InsertedEntries(list: seq<Contribution>, days: set<string>, dedup: map<string, int>,
                        c: Contribution, next: seq<Contribution>)
    requires SortedByDate(list) && forall i :: 0 <= i < |list| ==> list[i].date != c.date
    requires forall i :: 0 <= i < |list| ==>
      list[i].date in days && list[i].date in dedup && list[i].count == dedup[list[i].date]
    requires c.date in dedup && c.count == dedup[c.date]
    requires next == InsertByDate(list, c)
    ensures forall i :: 0 <= i < |next| ==>
      next[i].date in days + {c.date} && next[i].date in dedup && next[i].count == dedup[next[i].date]
  {
    forall i | 0 <= i < |next|
      ensures next[i].date in days + {c.date} && next[i].date in dedup && next[i].count == dedup[next[i].date]
    {
      assert next[i] in next;
      if next[i] != c {
        var k :| 0 <= k < |list| && list[k] == next[i];
      }
    }
  }

  lemma InsertedCovers(list: seq<Contribution>, done: set<string>, c: Contribution, next: seq<Contribution>)
    requires SortedByDate(list) && forall i :: 0 <= i < |list| ==> list[i].date != c.date
    requires forall e :: e in done ==> exists i :: 0 <= i < |list| && list[i].date == e
    requires next == InsertByDate(list, c)
    ensures forall e :: e in done + {c.date} ==> exists i :: 0 <= i < |next| && next[i].date == e
  {
    forall e | e in done + {c.date}
      ensures exists i :: 0 <= i < |next| && next[i].date == e
    {
      if e == c.date {
        assert c in next;
      } else {
        var i :| 0 <= i < |list| && list[i].date == e;
        assert list[i] in list;
        assert list[i] in next;
      }
    }
  }

  /** `_fetch_contributions` after the page is parsed: the cells' merge,
      unless every merged count is zero (an empty merge included) and the
      regular-expression scrape `fallback` found something. */
  function PreferParsed(parsed: map<string, int>, fallback: map<string, int>): (r: map<string, int>)
    ensures r == parsed || r == fallback
    ensures (exists d :: d in parsed && parsed[d] != 0) || |fallback| == 0 ==> r == parsed
  {
    if (forall d :: d in parsed ==> parsed[d] == 0) && |fallback| != 0 then fallback else parsed
  }

  /** The contributions `_fetch_contributions` returns. When some dated
      cell has a positive count, they are the dated cells' days, each once,
      in date order. */
  method FetchedContributions(dateById: map<string, string>, countById: map<string, int>,
                              fallback: map<string, int>) returns (list: seq<Contribution>)
    ensures SortedByDate(list)
    ensures Dates(list) == dateById.Values || Dates(list) == fallback.Keys
    ensures (exists id :: id in dateById && CountFor(countById, id) > 0) ==> Dates(list) == dateById.Values
  {
    var merged := MergeContributions(dateById, countById);
    if exists id :: id in dateById && CountFor(countById, id) > 0 {
      var id :| id in dateById && CountFor(countById, id) > 0;
      assert merged[dateById[id]] > 0;
    }
    var chosen := PreferParsed(merged, fallback);
    list := SortedContributions(chosen);
  }

  // ---------------------------------------------------------------------------
  // `_parse_username` and `normalizeGithubUrl`
  // ---------------------------------------------------------------------------

  /** The characters `re.sub(r"[^A-Za-z0-9-]", "", value)` keeps. */
  predicate HandleChar(c: char) {
    'A' <= c <= 'Z' || 'a' <= c <= 'z' || '0' <= c <= '9' || c == '-'
  }

  /** A non-empty string of handle characters: what the non-URL branch of
      `_parse_username` can return. */
  predicate IsHandle(u: string) {
    |u| > 0 && forall i :: 0 <= i < |u| ==> HandleChar(u[i])
  }

  predicate IsSlash(c: char) {
    c == '/'
  }

  /** The ASCII tab, carriage return and line feed that `urlsplit` deletes
      from the whole URL before splitting it. */
  predicate UrlSafe(c: char) {
    c != '\t' && c != '\r' && c != '\n'
  }

  predicate IsUrlRef(value: string) {
    StartsWith(value, "http://") || StartsWith(value, "https://")
  }

  /** The `;params` split `urlparse` applies to http(s) paths: a ';' after
      the last '/' (or anywhere, when there is no '/') ends the path. */
  function DropParams(path: string): (r: string)
    ensures StartsWith(path, r)
    ensures !HasChar(path, ';') ==> r == path
    ensures |r| < |path| ==> path[|r|] == ';' && forall k :: |r| < k < |path| ==> path[k] != '/'
  {
    var j := match LastIndexOf(path, '/') case Some(k) => k case None => 0;
    var tail := BeforeFirst(path[j..], ';');
    assert |tail| < |path[j..]| ==> path[j..][|tail|] == ';';
    BeforeFirstAbsent(path[j..], ';');
    assert path[..j] + path[j..] == path;
    assert !HasChar(path, ';') ==> !HasChar(path[j..], ';');
    path[..j] + tail
  }

  /** `BeforeFirst` keeps everything when the separator does not occur. */
  lemma BeforeFirstAbsent(s: string, c: char)
    ensures !HasChar(s, c) ==> BeforeFirst(s, c) == s
  {
    var r := BeforeFirst(s, c);
    if |r| < |s| {
      assert s[|r|] == c;
    }
  }

  /** `urlparse(url).path` for a URL that starts with `http://` or
      `https://`, or `None` where `urlparse` raises `ValueError` (a host
      part with an unmatched '[' or ']'). The host runs from after the
      scheme's "//" to the first '/', '?' or '#'; the path runs from there
      to the first '?' or '#'. The scheme prefix holds none of the deleted
      characters, so deleting them from the rest is the same as deleting
      them from the whole URL. */
  function UrlPath(url: string): (r: Option<string>)
    requires IsUrlRef(url)
    ensures r.Some? ==> !HasChar(r.value, '?') && !HasChar(r.value, '#')
    ensures r.Some? ==> forall k :: 0 <= k < |r.value| ==> UrlSafe(r.value[k])
  {
    var after := Filter(url[if StartsWith(url, "https://") then 8 else 7..], UrlSafe);
    var host := Until(after, {'/', '?', '#'});
    if HasChar(host, '[') != HasChar(host, ']') then None
    else
      var path := Until(after[|host|..], {'?', '#'});
      assert forall k :: 0 <= k < |path| ==> path[k] == after[|host| + k];
      var p := DropParams(path);
      assert forall k :: 0 <= k < |p| ==> p[k] == path[k];
      Some(p)
  }

  /** The URL branch of `_parse_username`: the first segment of the path
      with the surrounding slashes stripped, possibly empty. */
  function UrlUsername(url: string): (r: Option<string>)
    requires IsUrlRef(url)
    ensures r.Some? ==> !HasChar(r.value, '/') && !HasChar(r.value, '?') && !HasChar(r.value, '#')
  {
    match UrlPath(url)
    case None => None
    case Some(path) =>
      var trimmed := Trim(path, IsSlash);
      var name := BeforeFirst(trimmed, '/');
      TrimLacks(path, IsSlash, '?');
      TrimLacks(path, IsSlash, '#');
      PrefixLacks(trimmed, name, '?');
      PrefixLacks(trimmed, name, '#');
      Some(name)
  }

  /** The other branch: the handle characters before the first '/', or
      `None` when there are none. */
  function HandleUsername(value: string): (r: Option<string>)
    ensures r.Some? ==> IsHandle(r.value)
  {
    var handle := Filter(BeforeFirst(value, '/'), HandleChar);
    if handle == "" then None else Some(handle)
  }

  /** `_parse_username(profile)`. An empty URL name is returned as
      `Some("")`, which `sync` then rejects as a missing name. */
  function ParseUsername(profile: string): (r: Option<string>)
    ensures PyStrip(profile) == "" ==> r.None?
    ensures !IsUrlRef(PyStrip(profile)) && r.Some? ==> IsHandle(r.value)
    ensures IsUrlRef(PyStrip(profile)) && r.Some? ==> !HasChar(r.value, '/') && !HasChar(r.value, '?')
  {
    var value := PyStrip(profile);
    if value == "" then None
    else if IsUrlRef(value) then UrlUsername(value)
    else HandleUsername(value)
  }

  /** `normalizeGithubUrl(value)`: the trimmed text when it is already an
      http(s) URL, "" when blank, and otherwise the profile URL of the text
      with one leading '@' dropped. */
  function NormalizeGithubUrl(value: string): (r: string)
    ensures JsTrim(value) == "" <==> r == ""
    ensures IsUrlRef(JsTrim(value)) ==> r == JsTrim(value)
    ensures JsTrim(value) != "" && !IsUrlRef(JsTrim(value)) ==>
      StartsWith(r, GitHubProfilePrefix)
      && (JsTrim(value)[0] == '@' ==> r == GitHubProfilePrefix + JsTrim(value)[1..])
      && (JsTrim(value)[0] != '@' ==> r == GitHubProfilePrefix + JsTrim(value))
  {
    var trimmed := JsTrim(value);
    if trimmed == "" then ""
    else if IsUrlRef(trimmed) then trimmed
    else
      var handle := if trimmed[0] == '@' then trimmed[1..] else trimmed;
      GitHubProfilePrefix + handle
  }

  const GitHubProfilePrefix: string := "https://github.com/"

  // ---------------------------------------------------------------------------
  // Properties of the user-name rules
  // ---------------------------------------------------------------------------

  /** No handle character is whitespace or one of the separators the
      parser looks at. */
  lemma HandleCharPlain(c: char)
    requires HandleChar(c)
    ensures !PyWhitespace(c) && !JsWhitespace(c) && c != '/' && c != ':' && c != '@'
    ensures c != '?' && c != '#' && c != ';' && c != '[' && c != ']' && UrlSafe(c)
  {
  }

  lemma HandleLacks(u: string, c: char)
    requires IsHandle(u) && !HandleChar(c)
    ensures !HasChar(u, c)
  {
  }

  /** Every URL the parser recognises holds a ':', so text without one is
      never taken for a URL. */
  lemma UrlHasColon(u: string)
    ensures IsUrlRef(u) ==> HasChar(u, ':')
  {
    if StartsWith(u, "http://") {
      assert u[..7][4] == ':';
      assert u[4] == ':';
    } else if StartsWith(u, "https://") {
      assert u[..8][5] == ':';
      assert u[5] == ':';
    }
  }

  /** A handle names itself. */
  lemma HandleNamesItself(u: string)
    requires IsHandle(u)
    ensures ParseUsername(u) == Some(u)
  {
    HandleCharPlain(u[0]);
    HandleCharPlain(u[|u| - 1]);
    TrimNoop(u, PyWhitespace);
    HandleLacks(u, ':');
    UrlHasColon(u);
    HandleLacks(u, '/');
    BeforeFirstAbsent(u, '/');
  }

  /** So does a handle written with a leading '@'. */
  lemma AtHandleNamesItself(u: string)
    requires IsHandle(u)
    ensures ParseUsername("@" + u) == Some(u)
  {
    var at := "@" + u;
    HandleCharPlain(u[|u| - 1]);
    assert at[0] == '@' && at[|at| - 1] == u[|u| - 1];
    TrimNoop(at, PyWhitespace);
    HandleLacks(u, ':');
    HandleLacks(u, '/');
    assert forall i :: 1 <= i < |at| ==> at[i] == u[i - 1];
    UrlHasColon(at);
    BeforeFirstAbsent(at, '/');
    assert at[1..] == u;
  }

  /** The name the non-URL branch returns reads back as itself. */
  lemma ParsedHandleStable(profile: string)
    requires !IsUrlRef(PyStrip(profile)) && ParseUsername(profile).Some?
    ensures ParseUsername(ParseUsername(profile).value) == ParseUsername(profile)
  {
    HandleNamesItself(ParseUsername(profile).value);
  }

  /** Lower-case letters, digits, '.' and '-': the characters of an
      ordinary host name such as "github.com". */
  predicate HostChar(c: char) {
    'a' <= c <= 'z' || '0' <= c <= '9' || c == '.' || c == '-'
  }

  predicate IsHost(h: string) {
    forall i :: 0 <= i < |h| ==> HostChar(h[i])
  }

  /** Stripping the slashes around "/u" or "/u/" leaves `u`. */
  lemma TrimSlashes(u: string, path: string)
    requires |u| > 0 && u[0] != '/' && u[|u| - 1] != '/'
    requires path == "/" + u || path == "/" + u + "/"
    ensures Trim(path, IsSlash) == u
  {
    assert path[1..][..|u|] == u;
    assert TrimStart(path, IsSlash) == TrimStart(path[1..], IsSlash);
    if path == "/" + u + "/" {
      assert path[1..] == u + "/";
      assert TrimStart(u + "/", IsSlash) == u + "/";
      assert (u + "/")[..|u|] == u;
    } else {
      assert path[1..] == u;
    }
  }

  /** Characters that end no part of a URL path and that `urlsplit` keeps. */
  predicate PlainPathChar(c: char) {
    UrlSafe(c) && c != '?' && c != '#' && c != ';'
  }

  /** `urlparse` of `https://` + host + path, for a host of ordinary
      characters and a path of plain ones, gives back the path. */
  lemma UrlPathOfPlain(url: string, host: string, path: string)
    requires StartsWith(url, "https://") && url[8..] == host + path
    requires IsHost(host) && (path == "" || path[0] == '/')
    requires forall k :: 0 <= k < |path| ==> PlainPathChar(path[k])
    ensures UrlPath(url) == Some(path)
  {
    var rest := host + path;
    PlainRest(host, path);
    HostEnds(host, path);
    UntilStops(path, {'?', '#'}, |path|);
    assert path[..|path|] == path;
    assert !HasChar(host, '[') && !HasChar(host, ']');
    UrlPathSteps(url, rest, host, path);
  }

  /** Nothing of an ordinary host and a plain path is deleted. */
  lemma PlainRest(host: string, path: string)
    requires IsHost(host) && forall k :: 0 <= k < |path| ==> PlainPathChar(path[k])
    ensures Filter(host + path, UrlSafe) == host + path
  {
    var rest := host + path;
    assert forall k :: 0 <= k < |rest| ==> rest[k] == if k < |host| then host[k] else path[k - |host|];
  }

  /** An ordinary host ends where a path starting with '/' begins. */
  lemma HostEnds(host: string, path: string)
    requires IsHost(host) && (path == "" || path[0] == '/')
    ensures Until(host + path, {'/', '?', '#'}) == host && (host + path)[|host|..] == path
  {
    var rest := host + path;
    assert forall k :: 0 <= k < |host| ==> rest[k] == host[k];
    UntilStops(rest, {'/', '?', '#'}, |host|);
    assert rest[..|host|] == host;
  }

  /** `UrlPath` unfolded for a URL whose pieces are known. */
  lemma UrlPathSteps(url: string, rest: string, host: string, path: string)
    requires StartsWith(url, "https://") && url[8..] == rest && Filter(rest, UrlSafe) == rest
    requires Until(rest, {'/', '?', '#'}) == host && rest[|host|..] == path
    requires !HasChar(host, '[') && !HasChar(host, ']')
    requires Until(path, {'?', '#'}) == path && !HasChar(path, ';')
    ensures UrlPath(url) == Some(path)
  {
  }

  /** "/u" and "/u/" are plain paths for a handle `u`. */
  lemma HandlePathPlain(u: string, trail: string)
    requires IsHandle(u) && (trail == "" || trail == "/")
    ensures forall k :: 0 <= k < |"/" + u + trail| ==> PlainPathChar(("/" + u + trail)[k])
  {
    var path := "/" + u + trail;
    forall k | 0 <= k < |path| ensures PlainPathChar(path[k]) {
      if 1 <= k < 1 + |u| {
        assert path[k] == u[k - 1];
        HandleCharPlain(u[k - 1]);
      }
    }
  }

  lemma ProfileUrlPath(host: string, u: string, trail: string)
    requires IsHost(host) && IsHandle(u) && (trail == "" || trail == "/")
    ensures UrlPath("https://" + host + "/" + u + trail) == Some("/" + u + trail)
  {
    var url := "https://" + host + "/" + u + trail;
    var path := "/" + u + trail;
    assert url[..8] == "https://" && url[8..] == host + path;
    HandlePathPlain(u, trail);
    UrlPathOfPlain(url, host, path);
  }

  /** `https://host/u` and `https://host/u/` name the user `u`. */
  lemma ProfileUrlNamesUser(host: string, u: string, trail: string)
    requires IsHost(host) && IsHandle(u) && (trail == "" || trail == "/")
    ensures ParseUsername("https://" + host + "/" + u + trail) == Some(u)
  {
    ProfileUrlFacts(host, u, trail);
    UrlUsernameOf("https://" + host + "/" + u + trail, "/" + u + trail, u);
  }

  lemma ProfileUrlFacts(host: string, u: string, trail: string)
    requires IsHost(host) && IsHandle(u) && (trail == "" || trail == "/")
    ensures var url, path := "https://" + host + "/" + u + trail, "/" + u + trail;
      PyStrip(url) == url && IsUrlRef(url) && UrlPath(url) == Some(path)
      && Trim(path, IsSlash) == u && !HasChar(u, '/')
  {
    ProfileUrlStripped(host, u, trail);
    ProfileUrlPath(host, u, trail);
    HandleSlashes(u, trail);
  }

  lemma HandleSlashes(u: string, trail: string)
    requires IsHandle(u) && (trail == "" || trail == "/")
    ensures Trim("/" + u + trail, IsSlash) == u && !HasChar(u, '/')
  {
    HandleCharPlain(u[0]);
    HandleCharPlain(u[|u| - 1]);
    TrimSlashes(u, "/" + u + trail);
    HandleLacks(u, '/');
  }

  /** The profile URL has no surrounding whitespace and is an https URL. */
  lemma ProfileUrlStripped(host: string, u: string, trail: string)
    requires IsHost(host) && IsHandle(u) && (trail == "" || trail == "/")
    ensures var url := "https://" + host + "/" + u + trail;
      PyStrip(url) == url && IsUrlRef(url)
  {
    var url := "https://" + host + "/" + u + trail;
    HandleCharPlain(u[|u| - 1]);
    assert url[0] == 'h';
    assert url[|url| - 1] == if trail == "" then u[|u| - 1] else '/';
    TrimNoop(url, PyWhitespace);
    assert url[..8] == "https://";
  }

  /** A stripped URL whose path trims to a name without '/' names it. */
  lemma UrlUsernameOf(url: string, path: string, u: string)
    requires PyStrip(url) == url && IsUrlRef(url) && UrlPath(url) == Some(path)
    requires Trim(path, IsSlash) == u && !HasChar(u, '/')
    ensures ParseUsername(url) == Some(u)
  {
    BeforeFirstAbsent(u, '/');
    assert url != "";
  }

  /** The profile prefix is `https://` + "github.com" + `/`, an ordinary
      host. */
  lemma GitHubPrefixParts()
    ensures GitHubProfilePrefix == "https://" + "github.com" + "/"
    ensures IsHost("github.com")
  {
  }

  /** A profile URL is an https URL, whatever follows the prefix. */
  lemma ProfileUrlIsUrl(h: string)
    ensures IsUrlRef(GitHubProfilePrefix + h)
  {
    assert (GitHubProfilePrefix + h)[..8] == "https://";
  }

  /** ... and it is already trimmed when what follows is. */
  lemma ProfileUrlTrimmed(h: string)
    requires h == "" || !JsWhitespace(h[|h| - 1])
    ensures JsTrim(GitHubProfilePrefix + h) == GitHubProfilePrefix + h
  {
    var r := GitHubProfilePrefix + h;
    assert r[0] == 'h';
    assert r[|r| - 1] == if h == "" then '/' else h[|h| - 1];
    TrimNoop(r, JsWhitespace);
  }

  /** Every URL the parser recognises starts with 'h'. */
  lemma UrlStartsWithH(t: string)
    ensures IsUrlRef(t) ==> |t| > 0 && t[0] == 'h'
  {
    if StartsWith(t, "http://") {
      assert t[..7][0] == t[0];
    } else if StartsWith(t, "https://") {
      assert t[..8][0] == t[0];
    }
  }

  /** The profile URL the frontend builds for a handle, with or without its
      '@', names that handle again. */
  lemma NormalizedHandleNamesUser(u: string)
    requires IsHandle(u)
    ensures ParseUsername(NormalizeGithubUrl(u)) == Some(u)
    ensures ParseUsername(NormalizeGithubUrl("@" + u)) == Some(u)
  {
    HandleCharPlain(u[0]);
    HandleCharPlain(u[|u| - 1]);
    HandleLacks(u, ':');
    UrlHasColon(u);
    TrimNoop(u, JsWhitespace);
    var at := "@" + u;
    assert at[0] == '@' && at[|at| - 1] == u[|u| - 1] && at[1..] == u;
    TrimNoop(at, JsWhitespace);
    UrlStartsWithH(at);
    assert NormalizeGithubUrl(u) == GitHubProfilePrefix + u;
    assert NormalizeGithubUrl(at) == GitHubProfilePrefix + u;
    ProfileUrlOfHandle(u);
  }

  lemma ProfileUrlOfHandle(u: string)
    requires IsHandle(u)
    ensures ParseUsername(GitHubProfilePrefix + u) == Some(u)
  {
    GitHubPrefixParts();
    assert GitHubProfilePrefix + u == "https://" + "github.com" + "/" + u + "";
    ProfileUrlNamesUser("github.com", u, "");
  }

  /** Normalising twice is normalising once: the frontend may store the
      normalised form and normalise it again on the next sync. */
  lemma NormalizeIdempotent(value: string)
    ensures NormalizeGithubUrl(NormalizeGithubUrl(value)) == NormalizeGithubUrl(value)
  {
    var t := JsTrim(value);
    if t == "" {
      assert JsTrim("") == "";
    } else if IsUrlRef(t) {
      TrimNoop(t, JsWhitespace);
    } else {
      var handle := if t[0] == '@' then t[1..] else t;
      assert handle == "" || handle[|handle| - 1] == t[|t| - 1];
      ProfileUrlTrimmed(handle);
      ProfileUrlIsUrl(handle);
    }
  }

  // ---------------------------------------------------------------------------
  // `summary`: the years on offer and the year shown
  // ---------------------------------------------------------------------------

  /** Decimal digits with single '_' separators between them, as Python's
      `int()` accepts them. */
  predicate DigitGroups(s: string) {
    |s| > 0 && IsDigit(s[0]) && IsDigit(s[|s| - 1])
    && (forall i :: 0 <= i < |s| ==> IsDigit(s[i]) || s[i] == '_')
    && !Contains(s, "__")
  }

  /** Python `int(text)` for a `str`: surrounding whitespace, then an
      integer literal; `None` where `int` raises `ValueError`. */
  function PyInt(text: string): (r: Option<int>)
    ensures r.Some? ==> PyStrip(text) != ""
  {
    IntLiteral(PyStrip(text))
  }

  /** An optional sign and digit groups, nothing else. */
  function IntLiteral(t: string): (r: Option<int>)
    ensures r.Some? ==> |t| > 0 && (IsDigit(t[0]) || t[0] == '-' || t[0] == '+')
    ensures r.Some? && r.value < 0 ==> t[0] == '-'
  {
    var signed := |t| > 0 && (t[0] == '-' || t[0] == '+');
    var body := if signed then t[1..] else t;
    if !DigitGroups(body) then None
    else
      var v: int := DigitsValue(Filter(body, IsDigit));
      Some(if signed && t[0] == '-' then -v else v)
  }

  /** A digit string is its own digit groups, with nothing to drop. */
  lemma DigitsAreGroups(s: string)
    requires |s| > 0 && AllDigits(s)
    ensures DigitGroups(s) && Filter(s, IsDigit) == s
  {
    NotContains(s, "__");
  }

  /** An unsigned digit string reads as its value. */
  lemma LiteralOfDigits(digits: string)
    requires |digits| > 0 && AllDigits(digits)
    ensures IntLiteral(digits) == Some(DigitsValue(digits))
  {
    DigitsAreGroups(digits);
  }

  /** A '-' before a digit string negates its value. */
  lemma LiteralOfNegative(digits: string)
    requires |digits| > 0 && AllDigits(digits)
    ensures IntLiteral("-" + digits) == Some(-(DigitsValue(digits) as int))
  {
    assert DigitGroups(digits) && Filter(digits, IsDigit) == digits by {
      DigitsAreGroups(digits);
    }
    LiteralNegated(digits);
  }

  lemma LiteralNegated(digits: string)
    requires DigitGroups(digits)
    ensures IntLiteral("-" + digits) == Some(-(DigitsValue(Filter(digits, IsDigit)) as int))
  {
    var t := "-" + digits;
    assert t[0] == '-' && t[1..] == digits;
  }

  /** `int(str(i)) == i`: the key `sync` writes for a year reads back as
      that year. */
  lemma PyIntOfIntToString(i: int)
    ensures PyInt(IntToString(i)) == Some(i)
  {
    if i < 0 {
      PyIntOfNegative(NatToString(-i));
    } else {
      PyIntOfDigits(NatToString(i));
    }
  }

  lemma PyIntOfNegative(digits: string)
    requires |digits| > 0 && AllDigits(digits)
    ensures PyInt("-" + digits) == Some(-(DigitsValue(digits) as int))
  {
    var s := "-" + digits;
    assert s[0] == '-' && s[|s| - 1] == digits[|digits| - 1];
    assert IsDigit(digits[|digits| - 1]);
    TrimNoop(s, PyWhitespace);
    LiteralOfNegative(digits);
  }

  /** Leading zeros are accepted: a plain digit string reads as its value. */
  lemma PyIntOfDigits(s: string)
    requires |s| > 0 && AllDigits(s)
    ensures PyInt(s) == Some(DigitsValue(s))
  {
    assert IsDigit(s[0]) && IsDigit(s[|s| - 1]);
    TrimNoop(s, PyWhitespace);
    LiteralOfDigits(s);
  }

  /** Text holding a character that is no digit, sign or '_' between its
      surrounding whitespace is refused. */
  lemma PyIntRefuses(text: string, k: nat)
    requires k < |PyStrip(text)|
    requires var c := PyStrip(text)[k]; !IsDigit(c) && c != '_' && c != '+' && c != '-'
    ensures PyInt(text) == None
  {
    LiteralRefuses(PyStrip(text), k);
  }

  lemma LiteralRefuses(t: string, k: nat)
    requires k < |t| && !IsDigit(t[k]) && t[k] != '_' && t[k] != '+' && t[k] != '-'
    ensures IntLiteral(t) == None
  {
    var signed := |t| > 0 && (t[0] == '-' || t[0] == '+');
    var body := if signed then t[1..] else t;
    if signed {
      assert body[k - 1] == t[k];
    } else {
      assert body[k] == t[k];
    }
    assert !DigitGroups(body);
  }

  predicate Increasing(xs: seq<int>) {
    forall i, j :: 0 <= i < j < |xs| ==> xs[i] < xs[j]
  }

  /** An element below the head of an increasing list keeps it increasing. */
  lemma IncreasingCons(x: int, xs: seq<int>)
    requires Increasing(xs) && (|xs| == 0 || x < xs[0])
    ensures Increasing([x] + xs)
  {
    var r := [x] + xs;
    forall i, j | 0 <= i < j < |r| ensures r[i] < r[j] {
      if i == 0 {
        assert r[j] == xs[j - 1];
        if j > 1 {
          assert xs[0] < xs[j - 1];
        }
      } else {
        assert r[i] == xs[i - 1] && r[j] == xs[j - 1];
      }
    }
  }

  /** `y` put into an increasing list, unless it is already there. */
  function InsertYear(xs: seq<int>, y: int): (r: seq<int>)
    requires Increasing(xs)
    ensures Increasing(r) && |r| > 0
    ensures forall z :: z in r <==> z in xs || z == y
    ensures r[0] == if |xs| > 0 && xs[0] < y then xs[0] else y
  {
    if |xs| == 0 then [y]
    else if y < xs[0] then
      IncreasingCons(y, xs);
      [y] + xs
    else if y == xs[0] then xs
    else
      var tail := xs[1..];
      assert Increasing(tail);
      var rest := InsertYear(tail, y);
      assert |tail| > 0 ==> xs[0] < tail[0];
      IncreasingCons(xs[0], rest);
      assert forall z :: z in xs <==> z == xs[0] || z in tail;
      [xs[0]] + rest
  }

  /** Some key of `keys` reads as the year `y`. */
  predicate KeyForYear(keys: set<string>, y: int) {
    exists k :: k in keys && PyInt(k) == Some(y)
  }

  /** The years the keys read as, as a set. */
  lemma YearsOfKeys(keys: set<string>, parsed: set<int>)
    requires parsed == set k | k in keys && PyInt(k).Some? :: PyInt(k).value
    ensures forall y :: y in parsed <==> KeyForYear(keys, y)
  {
    forall y ensures y in parsed <==> KeyForYear(keys, y) {
      if KeyForYear(keys, y) {
        var k :| k in keys && PyInt(k) == Some(y);
        assert PyInt(k).value == y;
      }
    }
  }

  /** A set of years as an increasing list. */
  method SortedYears(ys: set<int>) returns (years: seq<int>)
    ensures Increasing(years)
    ensures forall y :: y in years <==> y in ys
  {
    years := [];
    var todo := ys;
    while todo != {}
      invariant todo <= ys
      invariant Increasing(years)
      invariant forall y :: y in years <==> y in ys && y !in todo
      decreases todo
    {
      if !(exists y :: y in todo) {
        assert false;
      }
      var y :| y in todo;
      years := InsertYear(years, y);
      todo := todo - {y};
    }
  }

  /** `sorted(set(int(key) for the keys int() accepts))`. */
  method AvailableYears(keys: set<string>) returns (years: seq<int>)
    ensures Increasing(years)
    ensures forall y :: y in years <==> KeyForYear(keys, y)
  {
    var parsed := set k | k in keys && PyInt(k).Some? :: PyInt(k).value;
    YearsOfKeys(keys, parsed);
    years := SortedYears(parsed);
  }

  /** A Python `float`: a finite value, or one of the specials that
      `json.loads` accepts as `NaN`, `Infinity` and `-Infinity`. */
  datatype PyFloat = Finite(x: real) | NaN | PosInf | NegInf

  /** A JSON value as `json.loads` hands it over: a number written with a
      fraction or an exponent is a float; `JOther` is a list or an object. */
  datatype JsonValue = JNull | JBool(b: bool) | JInt(i: int) | JFloat(f: PyFloat) | JText(s: string) | JOther

  /** `int(x)` of a finite float: truncation toward zero. */
  function TruncReal(x: real): (n: int)
    ensures 0.0 <= x ==> n as real <= x < n as real + 1.0
    ensures x < 0.0 ==> n as real - 1.0 < x <= n as real
  {
    if x >= 0.0 then x.Floor else -((-x).Floor)
  }

  /** The message of the `OverflowError` that `int()` raises on an
      infinite float. */
  const InfinityMessage: string := "cannot convert float infinity to integer"

  /** `int(last_sync_year) if last_sync_year is not None else None`, with
      `None` for the `TypeError` and `ValueError` cases (a list or an
      object, text `int()` refuses, `NaN`). An infinite float raises
      `OverflowError`, which `summary` does not catch. */
  function LastSyncYear(v: JsonValue): (r: Result<Option<int>>)
    ensures r.Err? <==> v.JFloat? && (v.f.PosInf? || v.f.NegInf?)
    ensures r.Err? ==> r.message == InfinityMessage
    ensures v.JInt? ==> r == Ok(Some(v.i))
    ensures v.JBool? ==> r == Ok(Some(if v.b then 1 else 0))
    ensures v.JText? ==> r == Ok(PyInt(v.s))
    ensures v.JNull? || v.JOther? || v == JFloat(NaN) ==> r == Ok(None)
    ensures v.JFloat? && v.f.Finite? ==>
      (r.Ok? && r.value.Some?
       && var n := r.value.value;
         (0.0 <= v.f.x ==> n as real <= v.f.x < n as real + 1.0)
         && (v.f.x < 0.0 ==> n as real - 1.0 < v.f.x <= n as real))
  {
    match v
    case JNull => Ok(None)
    case JBool(b) => Ok(Some(if b then 1 else 0))
    case JInt(i) => Ok(Some(i))
    case JFloat(f) =>
      (match f
       case Finite(x) => Ok(Some(TruncReal(x)))
       case NaN => Ok(None)
       case PosInf => Err(InfinityMessage)
       case NegInf => Err(InfinityMessage))
    case JText(s) => Ok(PyInt(s))
    case JOther => Ok(None)
  }

  /** A finite float reads as the one integer that truncation toward zero
      gives: the integers on either side of `x` are ruled out. */
  lemma LastSyncOfFloat(x: real, n: int)
    requires 0.0 <= x ==> n as real <= x < n as real + 1.0
    requires x < 0.0 ==> n as real - 1.0 < x <= n as real
    ensures LastSyncYear(JFloat(Finite(x))) == Ok(Some(n))
  {
    var m := TruncReal(x);
    if 0.0 <= x {
      assert m as real < n as real + 1.0 && n as real < m as real + 1.0;
    } else {
      assert m as real - 1.0 < n as real && n as real - 1.0 < m as real;
    }
  }

  /** A year written `2024.0` reads as 2024. */
  lemma LastSyncOfWholeFloat(year: int)
    ensures LastSyncYear(JFloat(Finite(year as real))) == Ok(Some(year))
  {
    LastSyncOfFloat(year as real, year);
  }

  /** The largest of a non-empty list (`max(available_years)`). */
  function MaxYear(xs: seq<int>): (r: int)
    requires |xs| > 0
    ensures r in xs && forall y :: y in xs ==> y <= r
  {
    if |xs| == 1 then xs[0]
    else
      var m := MaxYear(xs[1..]);
      assert forall y :: y in xs ==> y == xs[0] || y in xs[1..];
      if xs[0] > m then xs[0] else m
  }

  /** `year or last_sync_year`, then the largest available year, then the
      current year. A requested year of 0 is falsy and is passed over; a
      stored year of 0 is not `None` and is kept. */
  function SelectedYear(year: Option<int>, lastSync: Option<int>, available: seq<int>, current: int): (r: int)
    ensures year.Some? && year.value != 0 ==> r == year.value
    ensures (year.None? || year.value == 0) && lastSync.Some? ==> r == lastSync.value
    ensures (year.None? || year.value == 0) && lastSync.None? && |available| > 0 ==>
      r in available && forall y :: y in available ==> y <= r
    ensures (year.None? || year.value == 0) && lastSync.None? && |available| == 0 ==> r == current
  {
    if year.Some? && year.value != 0 then year.value
    else if lastSync.Some? then lastSync.value
    else if |available| > 0 then MaxYear(available)
    else current
  }

  /** The fields of `github_profile.json` that `summary` reads. A file that
      is not a JSON object, cannot be read, or lacks a field reads as the
      defaults: no contribution list, an empty per-year table, `null`. */
  datatype ProfileFile<T> = ProfileFile(
    contributions: Option<seq<T>>,
    byYear: map<string, Option<seq<T>>>,
    lastSyncYear: JsonValue)

  /** The contributions `summary` reports for the selected year: the
      per-year entry when the per-year table is non-empty (an empty list
      when the year is missing or is not a list), else the top-level list. */
  function ReportedContributions<T>(file: ProfileFile<T>, selected: int): (r: seq<T>)
    ensures |file.byYear| > 0 && IntToString(selected) in file.byYear && file.byYear[IntToString(selected)].Some? ==>
      r == file.byYear[IntToString(selected)].value
    ensures |file.byYear| > 0 && (IntToString(selected) !in file.byYear || file.byYear[IntToString(selected)].None?) ==>
      r == []
    ensures |file.byYear| == 0 ==> r == if file.contributions.Some? then file.contributions.value else []
  {
    if |file.byYear| > 0 then
      var key := IntToString(selected);
      if key in file.byYear && file.byYear[key].Some? then file.byYear[key].value else []
    else if file.contributions.Some? then file.contributions.value
    else []
  }

  datatype SummaryView<T> = SummaryView(
    found: bool,
    contributions: seq<T>,
    availableYears: seq<int>,
    year: int,
    lastSyncYear: Option<int>)

  /** `year or datetime.now().year`: a requested year of 0 is falsy and
      gives way to the current one. */
  function RequestedYear(year: Option<int>, current: int): (r: int)
    ensures r == current || (year.Some? && r == year.value != 0)
    ensures year.Some? && year.value != 0 ==> r == year.value
  {
    if year.Some? && year.value != 0 then year.value else current
  }

  /** The year-related part of `summary(year)`, with the clock's year
      passed in. A missing file gives the requested year (or the current
      one) and nothing else; an infinite `last_sync_year` makes `summary`
      raise. */
  method Summary<T>(file: Option<ProfileFile<T>>, year: Option<int>, current: int) returns (r: Result<SummaryView<T>>)
    ensures file.None? ==> r == Ok(SummaryView(false, [], [], RequestedYear(year, current), None))
    ensures file.Some? ==> (r.Err? <==> LastSyncYear(file.value.lastSyncYear).Err?)
    ensures r.Err? ==> r.message == InfinityMessage
    ensures file.Some? && r.Ok? ==> var view := r.value;
      view.found && Increasing(view.availableYears)
      && (forall y :: y in view.availableYears <==> KeyForYear(file.value.byYear.Keys, y))
      && Ok(view.lastSyncYear) == LastSyncYear(file.value.lastSyncYear)
      && view.year == SelectedYear(year, view.lastSyncYear, view.availableYears, current)
      && view.contributions == ReportedContributions(file.value, view.year)
  {
    if file.None? {
      return Ok(SummaryView(false, [], [], RequestedYear(year, current), None));
    }
    var f := file.value;
    var available := AvailableYears(f.byYear.Keys);
    var lastSync := LastSyncYear(f.lastSyncYear);
    if lastSync.Err? {
      return Err(lastSync.message);
    }
    var selected := SelectedYear(year, lastSync.value, available, current);
    r := Ok(SummaryView(true, ReportedContributions(f, selected), available, selected, lastSync.value));
  }

  /** The file `sync` writes: the fetched list at the top level and under
      `str(target_year)` in the per-year table kept from the old file, and
      the target year as the last synced one. */
  function SyncedFile<T>(existing: Option<ProfileFile<T>>, year: Option<int>, current: int, fetched: seq<T>): (f: ProfileFile<T>)
    ensures f.contributions == Some(fetched) && f.lastSyncYear == JInt(RequestedYear(year, current))
    ensures var key := IntToString(RequestedYear(year, current));
      key in f.byYear && f.byYear[key] == Some(fetched)
    ensures existing.Some? ==> f.byYear.Keys == existing.value.byYear.Keys + {IntToString(RequestedYear(year, current))}
    ensures existing.Some? ==> forall k :: k in existing.value.byYear && k != IntToString(RequestedYear(year, current)) ==>
      f.byYear[k] == existing.value.byYear[k]
  {
    var target := RequestedYear(year, current);
    var kept := if existing.Some? then existing.value.byYear else map[];
    ProfileFile(Some(fetched), kept[IntToString(target) := Some(fetched)], JInt(target))
  }

  /** After a sync, the summary with no year requested shows the synced
      year and exactly the list fetched for it. */
  lemma SyncThenSummary<T>(existing: Option<ProfileFile<T>>, year: Option<int>, current: int,
                           fetched: seq<T>, available: seq<int>, later: int)
    ensures var f := SyncedFile(existing, year, current, fetched);
      var target := RequestedYear(year, current);
      var shown := SelectedYear(None, LastSyncYear(f.lastSyncYear).value, available, later);
      shown == target && ReportedContributions(f, shown) == fetched
  {
  }

  /** After a sync, asking for any year the per-year table holds a list
      for shows that list, and the synced year's key parses back to it. */
  lemma SyncedYearListed<T>(existing: Option<ProfileFile<T>>, year: Option<int>, current: int, fetched: seq<T>)
    ensures var f := SyncedFile(existing, year, current, fetched);
      var target := RequestedYear(year, current);
      IntToString(target) in f.byYear && PyInt(IntToString(target)) == Some(target)
  {
    PyIntOfIntToString(RequestedYear(year, current));
  }

  // ---------------------------------------------------------------------------
  // `avatar_path` and the avatar link of `summary`
  // ---------------------------------------------------------------------------

  /** `s.split(c)`: the pieces between the occurrences of `c`, at least
      one, none holding `c`. */
  function SplitOn(s: string, c: char): (parts: seq<string>)
    ensures |parts| >= 1
    ensures forall i :: 0 <= i < |parts| ==> !HasChar(parts[i], c)
    decreases |s|
  {
    var first := BeforeFirst(s, c);
    if |first| == |s| then [s]
    else [first] + SplitOn(s[|first| + 1..], c)
  }

  /** Joining the pieces with the separator gives the text back. */
  lemma {:induction false} SplitOnJoin(s: string, c: char)
    ensures Join(SplitOn(s, c), [c]) == s
    decreases |s|
  {
    var first := BeforeFirst(s, c);
    if |first| == |s| {
      assert first == s;
    } else {
      var rest := s[|first| + 1..];
      SplitOnJoin(rest, c);
      assert SplitOn(s, c) == [first] + SplitOn(rest, c);
      assert s == first + [c] + rest;
    }
  }

  /** The components `pathlib` keeps: not empty and not ".". */
  predicate KeptComponent(part: string) {
    part != "" && part != "."
  }

  function KeptComponents(parts: seq<string>): (kept: seq<string>)
    ensures forall i :: 0 <= i < |kept| ==> KeptComponent(kept[i])
  {
    if |parts| == 0 then []
    else
      var init := KeptComponents(parts[..|parts| - 1]);
      var last := parts[|parts| - 1];
      if KeptComponent(last) then init + [last] else init
  }

  /** Every kept component is one of the components. */
  lemma {:induction false} KeptFromParts(parts: seq<string>)
    ensures forall i :: 0 <= i < |KeptComponents(parts)| ==> KeptComponents(parts)[i] in parts
  {
    if |parts| > 0 {
      var init := parts[..|parts| - 1];
      KeptFromParts(init);
      assert forall p :: p in init ==> p in parts;
    }
  }

  /** `PurePosixPath(s).name`: the last component of `s` split on '/',
      skipping empty components (from repeated or trailing '/') and "."
      components, or "" when none is left. ".." is an ordinary component. */
  function PathName(s: string): (r: string)
    ensures !HasChar(r, '/') && r != "."
  {
    var parts := SplitOn(s, '/');
    var kept := KeptComponents(parts);
    KeptFromParts(parts);
    if |kept| == 0 then "" else kept[|kept| - 1]
  }

  /** `BeforeFirst` stops at the first separator. */
  lemma BeforeFirstAt(s: string, c: char, n: nat)
    requires n < |s| && s[n] == c && !HasChar(s[..n], c)
    ensures BeforeFirst(s, c) == s[..n]
  {
  }

  /** The first piece runs up to the first separator, and the rest is the
      split of what follows it. */
  lemma SplitOnStep(s: string, c: char, n: nat)
    requires n < |s| && s[n] == c && !HasChar(s[..n], c)
    ensures SplitOn(s, c) == [s[..n]] + SplitOn(s[n + 1..], c)
  {
    BeforeFirstAt(s, c, n);
  }

  lemma SplitOnWhole(s: string, c: char)
    requires !HasChar(s, c)
    ensures SplitOn(s, c) == [s]
  {
    BeforeFirstAbsent(s, c);
  }

  /** Splitting `a/b`, for `b` without '/', splits `a` and adds `b`. */
  lemma {:induction false} SplitOnAppend(a: string, c: char, b: string)
    requires !HasChar(b, c)
    ensures SplitOn(a + [c] + b, c) == SplitOn(a, c) + [b]
    decreases |a|
  {
    var first := BeforeFirst(a, c);
    if |first| == |a| {
      assert first == a;
      SplitOnAppendWhole(a, c, b);
    } else {
      var tail := a[|first| + 1..];
      SplitOnAppend(tail, c, b);
      SplitOnAppendStep(a, c, b, |first|);
    }
  }

  lemma SplitOnAppendWhole(a: string, c: char, b: string)
    requires !HasChar(b, c) && !HasChar(a, c)
    ensures SplitOn(a + [c] + b, c) == SplitOn(a, c) + [b]
  {
    var s := a + [c] + b;
    assert s[..|a|] == a && s[|a| + 1..] == b;
    SplitOnWhole(a, c);
    SplitOnStep(s, c, |a|);
    SplitOnWhole(b, c);
  }

  lemma SplitOnAppendStep(a: string, c: char, b: string, n: nat)
    requires n < |a| && a[n] == c && !HasChar(a[..n], c)
    requires SplitOn(a[n + 1..] + [c] + b, c) == SplitOn(a[n + 1..], c) + [b]
    ensures SplitOn(a + [c] + b, c) == SplitOn(a, c) + [b]
  {
    var s := a + [c] + b;
    assert s[..n] == a[..n] && s[n] == c;
    assert s[n + 1..] == a[n + 1..] + [c] + b;
    SplitOnStep(a, c, n);
    SplitOnStep(s, c, n);
  }

  /** `PurePosixPath(dir + "/" + n).name == n` for a plain name `n`: the
      name of a joined path is its last part. */
  lemma PathNameOfJoin(dir: string, n: string)
    requires KeptComponent(n) && !HasChar(n, '/')
    ensures PathName(dir + "/" + n) == n
  {
    assert dir + "/" + n == dir + ['/'] + n;
    SplitOnAppend(dir, '/', n);
    KeptAppend(SplitOn(dir, '/'), n);
  }

  /** A plain name is its own name. */
  lemma PathNameOfName(n: string)
    requires KeptComponent(n) && !HasChar(n, '/')
    ensures PathName(n) == n
  {
    BeforeFirstAbsent(n, '/');
    assert SplitOn(n, '/') == [n];
    assert [n][..0] == [];
  }

  lemma KeptAppend(parts: seq<string>, x: string)
    ensures KeptComponents(parts + [x]) == KeptComponents(parts) + (if KeptComponent(x) then [x] else [])
  {
    assert (parts + [x])[..|parts|] == parts;
  }

  /** A trailing '/' changes nothing. */
  lemma PathNameTrailingSlash(s: string)
    ensures PathName(s + "/") == PathName(s)
  {
    var parts := SplitOn(s, '/');
    SplitOnAppend(s, '/', "");
    assert s + ['/'] + "" == s + "/";
    KeptAppend(parts, "");
    assert KeptComponents(SplitOn(s + "/", '/')) == KeptComponents(parts);
  }

  /** Taking the name twice is taking it once. */
  lemma PathNameIdempotent(s: string)
    ensures PathName(PathName(s)) == PathName(s)
  {
    var n := PathName(s);
    if n != "" {
      PathNameOfName(n);
    } else {
      assert SplitOn("", '/') == [""];
    }
  }

  /** Whether `data_dir() / name` exists, given the entries `present` of
      the data directory: "" names the data directory itself and ".." its
      parent, and both exist. */
  predicate EntryExists(name: string, present: set<string>) {
    name == "" || name == ".." || name in present
  }

  /** `avatar_path(file_name)` as written, returning the name joined to
      the data directory. */
  function AvatarPath(fileName: string, present: set<string>): (r: Option<string>)
    ensures r.Some? ==> r.value == PathName(fileName) && r.value != "" && !HasChar(r.value, '/')
    ensures r.Some? ==> r.value in present || r.value == ".."
    ensures fileName == "" || PathName(fileName) == "" ==> r.None?
  {
    if fileName == "" then None
    else
      var name := PathName(fileName);
      if name == "" || !EntryExists(name, present) then None else Some(name)
  }

  /** A name that is a real entry of the data directory. */
  predicate DirectEntry(name: string) {
    name != "" && name != "." && name != ".." && !HasChar(name, '/')
  }

  /** `avatar_path("..")` returns `data_dir() / ".."`, the parent of the
      data directory, which is not an entry of it. */
  lemma AvatarPathEscapes()
    ensures AvatarPath("..", {}) == Some("..")
    ensures !DirectEntry(AvatarPath("..", {}).value)
  {
    PathNameOfName("..");
  }

  /** `avatar_path` with ".." refused along with "": whatever it returns
      is an entry of the data directory. */
  function AvatarPathSafe(fileName: string, present: set<string>): (r: Option<string>)
    ensures r.Some? ==> DirectEntry(r.value) && r.value in present && r.value == PathName(fileName)
    ensures r.None? ==> fileName == "" || !DirectEntry(PathName(fileName)) || PathName(fileName) !in present
  {
    if fileName == "" then None
    else
      var name := PathName(fileName);
      if name == "" || name == ".." || name !in present then None else Some(name)
  }

  /** The two agree on every name but "..". */
  lemma AvatarPathSafeAgrees(fileName: string, present: set<string>)
    requires PathName(fileName) != ".."
    ensures AvatarPathSafe(fileName, present) == AvatarPath(fileName, present)
  {
  }

  const AvatarRoute: string := "/github/avatar?file="

  /** The `avatar_url` of `summary`: `avatar_file`, or `avatar_path` when
      that is empty or missing (""), reduced to its name, linked when
      `data_dir() / name` exists. */
  function AvatarUrl(avatarFile: string, avatarPath: string, present: set<string>): (r: Option<string>)
    ensures r.Some? ==> exists n :: r.value == AvatarRoute + n && EntryExists(n, present) && !HasChar(n, '/')
    ensures avatarFile == "" && avatarPath == "" ==> r.None?
  {
    var field := if avatarFile != "" then avatarFile else avatarPath;
    if field == "" then None
    else
      var name := PathName(field);
      if EntryExists(name, present) then Some(AvatarRoute + name) else None
  }

  /** A non-empty link `summary` makes is one the avatar route serves: the
      route's `avatar_path` finds the same file. */
  lemma AvatarUrlServed(avatarFile: string, avatarPath: string, present: set<string>)
    requires var field := if avatarFile != "" then avatarFile else avatarPath;
      field != "" && PathName(field) != ""
    requires AvatarUrl(avatarFile, avatarPath, present).Some?
    ensures var name := PathName(if avatarFile != "" then avatarFile else avatarPath);
      AvatarUrl(avatarFile, avatarPath, present) == Some(AvatarRoute + name)
      && AvatarPath(name, present) == Some(name)
  {
    PathNameIdempotent(if avatarFile != "" then avatarFile else avatarPath);
  }
}

=== FILE: palette.dfy ===
/** ddc-desktop/frontend/src/App.jsx, the colour rules of the heatmaps:
    the fixed palettes, `scaleColor` (linear quantisation of a count into a
    palette), `pickHeatColor` (typing beats active beats idle) and
    `pickContributionColor` (a distinct colour for days without
    contributions). */
module Palette {

  const InactiveColor: string := "#0f141d"
  const ActiveColors: seq<string> := ["#12351f", "#1f5b2f", "#2f8740", "#3eb75a"]
  const TypingColors: seq<string> := ["#1b2b45", "#1f4f7a", "#2f7ec2", "#46b2ff"]
  const ContribEmpty: string := "#0f141d"
  const ContribColors: seq<string> := ["#0e4429", "#006d32", "#26a641", "#39d353"]

  function Clamp(value: int, max: int): int {
    if value < 0 then 0 else if value > max then max else value
  }

  lemma DivBounds(a: int, b: int)
    requires b > 0
    ensures (a / b) * b <= a < (a / b) * b + b
  {
  }

  /** `a * c < b * c` with `c > 0` forces `a < b`. */
  lemma MulCancelLess(a: int, b: int, c: int)
    requires c > 0 && a * c < b * c
    ensures a < b
  {
    if a >= b {
      MulMonotone(b, a, c);
    }
  }

  lemma MulMonotone(a: int, b: int, c: int)
    requires c >= 0 && a <= b
    ensures a * c <= b * c
  {
    assert b * c - a * c == (b - a) * c;
  }

  /** The palette index `scaleColor` picks for `value` against the peak
      `max` in a palette of `n` colours:
      `min(n - 1, floor(clamp(value / max, 0, 1) * (n - 1)))`, or 0 when
      `max <= 0`. The ensures characterise the floor without division. */
  function ScaleIndex(value: int, max: int, n: nat): (i: nat)
    requires n >= 1
    ensures i < n
    ensures max <= 0 ==> i == 0
    ensures max > 0 && value >= max ==> i == n - 1
    ensures max > 0 ==> i * max <= Clamp(value, max) * (n - 1)
    ensures max > 0 && value < max ==> Clamp(value, max) * (n - 1) < (i + 1) * max
  {
    if max <= 0 then 0
    else if value >= max then n - 1
    else if value <= 0 then 0
    else
      var i := value * (n - 1) / max;
      DivBounds(value * (n - 1), max);
      MulMonotone(value, max, n - 1);
      assert max * (n - 1) == (n - 1) * max;
      assert i < n by {
        if i >= n {
          MulMonotone(n, i, max);
          MulMonotone(n - 1, n, max);
        }
      }
      assert i >= 0 by {
        if i < 0 {
          MulMonotone(i, -1, max);
        }
      }
      i
  }

  /** `scaleColor(value, max, colors)`. */
  function ScaleColor(value: int, max: int, colors: seq<string>): (c: string)
    requires |colors| >= 1
    ensures c in colors
    ensures max <= 0 ==> c == colors[0]
    ensures max > 0 && value >= max ==> c == colors[|colors| - 1]
  {
    colors[ScaleIndex(value, max, |colors|)]
  }

  /** A larger count never gets a lower palette index. */
  lemma ScaleIndexMonotone(v1: int, v2: int, max: int, n: nat)
    requires n >= 1 && v1 <= v2
    ensures ScaleIndex(v1, max, n) <= ScaleIndex(v2, max, n)
  {
    if max > 0 && v2 < max {
      var i1, i2 := ScaleIndex(v1, max, n), ScaleIndex(v2, max, n);
      MulMonotone(Clamp(v1, max), Clamp(v2, max), n - 1);
      assert (i1 as int) * max < (i2 + 1) * max;
      MulCancelLess(i1, i2 + 1, max);
    }
  }

  /** `pickHeatColor`: typing wins over active, active over idle; idle is
      the single unscaled inactive colour. */
  function PickHeatColor(typing: int, active: int, maxTyping: int, maxActive: int): (c: string)
    ensures typing > 0 ==> c in TypingColors
    ensures typing <= 0 && active > 0 ==> c in ActiveColors
    ensures typing <= 0 && active <= 0 ==> c == InactiveColor
  {
    if typing > 0 then ScaleColor(typing, maxTyping, TypingColors)
    else if active > 0 then ScaleColor(active, maxActive, ActiveColors)
    else InactiveColor
  }

  /** `pickContributionColor`: no contributions gives the empty colour,
      otherwise a contribution-palette entry. */
  function PickContributionColor(count: int, maxCount: int): (c: string)
    ensures count <= 0 ==> c == ContribEmpty
    ensures count > 0 ==> c in ContribColors
  {
    if count <= 0 then ContribEmpty else ScaleColor(count, maxCount, ContribColors)
  }

  /** The three heat categories use disjoint colours, so a cell's colour
      tells which category won: typing exactly when the typing count is
      positive, active exactly when only the active count is. */
  lemma HeatColorCategory(typing: int, active: int, maxTyping: int, maxActive: int)
    ensures PickHeatColor(typing, active, maxTyping, maxActive) in TypingColors <==> typing > 0
    ensures PickHeatColor(typing, active, maxTyping, maxActive) in ActiveColors
      <==> typing <= 0 && active > 0
    ensures PickHeatColor(typing, active, maxTyping, maxActive) == InactiveColor
      <==> typing <= 0 && active <= 0
  {
    assert forall c :: c in TypingColors ==> c !in ActiveColors && c != InactiveColor;
    assert InactiveColor !in ActiveColors;
  }

  /** The empty contribution colour is never a palette entry, so it marks
      exactly the days without contributions. */
  lemma ContributionColorEmpty(count: int, maxCount: int)
    ensures PickContributionColor(count, maxCount) == ContribEmpty <==> count <= 0
  {
    assert ContribEmpty !in ContribColors;
  }

  /** The busiest day gets the brightest colour of its category. */
  lemma PeakIsBrightest(typing: int, active: int, maxTyping: int, maxActive: int)
    ensures typing > 0 && typing == maxTyping ==>
      PickHeatColor(typing, active, maxTyping, maxActive) == TypingColors[3]
    ensures typing <= 0 && active > 0 && active == maxActive ==>
      PickHeatColor(typing, active, maxTyping, maxActive) == ActiveColors[3]
  {
  }
}

=== FILE: pomodoro.dfy ===
/** The pomodoro timer of the desktop backend (`pomodoro_service.py`): a
    table of sessions of which at most one is running or paused, four
    transitions (start, pause, resume, stop) that accumulate the running
    time of a session, the status query and the focus statistics.

    The SQLite table is a sequence of rows in insertion order; the clock is
    a parameter counting seconds on the local wall clock, and a day is
    `time / 86400` of it. */
module Pomodoro {
  import opened Wrappers

  datatype Phase = Running | Paused | Stopped

  /** One row of `pomodoro_sessions`. `elapsed` is the accumulated running
      time in seconds and `lastStart` the start of the current running
      interval (NULL unless running). */
  datatype Session = Session(id: nat, mode: string, phase: Phase, startTime: int, endTime: Option<int>,
                             durationMinutes: int, elapsed: int, lastStart: Option<int>)

  const AlreadyActive: string := "Session already running or paused."
  const NothingToPause: string := "No running session to pause."
  const NothingToResume: string := "No paused session to resume."
  const NothingToStop: string := "No active session to stop."

  const SecondsPerDay: int := 86400

  predicate IsActive(s: Session) {
    s.phase == Running || s.phase == Paused
  }

  /** Row ids are 1, 2, ... in insertion order: `AUTOINCREMENT`, and the
      service never deletes a session. */
  predicate Numbered(t: seq<Session>) {
    forall i :: 0 <= i < |t| ==> t[i].id == i + 1
  }

  /** A session has a current interval exactly while it runs. */
  predicate Timed(t: seq<Session>) {
    forall i :: 0 <= i < |t| ==> (t[i].phase == Running <==> t[i].lastStart.Some?)
  }

  /** At most one session is running or paused. */
  predicate OneActive(t: seq<Session>) {
    forall i, j :: 0 <= i < |t| && 0 <= j < |t| && IsActive(t[i]) && IsActive(t[j]) ==> i == j
  }

  /** The invariant every transition keeps. */
  predicate ValidTable(t: seq<Session>) {
    Numbered(t) && Timed(t) && OneActive(t)
  }

  /** No current interval started after `now`: the clock has not gone
      back. */
  predicate ClockAfter(t: seq<Session>, now: int) {
    forall i :: 0 <= i < |t| && t[i].lastStart.Some? ==> t[i].lastStart.value <= now
  }

  predicate HasActive(t: seq<Session>) {
    exists i :: 0 <= i < |t| && IsActive(t[i])
  }

  /** `get_active_session`: the running or paused row with the highest id. */
  function ActiveIndex(t: seq<Session>): (r: Option<nat>)
    ensures r.Some? ==> r.value < |t| && IsActive(t[r.value])
    ensures r.Some? ==> forall j :: r.value < j < |t| ==> !IsActive(t[j])
    ensures r.None? <==> !HasActive(t)
  {
    if |t| == 0 then None
    else if IsActive(t[|t| - 1]) then Some(|t| - 1)
    else ActiveIndex(t[..|t| - 1])
  }

  /** The table after a transition and what the service returns: the
      updated row, or the "error" text. */
  datatype Outcome = Outcome(table: seq<Session>, reply: Result<Session>)

  /** `start_session`: refused while a session is running or paused;
      otherwise a new running session with nothing elapsed, whose current
      interval starts now. */
  function Start(t: seq<Session>, mode: string, durationMinutes: int, now: int): (o: Outcome)
    ensures o.reply.Err? <==> HasActive(t)
    ensures o.reply.Err? ==> o == Outcome(t, Err(AlreadyActive))
    ensures o.reply.Ok? ==> o.table == t + [o.reply.value]
    ensures o.reply.Ok? ==> var s := o.reply.value;
      s.id == |t| + 1 && s.mode == mode && s.durationMinutes == durationMinutes
      && s.phase == Running && s.elapsed == 0 && s.startTime == now
      && s.lastStart == Some(now) && s.endTime.None?
  {
    if ActiveIndex(t).Some? then Outcome(t, Err(AlreadyActive))
    else
      var s := Session(|t| + 1, mode, Running, now, None, durationMinutes, 0, Some(now));
      Outcome(t + [s], Ok(s))
  }

  /** `pause_session`: only the active session, and only while it runs;
      the current interval is added to the elapsed time and closed. */
  function Pause(t: seq<Session>, now: int): (o: Outcome)
    requires Timed(t)
    ensures o.reply.Err? ==> o == Outcome(t, Err(NothingToPause))
    ensures o.reply.Ok? <==> ActiveIndex(t).Some? && t[ActiveIndex(t).value].phase == Running
    ensures o.reply.Ok? ==> var k := ActiveIndex(t).value;
      o.table == t[k := o.reply.value]
      && o.reply.value == t[k].(phase := Paused, lastStart := None,
                                elapsed := t[k].elapsed + (now - t[k].lastStart.value))
  {
    match ActiveIndex(t)
    case None => Outcome(t, Err(NothingToPause))
    case Some(k) =>
      if t[k].phase != Running then Outcome(t, Err(NothingToPause))
      else
        var s := t[k].(phase := Paused, elapsed := t[k].elapsed + (now - t[k].lastStart.value),
                       lastStart := None);
        Outcome(t[k := s], Ok(s))
  }

  /** `resume_session`: only the active session, and only while paused; a
      new interval starts now and the elapsed time is kept. */
  function Resume(t: seq<Session>, now: int): (o: Outcome)
    ensures o.reply.Err? ==> o == Outcome(t, Err(NothingToResume))
    ensures o.reply.Ok? <==> ActiveIndex(t).Some? && t[ActiveIndex(t).value].phase == Paused
    ensures o.reply.Ok? ==> var k := ActiveIndex(t).value;
      o.table == t[k := o.reply.value]
      && o.reply.value == t[k].(phase := Running, lastStart := Some(now))
  {
    match ActiveIndex(t)
    case None => Outcome(t, Err(NothingToResume))
    case Some(k) =>
      if t[k].phase != Paused then Outcome(t, Err(NothingToResume))
      else
        var s := t[k].(phase := Running, lastStart := Some(now));
        Outcome(t[k := s], Ok(s))
  }

  /** `stop_session`: the active session, running or paused, ends now; a
      running one first adds its current interval. */
  function Stop(t: seq<Session>, now: int): (o: Outcome)
    ensures o.reply.Err? <==> !HasActive(t)
    ensures o.reply.Err? ==> o == Outcome(t, Err(NothingToStop))
    ensures o.reply.Ok? ==> var k := ActiveIndex(t).value;
      o.table == t[k := o.reply.value]
      && o.reply.value.phase == Stopped && o.reply.value.endTime == Some(now)
      && o.reply.value.lastStart.None?
      && o.reply.value.elapsed
         == t[k].elapsed + (if t[k].phase == Running && t[k].lastStart.Some? then now - t[k].lastStart.value else 0)
      && o.reply.value.id == t[k].id && o.reply.value.mode == t[k].mode
      && o.reply.value.startTime == t[k].startTime && o.reply.value.durationMinutes == t[k].durationMinutes
  {
    match ActiveIndex(t)
    case None => Outcome(t, Err(NothingToStop))
    case Some(k) =>
      var s := t[k];
      var extra := if s.phase == Running && s.lastStart.Some? then now - s.lastStart.value else 0;
      var s' := s.(phase := Stopped, endTime := Some(now), elapsed := s.elapsed + extra, lastStart := None);
      Outcome(t[k := s'], Ok(s'))
  }

  /** What `status()` answers: the active row, or `{"status": "idle"}`. */
  datatype Status = Idle | Active(session: Session)

  /** `status`: the newest running or paused session, or idle when there is
      none. */
  function StatusOf(t: seq<Session>): (r: Status)
    requires Numbered(t)
    ensures r.Idle? <==> !HasActive(t)
    ensures r.Active? ==> IsActive(r.session) && r.session in t
    ensures r.Active? ==> forall j :: 0 <= j < |t| && IsActive(t[j]) ==> t[j].id <= r.session.id
  {
    match ActiveIndex(t)
    case None => Idle
    case Some(k) => Active(t[k])
  }

  // ---------------------------------------------------------------------------
  // The invariant
  // ---------------------------------------------------------------------------

  /** Every transition keeps the table numbered, timed and with at most one
      active session. */
  lemma TransitionsKeepValid(t: seq<Session>, mode: string, durationMinutes: int, now: int)
    requires ValidTable(t)
    ensures ValidTable(Start(t, mode, durationMinutes, now).table)
    ensures ValidTable(Pause(t, now).table)
    ensures ValidTable(Resume(t, now).table)
    ensures ValidTable(Stop(t, now).table)
  {
    StartKeepsValid(t, mode, durationMinutes, now);
    PauseKeepsValid(t, now);
    ResumeKeepsValid(t, now);
    StopKeepsValid(t, now);
  }

  lemma StartKeepsValid(t: seq<Session>, mode: string, durationMinutes: int, now: int)
    requires ValidTable(t)
    ensures ValidTable(Start(t, mode, durationMinutes, now).table)
  {
    var o := Start(t, mode, durationMinutes, now);
    if o.reply.Ok? {
      var u := o.table;
      assert !HasActive(t);
      forall i | 0 <= i < |t| ensures !IsActive(u[i]) {
        assert u[i] == t[i];
      }
    }
  }

  /** Replacing the active row by another active row keeps at most one
      active. */
  lemma ReplaceActive(t: seq<Session>, k: nat, s: Session)
    requires OneActive(t) && k < |t| && IsActive(t[k])
    ensures OneActive(t[k := s])
  {
    var u := t[k := s];
    forall i | 0 <= i < |u| && i != k ensures !IsActive(u[i]) {
      assert u[i] == t[i];
    }
  }

  lemma PauseKeepsValid(t: seq<Session>, now: int)
    requires ValidTable(t)
    ensures ValidTable(Pause(t, now).table)
  {
    var o := Pause(t, now);
    if o.reply.Ok? {
      ReplaceActive(t, ActiveIndex(t).value, o.reply.value);
    }
  }

  lemma ResumeKeepsValid(t: seq<Session>, now: int)
    requires ValidTable(t)
    ensures ValidTable(Resume(t, now).table)
  {
    var o := Resume(t, now);
    if o.reply.Ok? {
      ReplaceActive(t, ActiveIndex(t).value, o.reply.value);
    }
  }

  lemma StopKeepsValid(t: seq<Session>, now: int)
    requires ValidTable(t)
    ensures ValidTable(Stop(t, now).table)
  {
    var o := Stop(t, now);
    if o.reply.Ok? {
      ReplaceActive(t, ActiveIndex(t).value, o.reply.value);
    }
  }

  /** With at most one active session, pausing fails exactly when nothing
      runs, resuming exactly when nothing is paused. */
  lemma ErrorsOfOneActive(t: seq<Session>, now: int)
    requires ValidTable(t)
    ensures Pause(t, now).reply.Err? <==> !exists i :: 0 <= i < |t| && t[i].phase == Running
    ensures Resume(t, now).reply.Err? <==> !exists i :: 0 <= i < |t| && t[i].phase == Paused
  {
    var a := ActiveIndex(t);
    if a.Some? {
      forall i | 0 <= i < |t| && IsActive(t[i]) ensures i == a.value {}
    }
  }

  /** Stopping leaves no session active, so `status` turns idle. */
  lemma StopThenIdle(t: seq<Session>, now: int)
    requires ValidTable(t)
    ensures StatusOf(Stop(t, now).table).Idle?
  {
    StopKeepsValid(t, now);
    var o := Stop(t, now);
    if o.reply.Ok? {
      var k := ActiveIndex(t).value;
      forall i | 0 <= i < |o.table| ensures !IsActive(o.table[i]) {
        if i != k {
          assert o.table[i] == t[i];
        }
      }
    }
  }

  /** After a successful start, `status` reports the new session. */
  lemma StartThenActive(t: seq<Session>, mode: string, durationMinutes: int, now: int)
    requires ValidTable(t) && !HasActive(t)
    ensures var o := Start(t, mode, durationMinutes, now);
      o.reply.Ok? && StatusOf(o.table) == Active(o.reply.value)
  {
    StartKeepsValid(t, mode, durationMinutes, now);
  }

  // ---------------------------------------------------------------------------
  // Elapsed time never decreases
  // ---------------------------------------------------------------------------

  predicate ElapsedGrows(t: seq<Session>, u: seq<Session>) {
    |t| <= |u| && forall i :: 0 <= i < |t| ==> t[i].elapsed <= u[i].elapsed
  }

  /** Under a clock that has not gone back, no transition decreases the
      elapsed time of any session, and the clock stays ahead of every
      current interval. */
  lemma ElapsedMonotone(t: seq<Session>, mode: string, durationMinutes: int, now: int)
    requires Timed(t) && ClockAfter(t, now)
    ensures ElapsedGrows(t, Start(t, mode, durationMinutes, now).table)
    ensures ElapsedGrows(t, Pause(t, now).table)
    ensures ElapsedGrows(t, Resume(t, now).table)
    ensures ElapsedGrows(t, Stop(t, now).table)
    ensures ClockAfter(Start(t, mode, durationMinutes, now).table, now)
    ensures ClockAfter(Pause(t, now).table, now)
    ensures ClockAfter(Resume(t, now).table, now)
    ensures ClockAfter(Stop(t, now).table, now)
  {
    StartGrows(t, mode, durationMinutes, now);
    PauseGrows(t, now);
    ResumeGrows(t, now);
    StopGrows(t, now);
  }

  lemma StartGrows(t: seq<Session>, mode: string, durationMinutes: int, now: int)
    requires ClockAfter(t, now)
    ensures ElapsedGrows(t, Start(t, mode, durationMinutes, now).table)
    ensures ClockAfter(Start(t, mode, durationMinutes, now).table, now)
  {
    var a := Start(t, mode, durationMinutes, now).table;
    assert forall i :: 0 <= i < |t| ==> a[i] == t[i];
  }

  lemma PauseGrows(t: seq<Session>, now: int)
    requires Timed(t) && ClockAfter(t, now)
    ensures ElapsedGrows(t, Pause(t, now).table)
    ensures ClockAfter(Pause(t, now).table, now)
  {
  }

  lemma ResumeGrows(t: seq<Session>, now: int)
    requires ClockAfter(t, now)
    ensures ElapsedGrows(t, Resume(t, now).table)
    ensures ClockAfter(Resume(t, now).table, now)
  {
  }

  lemma StopGrows(t: seq<Session>, now: int)
    requires ClockAfter(t, now)
    ensures ElapsedGrows(t, Stop(t, now).table)
    ensures ClockAfter(Stop(t, now).table, now)
  {
  }

  /** A clock ahead of the table stays ahead as time passes. */
  lemma ClockAdvances(t: seq<Session>, now: int, later: int)
    requires ClockAfter(t, now) && now <= later
    ensures ClockAfter(t, later)
  {
  }

  /** Pausing then resuming keeps the running time of the first interval
      and opens a new one. */
  lemma PauseResume(t: seq<Session>, n1: int, n2: int)
    requires Timed(t) && Pause(t, n1).reply.Ok?
    ensures var p := Pause(t, n1); var r := Resume(p.table, n2);
      var k := ActiveIndex(t).value;
      r.reply.Ok? && r.table == t[k := r.reply.value]
      && r.reply.value == t[k].(elapsed := t[k].elapsed + (n1 - t[k].lastStart.value), lastStart := Some(n2))
  {
    var p := Pause(t, n1);
    var k := ActiveIndex(t).value;
    assert forall j :: k < j < |p.table| ==> p.table[j] == t[j];
    LastActiveIs(p.table, k);
  }

  /** An active row with no active row after it is the one `get_active_session`
      picks. */
  lemma LastActiveIs(t: seq<Session>, k: nat)
    requires k < |t| && IsActive(t[k])
    requires forall j :: k < j < |t| ==> !IsActive(t[j])
    ensures ActiveIndex(t) == Some(k)
  {
  }

  // ---------------------------------------------------------------------------
  // `stats`
  // ---------------------------------------------------------------------------

  /** The local day of a time in seconds (`date(end_time)`). */
  function Day(time: int): int {
    time / SecondsPerDay
  }

  /** The rows `stats(range_name)` selects: stopped focus sessions with an
      end time, ended today for "today", on or after six days ago for
      "week", any day otherwise. */
  predicate Selected(s: Session, range: string, today: int) {
    s.mode == "focus" && s.phase == Stopped && s.endTime.Some?
    && (if range == "today" then Day(s.endTime.value) == today
        else if range == "week" then Day(s.endTime.value) >= today - 6
        else true)
  }

  datatype Stats = Stats(range: string, totalSeconds: int, sessions: nat)

  /** `stats(range_name)`: the sum of the elapsed times and the number of
      the selected rows. */
  function StatsOf(t: seq<Session>, range: string, today: int): (r: Stats)
    ensures r.range == range && r.sessions <= |t|
    ensures r.sessions == 0 <==> forall i :: 0 <= i < |t| ==> !Selected(t[i], range, today)
    ensures (forall i :: 0 <= i < |t| ==> t[i].elapsed >= 0) ==> r.totalSeconds >= 0
  {
    if |t| == 0 then Stats(range, 0, 0)
    else
      var r := StatsOf(t[..|t| - 1], range, today);
      var s := t[|t| - 1];
      assert forall i :: 0 <= i < |t| - 1 ==> t[..|t| - 1][i] == t[i];
      if Selected(s, range, today) then Stats(range, r.totalSeconds + s.elapsed, r.sessions + 1)
      else r
  }

  /** "today" selects no more than "week", and "week" no more than any
      other range; with no negative elapsed time the totals nest too. */
  lemma {:induction false} RangesNest(t: seq<Session>, other: string, today: int)
    requires other != "today" && other != "week"
    ensures StatsOf(t, "today", today).sessions <= StatsOf(t, "week", today).sessions
    ensures StatsOf(t, "week", today).sessions <= StatsOf(t, other, today).sessions
    ensures (forall i :: 0 <= i < |t| ==> t[i].elapsed >= 0) ==>
              StatsOf(t, "today", today).totalSeconds <= StatsOf(t, "week", today).totalSeconds
              <= StatsOf(t, other, today).totalSeconds
    decreases |t|
  {
    if |t| > 0 {
      var init := t[..|t| - 1];
      assert forall i :: 0 <= i < |init| ==> init[i] == t[i];
      RangesNest(init, other, today);
    }
  }

  /** Replacing one unselected row by a selected one adds one session and
      its elapsed time. */
  lemma {:induction false} StatsReplace(t: seq<Session>, k: nat, s: Session, range: string, today: int)
    requires k < |t| && !Selected(t[k], range, today) && Selected(s, range, today)
    ensures StatsOf(t[k := s], range, today).sessions == StatsOf(t, range, today).sessions + 1
    ensures StatsOf(t[k := s], range, today).totalSeconds == StatsOf(t, range, today).totalSeconds + s.elapsed
    decreases |t|
  {
    var u := t[k := s];
    var n := |t| - 1;
    if k == n {
      assert u[..n] == t[..n];
    } else {
      assert u[..n] == t[..n][k := s];
      assert u[n] == t[n];
      StatsReplace(t[..n], k, s, range, today);
    }
  }

  /** Stopping an active focus session counts it once more in the "all"
      statistics, with its final elapsed time. */
  lemma StopCounts(t: seq<Session>, now: int, today: int)
    requires HasActive(t) && t[ActiveIndex(t).value].mode == "focus"
    ensures var o := Stop(t, now);
      StatsOf(o.table, "all", today).sessions == StatsOf(t, "all", today).sessions + 1
      && StatsOf(o.table, "all", today).totalSeconds
         == StatsOf(t, "all", today).totalSeconds + o.reply.value.elapsed
  {
    var k := ActiveIndex(t).value;
    StatsReplace(t, k, Stop(t, now).reply.value, "all", today);
  }

  /** The lifecycle exercised by the backend's test: from a table with no
      active session, start, pause, resume and stop report running, paused,
      running and stopped; the session ran for both intervals and the
      statistics count it. */
  lemma Lifecycle(t: seq<Session>, durationMinutes: int, n0: int, n1: int, n2: int, n3: int, today: int)
    requires ValidTable(t) && !HasActive(t) && n0 <= n1 <= n2 <= n3
    ensures var s0 := Start(t, "focus", durationMinutes, n0);
      var s1 := Pause(s0.table, n1);
      var s2 := Resume(s1.table, n2);
      var s3 := Stop(s2.table, n3);
      s0.reply.Ok? && s0.reply.value.phase == Running
      && s1.reply.Ok? && s1.reply.value.phase == Paused
      && s2.reply.Ok? && s2.reply.value.phase == Running
      && s3.reply.Ok? && s3.reply.value.phase == Stopped
      && s3.reply.value.elapsed == (n1 - n0) + (n3 - n2)
      && StatsOf(s3.table, "all", today).sessions == StatsOf(t, "all", today).sessions + 1
  {
    var s0 := Start(t, "focus", durationMinutes, n0);
    var k := |t|;
    assert ActiveIndex(s0.table) == Some(k);
    var s1 := Pause(s0.table, n1);
    PauseResume(s0.table, n1, n2);
    var s2 := Resume(s1.table, n2);
    LastActiveIs(s2.table, k);
    var s3 := Stop(s2.table, n3);
    StatsReplace(s2.table, k, s3.reply.value, "all", today);
    assert s2.table[..k] == t;
  }
}

=== FILE: repo_forge.dfy ===
/** README generation of the repo-forge module (`modules/repo_forge`): two
    profile and two project templates, chosen by style with "clean" as the
    fallback, filled in with Python's `str.format`.

    A template is a sequence of pieces, literal text or a named
    placeholder; the literal text of the four templates is reproduced
    piece by piece, so that rendering them yields exactly the template
    text with each `{name}` replaced. */
module RepoForge {
  import opened Strings

  datatype Piece = Text(text: string) | Field(name: string)

  /** Every placeholder of the template has a value. */
  predicate Filled(t: seq<Piece>, values: map<string, string>) {
    forall i :: 0 <= i < |t| && t[i].Field? ==> t[i].name in values
  }

  /** `template.format(**values)`. */
  function Render(t: seq<Piece>, values: map<string, string>): (r: string)
    requires Filled(t, values)
    ensures |t| > 0 && t[0].Text? ==> StartsWith(r, t[0].text)
    ensures |t| > 0 && t[0].Field? ==> StartsWith(r, values[t[0].name])
  {
    if |t| == 0 then ""
    else
      var head := if t[0].Text? then t[0].text else values[t[0].name];
      var rest := Render(t[1..], values);
      assert (head + rest)[..|head|] == head;
      head + rest
  }

  /** Rendering is piecewise: the first piece, then the rest. */
  lemma RenderCons(t: seq<Piece>, values: map<string, string>)
    requires Filled(t, values) && |t| > 0
    ensures Render(t, values) == (if t[0].Text? then t[0].text else values[t[0].name]) + Render(t[1..], values)
  {
  }

  /** Every literal piece appears in the output, and so does the value of
      every placeholder. */
  lemma {:induction false} RenderHas(t: seq<Piece>, values: map<string, string>, i: nat)
    requires Filled(t, values) && i < |t|
    ensures t[i].Text? ==> Contains(Render(t, values), t[i].text)
    ensures t[i].Field? ==> Contains(Render(t, values), values[t[i].name])
    decreases i
  {
    var head := if t[0].Text? then t[0].text else values[t[0].name];
    var rest := Render(t[1..], values);
    if i == 0 {
      ContainsSelf(head);
      ContainsConcat(head, rest, head);
    } else {
      RenderHas(t[1..], values, i - 1);
      assert t[1..][i - 1] == t[i];
      var sub := if t[i].Text? then t[i].text else values[t[i].name];
      ContainsConcat(head, rest, sub);
    }
  }

  // ---------------------------------------------------------------------------
  // The templates
  // ---------------------------------------------------------------------------

  const ProjectsList: string :=
    "\n- Project One: short summary and link\n- Project Two: short summary and link\n- Project Three: short summary and link\n"
  const ProfileStack: string := "\n- Languages: Python, TypeScript, ...\n- Tools: Git, Docker, ...\n"
  const ProfileRoadmap: string := "\n- [ ] Next milestone\n- [ ] Skill to sharpen\n"
  const ProfileLicense: string := "\nThis profile README is yours to customize.\n"
  const Rituals: string := "\n- Daily focus sprints\n- Weekly refactor flight\n- Keep the lair tidy\n"

  /** `PROFILE_TEMPLATES["clean"]`. */
  const CleanProfile: seq<Piece> := [
    Text("# "), Field("name"), Text("\n\n"),
    Text("## About"), Text("\n"), Field("about"), Text("\n\n"),
    Text("## Featured Projects"), Text(ProjectsList), Text("\n"),
    Text("## Tech Stack"), Text(ProfileStack), Text("\n"),
    Text("## Stats and Presence"), Text("\n- GitHub: "), Field("github_handle"),
    Text("\n- Website: "), Field("website"), Text("\n\n"),
    Text("## Roadmap"), Text(ProfileRoadmap), Text("\n"),
    Text("## License"), Text(ProfileLicense)]

  /** `PROFILE_TEMPLATES["cute"]`. */
  const CuteProfile: seq<Piece> := [
    Text("# "), Field("name"), Text("\n\n"),
    Text("> Scales polished, claws sharp, and commits steady."), Text("\n\n"),
    Text("## About"), Text("\n"), Field("about"), Text("\n\n"),
    Text("## Featured Projects"), Text(ProjectsList), Text("\n"),
    Text("## Tech Stack"), Text(ProfileStack), Text("\n"),
    Text("## Rituals"), Text(Rituals), Text("\n"),
    Text("## Roadmap"), Text(ProfileRoadmap), Text("\n"),
    Text("## License"), Text(ProfileLicense)]

  const Features: string := "\n- Feature one\n- Feature two\n- Feature three\n"
  const ProjectStack: string := "\n- Language: Python\n- Frameworks: ...\n- Tooling: ...\n"
  const ScreenshotLine: string := "\n![Screenshot placeholder](./docs/screenshot-1.png)\n"
  const ProjectRoadmap: string := "\n- [ ] V1 release\n- [ ] Add tests\n- [ ] Polish docs\n"
  const ProjectLicense: string := "\nChoose a license and add it here.\n"

  /** The part of both project templates after the About text. */
  const ProjectBody: seq<Piece> := [
    Text("\n\n"),
    Text("## Features"), Text(Features), Text("\n"),
    Text("## Tech Stack"), Text(ProjectStack), Text("\n"),
    Text("## Screenshots"), Text(ScreenshotLine), Text("\n"),
    Text("## Roadmap"), Text(ProjectRoadmap), Text("\n"),
    Text("## License"), Text(ProjectLicense)]

  /** `PROJECT_TEMPLATES["clean"]`. */
  const CleanProject: seq<Piece> :=
    [Text("# "), Field("title"), Text("\n\n"), Text("## About"), Text("\n"), Field("description")] + ProjectBody

  /** `PROJECT_TEMPLATES["cute"]`. */
  const CuteProject: seq<Piece> :=
    [Text("# "), Field("title"), Text("\n\n"),
     Text("> Forged in the dragon's workshop, tuned for crisp builds."), Text("\n\n"),
     Text("## About"), Text("\n"), Field("description")] + ProjectBody

  // ---------------------------------------------------------------------------
  // Rendering
  // ---------------------------------------------------------------------------

  const AboutText: string := "Write a short bio: what you build, what you love, what you are exploring."
  const HandleText: string := "https://github.com/your-handle"
  const WebsiteText: string := "https://your-site.example"
  const DefaultDescription: string := "Add a crisp summary of the project goal and audience."

  /** `PROFILE_TEMPLATES.get(style, PROFILE_TEMPLATES["clean"])`. */
  function ProfileTemplate(style: string): (t: seq<Piece>)
    ensures t == CleanProfile || t == CuteProfile
    ensures t == CuteProfile <==> style == "cute"
  {
    if style == "cute" then CuteProfile else CleanProfile
  }

  /** `PROJECT_TEMPLATES.get(style, PROJECT_TEMPLATES["clean"])`. */
  function ProjectTemplate(style: string): (t: seq<Piece>)
    ensures t == CleanProject || t == CuteProject
    ensures t == CuteProject <==> style == "cute"
  {
    if style == "cute" then CuteProject else CleanProject
  }

  function ProfileValues(name: string): map<string, string> {
    map["name" := name, "about" := AboutText, "github_handle" := HandleText, "website" := WebsiteText]
  }

  /** Both profile templates use only the four profile fields. */
  lemma ProfileFilled(name: string, style: string)
    ensures Filled(ProfileTemplate(style), ProfileValues(name))
  {
    var v := ProfileValues(name);
    assert "name" in v && "about" in v && "github_handle" in v && "website" in v;
  }

  /** `render_profile_readme(name, style)`. */
  function RenderProfile(name: string, style: string): (r: string)
    ensures StartsWith(r, "# ")
  {
    ProfileFilled(name, style);
    Render(ProfileTemplate(style), ProfileValues(name))
  }

  /** `description or DEFAULT`: an empty description is replaced. */
  function DescriptionOrDefault(description: string): (r: string)
    ensures r != ""
    ensures description != "" ==> r == description
  {
    if description != "" then description else DefaultDescription
  }

  /** `render_project_readme(title, description, style)`. */
  function RenderProject(title: string, description: string, style: string): (r: string)
    ensures StartsWith(r, "# ")
  {
    Render(ProjectTemplate(style), map["title" := title, "description" := DescriptionOrDefault(description)])
  }

  /** An unknown style renders exactly as "clean". */
  lemma UnknownStyleIsClean(name: string, title: string, description: string, style: string)
    requires style != "clean" && style != "cute"
    ensures RenderProfile(name, style) == RenderProfile(name, "clean")
    ensures RenderProject(title, description, style) == RenderProject(title, description, "clean")
  {
  }

  /** A profile README starts with `# <name>`, and has an About and a Tech
      Stack section, whatever the style. */
  lemma ProfileSections(name: string, style: string)
    ensures StartsWith(RenderProfile(name, style), "# " + name)
    ensures Contains(RenderProfile(name, style), "## About")
    ensures Contains(RenderProfile(name, style), "## Tech Stack")
  {
    ProfileFilled(name, style);
    if style == "cute" {
      CuteProfileSections(name);
    } else {
      CleanProfileSections(name);
    }
  }

  lemma CleanProfileSections(name: string)
    requires Filled(CleanProfile, ProfileValues(name))
    ensures StartsWith(Render(CleanProfile, ProfileValues(name)), "# " + name)
    ensures Contains(Render(CleanProfile, ProfileValues(name)), "## About")
    ensures Contains(Render(CleanProfile, ProfileValues(name)), "## Tech Stack")
  {
    HeadingStart(CleanProfile, ProfileValues(name), "name", name);
    RenderHasText(CleanProfile, ProfileValues(name), 3, "## About");
    RenderHasText(CleanProfile, ProfileValues(name), 10, "## Tech Stack");
  }

  lemma CuteProfileSections(name: string)
    requires Filled(CuteProfile, ProfileValues(name))
    ensures StartsWith(Render(CuteProfile, ProfileValues(name)), "# " + name)
    ensures Contains(Render(CuteProfile, ProfileValues(name)), "## About")
    ensures Contains(Render(CuteProfile, ProfileValues(name)), "## Tech Stack")
  {
    HeadingStart(CuteProfile, ProfileValues(name), "name", name);
    RenderHasText(CuteProfile, ProfileValues(name), 5, "## About");
    RenderHasText(CuteProfile, ProfileValues(name), 12, "## Tech Stack");
  }

  /** A project README starts with `# <title>`, has About and Roadmap
      sections, and carries the description, or the default sentence when
      it is empty. */
  lemma ProjectSections(title: string, description: string, style: string)
    ensures StartsWith(RenderProject(title, description, style), "# " + title)
    ensures Contains(RenderProject(title, description, style), "## About")
    ensures Contains(RenderProject(title, description, style), "## Roadmap")
    ensures Contains(RenderProject(title, description, style), DescriptionOrDefault(description))
    ensures description == "" ==> Contains(RenderProject(title, description, style), DefaultDescription)
  {
    var v := map["title" := title, "description" := DescriptionOrDefault(description)];
    if style == "cute" {
      HeadingStart(CuteProject, v, "title", title);
      RenderHasText(CuteProject, v, 5, "## About");
      RenderHasText(CuteProject, v, 18, "## Roadmap");
      RenderHas(CuteProject, v, 7);
    } else {
      HeadingStart(CleanProject, v, "title", title);
      RenderHasText(CleanProject, v, 3, "## About");
      RenderHasText(CleanProject, v, 16, "## Roadmap");
      RenderHas(CleanProject, v, 5);
    }
  }

  /** A literal piece known by its text appears in the output. */
  lemma RenderHasText(t: seq<Piece>, values: map<string, string>, i: nat, text: string)
    requires Filled(t, values) && i < |t| && t[i] == Text(text)
    ensures Contains(Render(t, values), text)
  {
    RenderHas(t, values, i);
  }

  /** A template opening with `# ` and a placeholder renders to
      `# <value>` first. */
  lemma HeadingStart(t: seq<Piece>, values: map<string, string>, field: string, value: string)
    requires Filled(t, values) && |t| >= 2 && t[0] == Text("# ") && t[1] == Field(field)
    requires field in values && values[field] == value
    ensures StartsWith(Render(t, values), "# " + value)
  {
    RenderCons(t, values);
    RenderCons(t[1..], values);
    var rest := Render(t[2..], values);
    assert t[1..][1..] == t[2..];
    assert Render(t, values) == ("# " + value) + rest;
    assert (("# " + value) + rest)[..|"# " + value|] == "# " + value;
  }
}

=== FILE: roost.dfy ===
/** The task table of the project-roost module
    (`modules/project_roost/core.py`): the due-date label of a task and the
    shape of the table listing tasks. The table is reduced to its title,
    its column headers and its rows of cell text; today's date is a
    parameter. */
module Roost {
  import opened Wrappers
  import opened Strings
  import opened Calendar
  import opened Storage

  /** `_task_due_label(task, today)`: "-" without a due date (Python's
      `not task.due_date` also holds for the empty string), the date with
      " (overdue)" or " (today)" by text comparison with today's ISO date,
      and the plain date when it lies ahead. */
  function DueLabel(due: Option<string>, today: Date): (r: string)
    requires IsPyDate(today)
    ensures due.None? || due.value == "" <==> r == "-"
    ensures due.Some? && due.value != "" ==> StartsWith(r, due.value)
  {
    if due.None? || due.value == "" then "-"
    else
      var iso := IsoFormat(today);
      var r := if Less(due.value, iso) then due.value + " (overdue)"
               else if due.value == iso then due.value + " (today)"
               else due.value;
      assert r[..|due.value|] == due.value;
      r
  }

  /** For a due date written as an ISO date (as the store writes it), the
      text comparison agrees with the calendar: overdue exactly when the
      day is past, "today" exactly on the day, and unmarked when it is
      still ahead. */
  lemma DueLabelMeaning(due: Date, today: Date)
    requires IsPyDate(due) && IsPyDate(today)
    ensures DueLabel(Some(IsoFormat(due)), today) == IsoFormat(due) + " (overdue)" <==> Calendar.Before(due, today)
    ensures DueLabel(Some(IsoFormat(due)), today) == IsoFormat(due) + " (today)" <==> due == today
    ensures DueLabel(Some(IsoFormat(due)), today) == IsoFormat(due) <==> Calendar.Before(today, due)
  {
    var d, t := IsoFormat(due), IsoFormat(today);
    IsoFieldWidths(due);
    LabelByText(d, today);
    IsoOrder(due, today);
    IsoOrder(today, due);
    CalendarTrichotomy(due, today);
    if d == t {
      IsoInjective(due, today);
    }
    DistinctSuffixes(d);
  }

  /** The three labels of a non-empty due date, by its text order against
      today's ISO date. */
  lemma LabelByText(d: string, today: Date)
    requires IsPyDate(today) && d != ""
    ensures Less(d, IsoFormat(today)) ==> DueLabel(Some(d), today) == d + " (overdue)"
    ensures d == IsoFormat(today) ==> DueLabel(Some(d), today) == d + " (today)"
    ensures !Less(d, IsoFormat(today)) && d != IsoFormat(today) ==> DueLabel(Some(d), today) == d
  {
    LessIrreflexive(d);
  }

  lemma DistinctSuffixes(d: string)
    ensures d + " (overdue)" != d + " (today)"
    ensures d + " (overdue)" != d && d + " (today)" != d
  {
    assert |d + " (overdue)"| == |d| + 10;
    assert |d + " (today)"| == |d| + 8;
  }

  /** Two dates are equal or one comes first. */
  lemma CalendarTrichotomy(a: Date, b: Date)
    ensures a == b || Calendar.Before(a, b) || Calendar.Before(b, a)
    ensures !(Calendar.Before(a, b) && Calendar.Before(b, a))
    ensures !Calendar.Before(a, a)
  {
  }

  datatype Table = Table(title: string, columns: seq<string>, rows: seq<seq<string>>)

  const TableTitle: string := "Project Roost Tasks"

  /** The cells of one task: id, title, due label, and the status when it
      is shown. */
  function TaskRow(task: TaskItem, showStatus: bool, today: Date): (row: seq<string>)
    requires IsPyDate(today)
    ensures |row| == if showStatus then 4 else 3
    ensures row[0] == NatToString(task.id) && row[1] == task.title && row[2] == DueLabel(task.dueDate, today)
    ensures showStatus ==> row[3] == task.status
  {
    var row := [NatToString(task.id), task.title, DueLabel(task.dueDate, today)];
    if showStatus then row + [task.status] else row
  }

  function TaskRows(tasks: seq<TaskItem>, showStatus: bool, today: Date): (rows: seq<seq<string>>)
    requires IsPyDate(today)
    ensures |rows| == |tasks|
    ensures forall i :: 0 <= i < |tasks| ==> rows[i] == TaskRow(tasks[i], showStatus, today)
  {
    if |tasks| == 0 then []
    else TaskRows(tasks[..|tasks| - 1], showStatus, today) + [TaskRow(tasks[|tasks| - 1], showStatus, today)]
  }

  /** `render_tasks_table(tasks, show_status)`. */
  function RenderTasksTable(tasks: seq<TaskItem>, showStatus: bool, today: Date): (r: Table)
    requires IsPyDate(today)
    ensures r.title == TableTitle
    ensures r.columns == if showStatus then ["ID", "Title", "Due", "Status"] else ["ID", "Title", "Due"]
    ensures |r.rows| == |tasks|
    ensures forall i :: 0 <= i < |r.rows| ==> |r.rows[i]| == |r.columns|
    ensures forall i :: 0 <= i < |tasks| ==> r.rows[i] == TaskRow(tasks[i], showStatus, today)
  {
    var columns := ["ID", "Title", "Due"] + (if showStatus then ["Status"] else []);
    Table(TableTitle, columns, TaskRows(tasks, showStatus, today))
  }

  /** The table of a concatenated list is the two tables' rows one after
      the other: rows follow the input order and depend on their own task
      only. */
  lemma TableConcat(a: seq<TaskItem>, b: seq<TaskItem>, showStatus: bool, today: Date)
    requires IsPyDate(today)
    ensures RenderTasksTable(a + b, showStatus, today).rows
         == RenderTasksTable(a, showStatus, today).rows + RenderTasksTable(b, showStatus, today).rows
  {
    var r := RenderTasksTable(a + b, showStatus, today).rows;
    var ra := RenderTasksTable(a, showStatus, today).rows;
    var rb := RenderTasksTable(b, showStatus, today).rows;
    assert |r| == |ra + rb|;
    forall i | 0 <= i < |r| ensures r[i] == (ra + rb)[i] {
      if i < |a| {
        assert (a + b)[i] == a[i];
      } else {
        assert (a + b)[i] == b[i - |a|];
      }
    }
  }
}

=== FILE: storage.dfy ===
/** The command-line tool's SQLite store (`packages/core/storage.py`): its
    task list (add, list, mark done, the open tasks with a due date) and
    the focus statistics (today, the last seven days, the day streak).

    Tables are sequences of rows in id order. A focus session is reduced to
    the calendar day SQLite's `date(start_ts)` reads from its start
    timestamp, its minutes and its type. */
module Storage {
  import opened Wrappers
  import opened Strings
  import opened Calendar
  import opened DueOrder
  import Collections

  datatype TaskItem = TaskItem(id: nat, title: string, status: string, createdTs: string,
                               dueDate: Option<string>, doneTs: Option<string>)

  datatype FocusSession = FocusSession(start: Date, minutes: int, sessionType: string)

  /** Both tables and the next task id `AUTOINCREMENT` hands out. */
  datatype Db = Db(sessions: seq<FocusSession>, tasks: seq<TaskItem>, nextTask: nat)

  const OpenStatus: string := "open"
  const DoneStatus: string := "done"
  const WorkType: string := "work"

  // ---------------------------------------------------------------------------
  // Tasks
  // ---------------------------------------------------------------------------

  /** Task ids are positive, increasing along the table and below the
      counter. */
  predicate ValidTasks(db: Db) {
    (forall i :: 0 <= i < |db.tasks| ==> 1 <= db.tasks[i].id < db.nextTask)
    && (forall i, j :: 0 <= i < j < |db.tasks| ==> db.tasks[i].id < db.tasks[j].id)
  }

  datatype AddedTask = AddedTask(db: Db, id: nat)

  /** `add_task(title, due_date)`: an open row with no completion time,
      created `now` (the `format_dt(now_local())` text), its due date
      written in ISO form. */
  function AddTask(db: Db, title: string, due: Option<Date>, now: string): (r: AddedTask)
    requires due.Some? ==> IsPyDate(due.value)
    ensures r.id == db.nextTask && r.db.nextTask == db.nextTask + 1 && r.db.sessions == db.sessions
    ensures |r.db.tasks| == |db.tasks| + 1 && r.db.tasks[..|db.tasks|] == db.tasks
    ensures var t := r.db.tasks[|db.tasks|];
      t.id == r.id && t.title == title && t.status == OpenStatus && t.doneTs.None?
      && t.createdTs == now
      && (due.None? <==> t.dueDate.None?)
      && (due.Some? ==> t.dueDate == Some(IsoFormat(due.value)))
  {
    var dueValue := if due.Some? then Some(IsoFormat(due.value)) else None;
    var t := TaskItem(db.nextTask, title, OpenStatus, now, dueValue, None);
    assert (db.tasks + [t])[..|db.tasks|] == db.tasks;
    AddedTask(db.(tasks := db.tasks + [t], nextTask := db.nextTask + 1), db.nextTask)
  }

  /** `WHERE status = 'open'`, in table order. */
  function OpenRows(rows: seq<TaskItem>): (r: seq<TaskItem>)
    ensures forall t :: t in r <==> t in rows && t.status == OpenStatus
  {
    if |rows| == 0 then []
    else
      var init := OpenRows(rows[..|rows| - 1]);
      var last := rows[|rows| - 1];
      assert rows == rows[..|rows| - 1] + [last];
      if last.status == OpenStatus then init + [last] else init
  }

  function ItemKey(t: TaskItem): DueKey {
    DueKey(t.dueDate, t.createdTs)
  }

  /** `list_tasks(include_done)`: the open rows, or every row, ordered by
      `due_date IS NULL, due_date, created_ts`. */
  function ListTasks(db: Db, includeDone: bool): (r: seq<TaskItem>)
    ensures SortedBy(r, ItemKey)
    ensures multiset(r) == multiset(if includeDone then db.tasks else OpenRows(db.tasks))
  {
    SortByDue(if includeDone then db.tasks else OpenRows(db.tasks), ItemKey)
  }

  /** `list_open_tasks_with_due`: its own query, with the same filter and
      order. */
  function ListOpenTasksWithDue(db: Db): (r: seq<TaskItem>)
    ensures SortedBy(r, ItemKey)
    ensures forall t :: t in r <==> t in db.tasks && t.status == OpenStatus
  {
    var r := SortByDue(OpenRows(db.tasks), ItemKey);
    assert forall t :: t in r <==> t in multiset(OpenRows(db.tasks));
    r
  }

  /** The stand-up view and the default listing show the same rows in the
      same order. */
  lemma OpenListingsAgree(db: Db)
    ensures ListOpenTasksWithDue(db) == ListTasks(db, false)
  {
  }

  /** Without `include_done` only open rows are listed, all of them. */
  lemma ListedOpen(db: Db)
    ensures forall t :: t in ListTasks(db, false) <==> t in db.tasks && t.status == OpenStatus
  {
    OpenListingsAgree(db);
  }

  /** The position of the task with the given id: `WHERE id = ?`. */
  function TaskIndex(rows: seq<TaskItem>, id: nat): (r: Option<nat>)
    ensures r.Some? ==> r.value < |rows| && rows[r.value].id == id
    ensures r.Some? ==> forall j :: r.value < j < |rows| ==> rows[j].id != id
    ensures r.None? <==> forall i :: 0 <= i < |rows| ==> rows[i].id != id
  {
    Collections.LastIndex(rows, (t: TaskItem) => t.id == id)
  }

  predicate IsOpenTask(db: Db, id: nat) {
    exists i :: 0 <= i < |db.tasks| && db.tasks[i].id == id && db.tasks[i].status == OpenStatus
  }

  datatype Marked = Marked(db: Db, updated: bool)

  /** `mark_task_done(task_id)`: `UPDATE ... WHERE id = ? AND status =
      'open'`; true exactly when a row changed. `now` is the
      `format_dt(now_local())` text. */
  function MarkTaskDone(db: Db, id: nat, now: string): (r: Marked)
    requires ValidTasks(db)
    ensures r.updated <==> IsOpenTask(db, id)
    ensures !r.updated ==> r.db == db
    ensures r.updated ==> var k := TaskIndex(db.tasks, id).value;
      r.db == db.(tasks := db.tasks[k := db.tasks[k].(status := DoneStatus, doneTs := Some(now))])
  {
    match TaskIndex(db.tasks, id)
    case None => Marked(db, false)
    case Some(k) =>
      if db.tasks[k].status != OpenStatus then Marked(db, false)
      else
        var t := db.tasks[k].(status := DoneStatus, doneTs := Some(now));
        Marked(db.(tasks := db.tasks[k := t]), true)
  }

  /** After `mark_task_done` no open row has the id, and the ids are as
      before. */
  lemma MarkedNotOpen(db: Db, id: nat, now: string)
    requires ValidTasks(db)
    ensures ValidTasks(MarkTaskDone(db, id, now).db) && !IsOpenTask(MarkTaskDone(db, id, now).db, id)
  {
    var m := MarkTaskDone(db, id, now);
    if m.updated {
      var k := TaskIndex(db.tasks, id).value;
      var rows := m.db.tasks;
      forall i | 0 <= i < |rows| ensures rows[i].id == db.tasks[i].id {
      }
      forall i | 0 <= i < |rows| && rows[i].id == id ensures rows[i].status != OpenStatus {
        assert db.tasks[i].id == id;
        assert i == k;
      }
    }
  }

  /** Marking twice: the second call reports false and changes nothing. */
  lemma MarkTwice(db: Db, id: nat, n1: string, n2: string)
    requires ValidTasks(db)
    ensures var first := MarkTaskDone(db, id, n1);
      ValidTasks(first.db) && !MarkTaskDone(first.db, id, n2).updated
      && MarkTaskDone(first.db, id, n2).db == first.db
  {
    MarkedNotOpen(db, id, n1);
  }

  lemma AddKeepsValid(db: Db, title: string, due: Option<Date>, now: string)
    requires ValidTasks(db) && db.nextTask >= 1 && (due.Some? ==> IsPyDate(due.value))
    ensures ValidTasks(AddTask(db, title, due, now).db)
  {
    var a := AddTask(db, title, due, now);
    forall i | 0 <= i < |db.tasks| ensures a.db.tasks[i] == db.tasks[i] {
    }
  }

  /** A task just added is open and listed. */
  lemma AddedIsListed(db: Db, title: string, now: string)
    requires ValidTasks(db) && db.nextTask >= 1
    ensures var a := AddTask(db, title, None, now);
      ValidTasks(a.db) && IsOpenTask(a.db, a.id) && exists t :: t in ListTasks(a.db, false) && t.id == a.id
  {
    var a := AddTask(db, title, None, now);
    var t := a.db.tasks[|db.tasks|];
    AddKeepsValid(db, title, None, now);
    assert IsOpenTask(a.db, a.id);
    ListedOpen(a.db);
    assert t in a.db.tasks;
    assert t in ListTasks(a.db, false);
  }

  /** Once marked done, a task is not in the default listing. */
  lemma MarkedNotListed(db: Db, id: nat, now: string)
    requires ValidTasks(db)
    ensures forall t :: t in ListTasks(MarkTaskDone(db, id, now).db, false) ==> t.id != id
  {
    var m := MarkTaskDone(db, id, now);
    MarkedNotOpen(db, id, now);
    ListedOpen(m.db);
  }

  /** The storage test: a task just added is listed; once marked done (true)
      it is no longer. */
  lemma TaskLifecycle(db: Db, title: string, n0: string, n1: string)
    requires ValidTasks(db) && db.nextTask >= 1
    ensures var a := AddTask(db, title, None, n0); var m := MarkTaskDone(a.db, a.id, n1);
      (exists t :: t in ListTasks(a.db, false) && t.id == a.id)
      && m.updated
      && (forall t :: t in ListTasks(m.db, false) ==> t.id != a.id)
  {
    var a := AddTask(db, title, None, n0);
    AddedIsListed(db, title, n0);
    MarkedNotListed(a.db, a.id, n1);
  }

  // ---------------------------------------------------------------------------
  // Focus statistics
  // ---------------------------------------------------------------------------

  /** `add_focus_session` (the type defaults to "work"). */
  function AddFocusSession(db: Db, start: Date, minutes: int, sessionType: string): (r: Db)
    ensures r.sessions == db.sessions + [FocusSession(start, minutes, sessionType)]
    ensures r.tasks == db.tasks && r.nextTask == db.nextTask
  {
    db.(sessions := db.sessions + [FocusSession(start, minutes, sessionType)])
  }

  /** Which days a statistics query takes: `date(start_ts) = <day>` or
      `date(start_ts) >= <day>`, both on ISO text. */
  datatype Window = On(day: Date) | Since(day: Date)

  /** A work session whose start day the query's text comparison accepts. */
  predicate InWindow(s: FocusSession, w: Window) {
    s.sessionType == WorkType && IsPyDate(s.start) && IsPyDate(w.day)
    && match w
       case On(d) => IsoFormat(s.start) == IsoFormat(d)
       case Since(d) => LessEq(IsoFormat(d), IsoFormat(s.start))
  }

  datatype Tally = Tally(minutes: int, sessions: nat)

  /** `SELECT COALESCE(SUM(minutes), 0), COUNT(*)` over the window. */
  function TallyOf(sessions: seq<FocusSession>, w: Window): (r: Tally)
    ensures r.sessions <= |sessions|
  {
    if |sessions| == 0 then Tally(0, 0)
    else
      var r := TallyOf(sessions[..|sessions| - 1], w);
      var s := sessions[|sessions| - 1];
      if InWindow(s, w) then Tally(r.minutes + s.minutes, r.sessions + 1) else r
  }

  /** The count is zero exactly when no session falls in the window. */
  lemma {:induction false} TallyEmpty(sessions: seq<FocusSession>, w: Window)
    ensures TallyOf(sessions, w).sessions == 0 <==> forall i :: 0 <= i < |sessions| ==> !InWindow(sessions[i], w)
    decreases |sessions|
  {
    if |sessions| > 0 {
      var init := sessions[..|sessions| - 1];
      var s := sessions[|sessions| - 1];
      assert sessions == init + [s];
      TallyEmpty(init, w);
      LastOfWindow(sessions, init, s, w);
    }
  }

  /** With no negative durations the minutes total is not negative. */
  lemma {:induction false} TallyMinutesNonNegative(sessions: seq<FocusSession>, w: Window)
    requires forall i :: 0 <= i < |sessions| ==> sessions[i].minutes >= 0
    ensures TallyOf(sessions, w).minutes >= 0
    decreases |sessions|
  {
    if |sessions| > 0 {
      var init := sessions[..|sessions| - 1];
      var s := sessions[|sessions| - 1];
      assert sessions == init + [s];
      LastOfMinutes(sessions, init, s);
      TallyMinutesNonNegative(init, w);
    }
  }

  /** Splitting off the last session. */
  lemma LastOfWindow(sessions: seq<FocusSession>, init: seq<FocusSession>, s: FocusSession, w: Window)
    requires sessions == init + [s]
    ensures (forall i :: 0 <= i < |sessions| ==> !InWindow(sessions[i], w))
        <==> (forall i :: 0 <= i < |init| ==> !InWindow(init[i], w)) && !InWindow(s, w)
  {
    if (forall i :: 0 <= i < |init| ==> !InWindow(init[i], w)) && !InWindow(s, w) {
      forall i | 0 <= i < |sessions| ensures !InWindow(sessions[i], w) {
        if i < |init| {
          assert sessions[i] == init[i];
        } else {
          assert sessions[i] == s;
        }
      }
    }
    if forall i :: 0 <= i < |sessions| ==> !InWindow(sessions[i], w) {
      forall i | 0 <= i < |init| ensures !InWindow(init[i], w) {
        assert init[i] == sessions[i];
      }
      assert sessions[|init|] == s;
    }
  }

  lemma LastOfMinutes(sessions: seq<FocusSession>, init: seq<FocusSession>, s: FocusSession)
    requires sessions == init + [s]
    ensures (forall i :: 0 <= i < |sessions| ==> sessions[i].minutes >= 0)
        ==> (forall i :: 0 <= i < |init| ==> init[i].minutes >= 0) && s.minutes >= 0
  {
    assert forall i :: 0 <= i < |init| ==> init[i] == sessions[i];
    assert sessions[|init|] == s;
  }

  /** The text comparisons mean what they say on dates: the same day, and
      not before the first day of the window. */
  lemma WindowMeaning(s: FocusSession, d: Date)
    requires s.sessionType == WorkType && IsPyDate(s.start) && IsPyDate(d)
    ensures InWindow(s, On(d)) <==> s.start == d
    ensures InWindow(s, Since(d)) <==> !Calendar.Before(s.start, d)
  {
    if IsoFormat(s.start) == IsoFormat(d) {
      IsoInjective(s.start, d);
    }
    IsoOrder(d, s.start);
  }

  /** Today's sessions are among the week's, so today's tally is within
      the week's. */
  lemma {:induction false} TodayWithinWeek(sessions: seq<FocusSession>, today: Date)
    requires IsPyDate(today) && IsPyDate(SubDays(today, 6))
    ensures TallyOf(sessions, On(today)).sessions <= TallyOf(sessions, Since(SubDays(today, 6))).sessions
    ensures (forall i :: 0 <= i < |sessions| ==> sessions[i].minutes >= 0) ==>
              TallyOf(sessions, On(today)).minutes <= TallyOf(sessions, Since(SubDays(today, 6))).minutes
    decreases |sessions|
  {
    if |sessions| > 0 {
      var init := sessions[..|sessions| - 1];
      assert forall i :: 0 <= i < |init| ==> init[i] == sessions[i];
      TodayWithinWeek(init, today);
      var s := sessions[|sessions| - 1];
      if InWindow(s, On(today)) {
        TodayInWeek(s, today);
      }
    }
  }

  lemma TodayInWeek(s: FocusSession, today: Date)
    requires IsPyDate(today) && IsPyDate(SubDays(today, 6)) && InWindow(s, On(today))
    ensures InWindow(s, Since(SubDays(today, 6)))
  {
    WindowMeaning(s, today);
    WindowMeaning(s, SubDays(today, 6));
    SubDaysNotAfter(today, 6);
  }

  /** Recording a work session started today adds it to today's tally;
      a session of another type changes nothing. */
  lemma AddedSessionCounts(db: Db, today: Date, start: Date, minutes: int, sessionType: string)
    requires IsPyDate(today) && IsPyDate(start)
    ensures var r := AddFocusSession(db, start, minutes, sessionType);
      var before := TallyOf(db.sessions, On(today)); var after := TallyOf(r.sessions, On(today));
      (sessionType == WorkType && start == today ==>
         after == Tally(before.minutes + minutes, before.sessions + 1))
      && (sessionType != WorkType ==> after == before)
  {
    var r := AddFocusSession(db, start, minutes, sessionType);
    assert r.sessions[..|db.sessions|] == db.sessions;
  }

  /** The days with at least one readable work session:
      `SELECT DISTINCT date(start_ts) ... WHERE session_type = 'work'`. */
  function WorkDays(sessions: seq<FocusSession>): (r: set<Date>)
    ensures forall d :: d in r ==> IsPyDate(d)
    ensures forall i :: 0 <= i < |sessions| && sessions[i].sessionType == WorkType && IsPyDate(sessions[i].start)
              ==> sessions[i].start in r
  {
    set i | 0 <= i < |sessions| && sessions[i].sessionType == WorkType && IsPyDate(sessions[i].start)
      :: sessions[i].start
  }

  /** The earliest year among the days (0 for none); bounds the streak
      walk. */
  ghost function MinYear(days: set<Date>): (m: int)
    ensures forall d :: d in days ==> m <= d.year
  {
    if days == {} then 0
    else
      var d :| d in days;
      var rest := MinYear(days - {d});
      if d.year < rest then d.year else rest
  }

  /** The streak loop: walk back from today while the day has a work
      session. The result is the number of consecutive days ending today
      that all have one; the day before them has none. */
  method Streak(days: set<Date>, today: Date) returns (streak: nat)
    requires Valid(today)
    ensures forall i :: 0 <= i < streak ==> SubDays(today, i) in days
    ensures SubDays(today, streak) !in days
  {
    streak := 0;
    var cursor := today;
    ghost var low := MinYear(days);
    while cursor in days
      invariant Valid(cursor) && cursor == SubDays(today, streak)
      invariant forall i :: 0 <= i < streak ==> SubDays(today, i) in days
      decreases (if cursor.year >= low then cursor.year - low + 1 else 0), cursor.month, cursor.day
    {
      SubDaysSucc(today, streak);
      streak := streak + 1;
      cursor := Prev(cursor);
    }
  }

  /** The two conditions pin the streak down: no other number meets
      both. */
  lemma StreakUnique(days: set<Date>, today: Date, a: nat, b: nat)
    requires Valid(today)
    requires forall i :: 0 <= i < a ==> SubDays(today, i) in days
    requires SubDays(today, a) !in days
    requires forall i :: 0 <= i < b ==> SubDays(today, i) in days
    requires SubDays(today, b) !in days
    ensures a == b
  {
  }

  /** The streak is zero exactly when today has no work session. */
  lemma StreakZero(days: set<Date>, today: Date, streak: nat)
    requires Valid(today)
    requires forall i :: 0 <= i < streak ==> SubDays(today, i) in days
    requires SubDays(today, streak) !in days
    ensures streak == 0 <==> today !in days
  {
    assert SubDays(today, 0) == today;
  }

  datatype FocusStats = FocusStats(todayMinutes: int, todaySessions: nat, weekMinutes: int,
                                   weekSessions: nat, streakDays: nat)

  /** `get_focus_stats()`: today's and the last seven days' work tallies
      (the window has no upper end), and the streak. */
  method GetFocusStats(db: Db, today: Date) returns (r: FocusStats)
    requires IsPyDate(today) && IsPyDate(SubDays(today, 6))
    ensures Tally(r.todayMinutes, r.todaySessions) == TallyOf(db.sessions, On(today))
    ensures Tally(r.weekMinutes, r.weekSessions) == TallyOf(db.sessions, Since(SubDays(today, 6)))
    ensures r.todaySessions <= r.weekSessions
    ensures forall i :: 0 <= i < r.streakDays ==> SubDays(today, i) in WorkDays(db.sessions)
    ensures SubDays(today, r.streakDays) !in WorkDays(db.sessions)
  {
    var t := TallyOf(db.sessions, On(today));
    var w := TallyOf(db.sessions, Since(SubDays(today, 6)));
    TodayWithinWeek(db.sessions, today);
    var streak := Streak(WorkDays(db.sessions), today);
    r := FocusStats(t.minutes, t.sessions, w.minutes, w.sessions, streak);
  }

  /** The storage test: a 25-minute work session started today shows up in
      today's tally. */
  lemma FocusStatsExample(db: Db, today: Date)
    requires IsPyDate(today)
    ensures var r := AddFocusSession(db, today, 25, WorkType);
      TallyOf(r.sessions, On(today)).sessions >= 1
      && ((forall i :: 0 <= i < |db.sessions| ==> db.sessions[i].minutes >= 0) ==>
            TallyOf(r.sessions, On(today)).minutes >= 25)
  {
    AddedSessionCounts(db, today, today, 25, WorkType);
    if forall i :: 0 <= i < |db.sessions| ==> db.sessions[i].minutes >= 0 {
      TallyMinutesNonNegative(db.sessions, On(today));
    }
  }
}

=== FILE: strings.dfy ===
/** Text primitives used by the services: decimal rendering and parsing,
    whitespace trimming as Python's `str.strip()` and JavaScript's
    `String.prototype.trim()` define it, prefix and substring tests, ASCII
    case folding, and the code-point lexicographic order that Python's `<`
    on `str` and SQLite's BINARY collation both use. */
module Strings {

  // ---------------------------------------------------------------------------
  // Decimal digits
  // ---------------------------------------------------------------------------

  predicate IsDigit(c: char) {
    '0' <= c <= '9'
  }

  predicate AllDigits(s: string) {
    forall i :: 0 <= i < |s| ==> IsDigit(s[i])
  }

  function DigitValue(c: char): nat
    requires IsDigit(c)
  {
    c as int - '0' as int
  }

  function DigitChar(n: nat): (c: char)
    requires n < 10
    ensures IsDigit(c) && DigitValue(c) == n
  {
    ('0' as int + n) as char
  }

  /** The value of a string of decimal digits, most significant first. */
  function DigitsValue(s: string): nat
    requires AllDigits(s)
  {
    if |s| == 0 then 0 else DigitsValue(s[..|s| - 1]) * 10 + DigitValue(s[|s| - 1])
  }

  function Pow10(k: nat): (p: nat)
    ensures p >= 1
  {
    if k == 0 then 1 else 10 * Pow10(k - 1)
  }

  /** Shortest decimal rendering of `n` (Python `str(n)`, JavaScript `String(n)`). */
  function NatToString(n: nat): (r: string)
    ensures |r| >= 1 && AllDigits(r)
    ensures DigitsValue(r) == n
    ensures |r| > 1 ==> r[0] != '0'
    ensures n < 10 <==> |r| == 1
  {
    if n < 10 then [DigitChar(n)]
    else
      var r := NatToString(n / 10) + [DigitChar(n % 10)];
      assert r[..|r| - 1] == NatToString(n / 10);
      r
  }

  /** Decimal rendering of an integer, with a leading "-" when negative. */
  function IntToString(i: int): (r: string)
    ensures |r| >= 1
    ensures i >= 0 ==> r == NatToString(i)
    ensures i < 0 ==> r == "-" + NatToString(-i)
  {
    if i < 0 then "-" + NatToString(-i) else NatToString(i)
  }

  function Zeros(k: nat): (r: string)
    ensures |r| == k && AllDigits(r)
    ensures forall i :: 0 <= i < k ==> r[i] == '0'
  {
    if k == 0 then [] else ['0'] + Zeros(k - 1)
  }

  /** `s` left-padded with '0' to at least `width` characters
      (`padStart(width, "0")`, `%02d`, `%04d`). */
  function PadZero(s: string, width: nat): (r: string)
    ensures |r| == if |s| >= width then |s| else width
    ensures r[|r| - |s|..] == s
  {
    if |s| >= width then s else Zeros(width - |s|) + s
  }

  /** The zero-padded decimal rendering of `n` in at least `width` digits. */
  function PadNat(n: nat, width: nat): (r: string)
    ensures AllDigits(r) && |r| >= width && |r| >= 1
  {
    PadZero(NatToString(n), width)
  }

  lemma {:induction false} DigitsValueAppend(s: string, c: char)
    requires AllDigits(s) && IsDigit(c)
    ensures AllDigits(s + [c]) && DigitsValue(s + [c]) == DigitsValue(s) * 10 + DigitValue(c)
  {
    assert (s + [c])[..|s|] == s;
  }

  /** A leading digit contributes its value times the place weight. */
  lemma {:induction false} DigitsValueCons(c: char, s: string)
    requires IsDigit(c) && AllDigits(s)
    ensures AllDigits([c] + s)
    ensures DigitsValue([c] + s) == DigitValue(c) * Pow10(|s|) + DigitsValue(s)
    decreases |s|
  {
    if |s| == 0 {
      assert [c] + s == [c];
      assert ([c])[..0] == [];
    } else {
      var init := s[..|s| - 1];
      var last := s[|s| - 1];
      assert s == init + [last];
      DigitsValueCons(c, init);
      assert [c] + s == ([c] + init) + [last];
      DigitsValueAppend([c] + init, last);
      DigitsValueAppend(init, last);
      assert Pow10(|s|) == Pow10(|init|) * 10;
      ShiftPlace(DigitValue(c), Pow10(|init|), DigitsValue(init), DigitValue(last));
    }
  }

  /** Shifting a number one place left shifts its leading part with it. */
  lemma ShiftPlace(d: int, p: int, v: int, x: int)
    ensures (d * p + v) * 10 + x == d * (p * 10) + (v * 10 + x)
  {
  }

  lemma {:induction false} DigitsValueBound(s: string)
    requires AllDigits(s)
    ensures DigitsValue(s) < Pow10(|s|)
    decreases |s|
  {
    if |s| > 0 {
      DigitsValueBound(s[..|s| - 1]);
    }
  }

  lemma {:induction false} ZerosPrefixValue(k: nat, s: string)
    requires AllDigits(s)
    ensures AllDigits(Zeros(k) + s) && DigitsValue(Zeros(k) + s) == DigitsValue(s)
    decreases k
  {
    if k > 0 {
      var t := Zeros(k - 1) + s;
      assert Zeros(k) == ['0'] + Zeros(k - 1);
      assert Zeros(k) + s == ['0'] + t;
      ZerosPrefixValue(k - 1, s);
      DigitsValueCons('0', t);
      assert DigitValue('0') * Pow10(|t|) == 0;
      assert DigitsValue(['0'] + t) == DigitsValue(t);
    } else {
      assert Zeros(k) + s == s;
    }
  }

  /** Leading zeros do not change the value of a digit string. */
  lemma PadZeroValue(s: string, width: nat)
    requires AllDigits(s)
    ensures AllDigits(PadZero(s, width)) && DigitsValue(PadZero(s, width)) == DigitsValue(s)
  {
    if |s| < width {
      ZerosPrefixValue(width - |s|, s);
    }
  }

  lemma PadNatValue(n: nat, width: nat)
    ensures DigitsValue(PadNat(n, width)) == n
  {
    PadZeroValue(NatToString(n), width);
  }

  lemma {:induction false} NatToStringLength(n: nat, width: nat)
    requires n < Pow10(width)
    ensures |NatToString(n)| <= width || (width == 0 && n == 0)
    decreases width
  {
    if n >= 10 {
      assert width >= 1;
      NatToStringLength(n / 10, width - 1);
    }
  }

  /** A value of at least 10^width needs more than `width` digits. */
  lemma {:induction false} NatToStringLengthLower(n: nat, width: nat)
    requires Pow10(width) <= n
    ensures |NatToString(n)| > width
    decreases width
  {
    if width > 0 {
      NatToStringLengthLower(n / 10, width - 1);
    }
  }

  /** A value below 10^width renders in exactly `width` padded digits. */
  lemma PadNatExactWidth(n: nat, width: nat)
    requires width >= 1 && n < Pow10(width)
    ensures |PadNat(n, width)| == width
  {
    NatToStringLength(n, width);
  }

  // ---------------------------------------------------------------------------
  // Whitespace and trimming
  // ---------------------------------------------------------------------------

  /** Python `str.isspace()`: the characters `str.strip()` removes and `\s`
      matches in a `str` pattern. */
  predicate PyWhitespace(c: char) {
    c == ' ' || ('\t' <= c <= '\r') || ('\U{1C}' <= c <= '\U{1F}') || c == '\U{85}'
    || c == '\U{A0}' || c == '\U{1680}' || ('\U{2000}' <= c <= '\U{200A}')
    || c == '\U{2028}' || c == '\U{2029}' || c == '\U{202F}' || c == '\U{205F}'
    || c == '\U{3000}'
  }

  /** The WhiteSpace and LineTerminator code points that JavaScript's
      `String.prototype.trim()` removes. */
  predicate JsWhitespace(c: char) {
    c == ' ' || ('\t' <= c <= '\r') || c == '\U{A0}' || c == '\U{FEFF}'
    || c == '\U{1680}' || ('\U{2000}' <= c <= '\U{200A}')
    || c == '\U{2028}' || c == '\U{2029}' || c == '\U{202F}' || c == '\U{205F}'
    || c == '\U{3000}'
  }

  function TrimStart(s: string, ws: char -> bool): (r: string)
    ensures |r| <= |s| && r == s[|s| - |r|..]
    ensures |r| > 0 ==> !ws(r[0])
    ensures forall i :: 0 <= i < |s| - |r| ==> ws(s[i])
  {
    if |s| > 0 && ws(s[0]) then
      var r := TrimStart(s[1..], ws);
      assert forall i :: 1 <= i < |s| - |r| ==> s[i] == s[1..][i - 1];
      r
    else s
  }

  function TrimEnd(s: string, ws: char -> bool): (r: string)
    ensures |r| <= |s| && r == s[..|r|]
    ensures |r| > 0 ==> !ws(r[|r| - 1])
    ensures forall i :: |r| <= i < |s| ==> ws(s[i])
  {
    if |s| > 0 && ws(s[|s| - 1]) then TrimEnd(s[..|s| - 1], ws) else s
  }

  /** Both ends trimmed: the result is a slice of `s` that neither starts
      nor ends with a character of `ws`, and everything cut off is `ws`. */
  function Trim(s: string, ws: char -> bool): (r: string)
    ensures |r| <= |s|
    ensures |r| > 0 ==> !ws(r[0]) && !ws(r[|r| - 1])
    ensures |r| == 0 <==> forall i :: 0 <= i < |s| ==> ws(s[i])
  {
    var t := TrimStart(s, ws);
    TrimEnd(t, ws)
  }

  /** Python `s.strip()`. */
  function PyStrip(s: string): string {
    Trim(s, PyWhitespace)
  }

  /** A string whose ends are not trimmable is its own trim. */
  lemma TrimNoop(s: string, ws: char -> bool)
    requires |s| == 0 || (!ws(s[0]) && !ws(s[|s| - 1]))
    ensures Trim(s, ws) == s
  {
  }

  /** JavaScript `s.trim()`. */
  function JsTrim(s: string): string {
    Trim(s, JsWhitespace)
  }

  // ---------------------------------------------------------------------------
  // Prefixes, substrings, characters
  // ---------------------------------------------------------------------------

  predicate StartsWith(s: string, p: string) {
    |p| <= |s| && s[..|p|] == p
  }

  /** `sub in s` (Python) / `s.includes(sub)` (JavaScript). */
  predicate Contains(s: string, sub: string)
    decreases |s|
  {
    StartsWith(s, sub) || (|s| > 0 && Contains(s[1..], sub))
  }

  lemma {:induction false} ContainsConcat(a: string, b: string, sub: string)
    requires Contains(a, sub) || Contains(b, sub)
    ensures Contains(a + b, sub)
    decreases |a|
  {
    if |a| == 0 {
      assert a + b == b;
    } else if StartsWith(a, sub) {
      assert (a + b)[..|sub|] == a[..|sub|];
    } else if Contains(a, sub) {
      ContainsConcat(a[1..], b, sub);
      assert (a + b)[1..] == a[1..] + b;
    } else {
      ContainsConcat(a[1..], b, sub);
      assert (a + b)[1..] == a[1..] + b;
    }
  }

  /** `sub` cannot occur where its first character never appears. */
  lemma {:induction false} NotContains(s: string, sub: string)
    requires |sub| > 0 && forall p :: 0 <= p <= |s| - |sub| ==> s[p] != sub[0]
    ensures !Contains(s, sub)
    decreases |s|
  {
    if |s| > 0 {
      assert forall p :: 0 <= p <= |s[1..]| - |sub| ==> s[1..][p] == s[p + 1];
      NotContains(s[1..], sub);
    }
  }

  lemma ContainsSelf(s: string)
    ensures Contains(s, s)
  {
  }

  predicate HasChar(s: string, c: char) {
    exists i :: 0 <= i < |s| && s[i] == c
  }

  /** A prefix holds no character its whole string lacks. */
  lemma PrefixLacks(s: string, p: string, c: char)
    requires StartsWith(s, p) && !HasChar(s, c)
    ensures !HasChar(p, c)
  {
    forall i | 0 <= i < |p| ensures p[i] != c {
      assert p[i] == s[i];
    }
  }

  /** Trimming removes characters and adds none. */
  lemma TrimLacks(s: string, ws: char -> bool, c: char)
    requires !HasChar(s, c)
    ensures !HasChar(Trim(s, ws), c)
  {
    var t := TrimStart(s, ws);
    forall i | 0 <= i < |t| ensures t[i] != c {
      assert t[i] == s[|s| - |t| + i];
    }
    PrefixLacks(t, TrimEnd(t, ws), c);
  }

  /** The text before the first `c`, or all of `s` when `c` does not occur
      (`s.split(c)[0]`). */
  function BeforeFirst(s: string, c: char): (r: string)
    ensures StartsWith(s, r)
    ensures !HasChar(r, c)
    ensures |r| < |s| ==> s[|r|] == c
  {
    if |s| == 0 then []
    else if s[0] == c then []
    else [s[0]] + BeforeFirst(s[1..], c)
  }

  /** The characters of `s` satisfying `keep`, in order (`re.sub` with a
      negated character class and an empty replacement). */
  function Filter(s: string, keep: char -> bool): (r: string)
    ensures |r| <= |s|
    ensures forall i :: 0 <= i < |r| ==> keep(r[i])
    ensures (forall i :: 0 <= i < |s| ==> keep(s[i])) ==> r == s
  {
    if |s| == 0 then []
    else if keep(s[0]) then [s[0]] + Filter(s[1..], keep)
    else Filter(s[1..], keep)
  }

  function LowerAsciiChar(c: char): char {
    if 'A' <= c <= 'Z' then (c as int + 32) as char else c
  }

  /** Lower-casing restricted to ASCII letters. */
  function LowerAscii(s: string): (r: string)
    ensures |r| == |s|
    ensures forall i :: 0 <= i < |s| ==> r[i] == LowerAsciiChar(s[i])
  {
    if |s| == 0 then [] else [LowerAsciiChar(s[0])] + LowerAscii(s[1..])
  }

  predicate NoUpperAscii(s: string) {
    forall i :: 0 <= i < |s| ==> !('A' <= s[i] <= 'Z')
  }

  /** Text without upper-case ASCII letters is its own lower case. */
  lemma LowerAsciiNoop(s: string)
    requires NoUpperAscii(s)
    ensures LowerAscii(s) == s
  {
  }

  lemma LowerAsciiConcat(a: string, b: string)
    ensures LowerAscii(a + b) == LowerAscii(a) + LowerAscii(b)
  {
    assert forall i :: 0 <= i < |a + b| ==> LowerAscii(a + b)[i] == (LowerAscii(a) + LowerAscii(b))[i];
  }

  /** `sep.join(parts)`. */
  function Join(parts: seq<string>, sep: string): string {
    if |parts| == 0 then ""
    else if |parts| == 1 then parts[0]
    else parts[0] + sep + Join(parts[1..], sep)
  }

  // ---------------------------------------------------------------------------
  // Lexicographic order by code point
  // ---------------------------------------------------------------------------

  /** `a < b` on Python strings (code-point order); also SQLite's BINARY
      collation, since UTF-8 byte order agrees with code-point order. */
  predicate Less(a: string, b: string)
    decreases |a|
  {
    |b| > 0 && (|a| == 0 || a[0] < b[0] || (a[0] == b[0] && Less(a[1..], b[1..])))
  }

  predicate LessEq(a: string, b: string) {
    a == b || Less(a, b)
  }

  lemma {:induction false} LessIrreflexive(a: string)
    ensures !Less(a, a)
    decreases |a|
  {
    if |a| > 0 {
      LessIrreflexive(a[1..]);
    }
  }

  lemma {:induction false} LessTransitive(a: string, b: string, c: string)
    requires Less(a, b) && Less(b, c)
    ensures Less(a, c)
    decreases |a|
  {
    if |a| > 0 && a[0] == b[0] && b[0] == c[0] {
      LessTransitive(a[1..], b[1..], c[1..]);
    }
  }

  lemma {:induction false} LessTotal(a: string, b: string)
    ensures a == b || Less(a, b) || Less(b, a)
    decreases |a|
  {
    if |a| > 0 && |b| > 0 && a[0] == b[0] {
      LessTotal(a[1..], b[1..]);
      if a[1..] == b[1..] {
        assert a == [a[0]] + a[1..] && b == [b[0]] + b[1..];
      }
    }
  }

  lemma LessAsymmetric(a: string, b: string)
    requires Less(a, b)
    ensures !Less(b, a)
  {
    if Less(b, a) {
      LessTransitive(a, b, a);
      LessIrreflexive(a);
    }
  }

  /** Comparing two strings with a common prefix compares what follows it. */
  lemma {:induction false} LessCommonPrefix(p: string, x: string, y: string)
    ensures Less(p + x, p + y) <==> Less(x, y)
    decreases |p|
  {
    if |p| > 0 {
      assert (p + x)[1..] == p[1..] + x;
      assert (p + y)[1..] == p[1..] + y;
      LessCommonPrefix(p[1..], x, y);
    } else {
      assert p + x == x && p + y == y;
    }
  }

  /** Between equal-length prefixes that differ, the prefixes decide. */
  lemma {:induction false} LessDifferentPrefix(p: string, q: string, x: string, y: string)
    requires |p| == |q| && p != q
    ensures Less(p + x, q + y) <==> Less(p, q)
    decreases |p|
  {
    assert |p| > 0;
    assert (p + x)[0] == p[0] && (q + y)[0] == q[0];
    if p[0] == q[0] {
      assert p == [p[0]] + p[1..] && q == [q[0]] + q[1..];
      assert (p + x)[1..] == p[1..] + x;
      assert (q + y)[1..] == q[1..] + y;
      LessDifferentPrefix(p[1..], q[1..], x, y);
    }
  }

  lemma PlaceValueOrder(va: nat, vb: nat, x: nat, y: nat, p: nat)
    requires va < vb && x < p
    ensures va * p + x < vb * p + y
  {
    assert (vb - va - 1) * p >= 0;
    assert vb * p == va * p + p + (vb - va - 1) * p;
  }

  /** For digit strings of equal length, lexicographic order is numeric order. */
  lemma {:induction false} LessDigitsNumeric(a: string, b: string)
    requires AllDigits(a) && AllDigits(b) && |a| == |b|
    ensures Less(a, b) <==> DigitsValue(a) < DigitsValue(b)
    decreases |a|
  {
    if |a| > 0 {
      var k := |a| - 1;
      assert a == [a[0]] + a[1..] && b == [b[0]] + b[1..];
      DigitsValueCons(a[0], a[1..]);
      DigitsValueCons(b[0], b[1..]);
      DigitsValueBound(a[1..]);
      DigitsValueBound(b[1..]);
      LessDigitsNumeric(a[1..], b[1..]);
      var va := DigitValue(a[0]);
      var vb := DigitValue(b[0]);
      if va < vb {
        PlaceValueOrder(va, vb, DigitsValue(a[1..]), DigitsValue(b[1..]), Pow10(k));
      } else if vb < va {
        PlaceValueOrder(vb, va, DigitsValue(b[1..]), DigitsValue(a[1..]), Pow10(k));
      }
    }
  }
}

=== FILE: tasks.dfy ===
/** The task list of the desktop backend (`task_service.py`): create, list,
    update, toggle and delete over the `tasks` table.

    The table is the sequence of its rows in id order; ids come from a
    counter that only grows (`AUTOINCREMENT`). The current time is the
    parameter `now`, the text `now_iso()` would give. */
module Tasks {
  import opened Wrappers
  import opened DueOrder
  import Collections

  datatype Task = Task(id: nat, title: string, description: Option<string>, priority: string,
                       dueDate: Option<string>, status: string, createdAt: string, updatedAt: string)

  /** The table and the next id `AUTOINCREMENT` hands out. */
  datatype Store = Store(rows: seq<Task>, nextId: nat)

  const DefaultPriority: string := "med"
  const NoUpdates: string := "No updates provided."
  const NotFound: string := "Task not found."
  const Deleted: string := "Task deleted."

  /** Ids are positive, increasing along the table, and below the counter. */
  predicate ValidStore(s: Store) {
    (forall i :: 0 <= i < |s.rows| ==> 1 <= s.rows[i].id < s.nextId)
    && (forall i, j :: 0 <= i < j < |s.rows| ==> s.rows[i].id < s.rows[j].id)
  }

  predicate HasId(s: Store, id: nat) {
    exists i :: 0 <= i < |s.rows| && s.rows[i].id == id
  }

  /** The position of the row with the given id: `WHERE id = ?`. */
  function IndexOf(rows: seq<Task>, id: nat): (r: Option<nat>)
    ensures r.Some? ==> r.value < |rows| && rows[r.value].id == id
    ensures r.Some? ==> forall j :: r.value < j < |rows| ==> rows[j].id != id
    ensures r.None? <==> forall i :: 0 <= i < |rows| ==> rows[i].id != id
  {
    Collections.LastIndex(rows, (t: Task) => t.id == id)
  }

  /** The body of a create request. A missing priority is `None`. */
  datatype NewTask = NewTask(title: string, description: Option<string>, priority: Option<string>,
                             dueDate: Option<string>)

  datatype Added = Added(store: Store, task: Task)

  /** `add_task`: a new row with the next id, status "todo", priority
      "med" unless given, created and updated now. */
  function AddTask(s: Store, data: NewTask, now: string): (r: Added)
    requires s.nextId >= 1
    ensures r.store.rows == s.rows + [r.task] && r.store.nextId == s.nextId + 1
    ensures r.task.id == s.nextId && r.task.status == "todo"
    ensures r.task.priority == (if data.priority.Some? then data.priority.value else DefaultPriority)
    ensures r.task.title == data.title && r.task.description == data.description
            && r.task.dueDate == data.dueDate
    ensures r.task.createdAt == now && r.task.updatedAt == now
  {
    var t := Task(s.nextId, data.title, data.description, data.priority.GetOr(DefaultPriority),
                  data.dueDate, "todo", now, now);
    Added(Store(s.rows + [t], s.nextId + 1), t)
  }

  /** Whether `list_tasks(status)` keeps a row. */
  predicate Wanted(t: Task, status: string) {
    status == "all" || t.status == status
  }

  /** `WHERE status = ?` (no filter for "all"), keeping table order. */
  function Matching(rows: seq<Task>, status: string): (r: seq<Task>)
    ensures forall t :: t in r <==> t in rows && Wanted(t, status)
    ensures status == "all" ==> r == rows
    ensures |r| <= |rows|
  {
    if |rows| == 0 then []
    else
      var init := Matching(rows[..|rows| - 1], status);
      var last := rows[|rows| - 1];
      assert rows == rows[..|rows| - 1] + [last];
      if Wanted(last, status) then init + [last] else init
  }

  function TaskKey(t: Task): DueKey {
    DueKey(t.dueDate, t.createdAt)
  }

  /** `list_tasks(status)`: the wanted rows ordered by
      `due_date IS NULL, due_date, created_at`. */
  function ListTasks(s: Store, status: string): (r: seq<Task>)
    ensures SortedBy(r, TaskKey)
    ensures multiset(r) == multiset(Matching(s.rows, status))
  {
    SortByDue(Matching(s.rows, status), TaskKey)
  }

  /** The listing holds exactly the wanted rows, each as often as in the
      table, and all of them for "all". */
  lemma ListedRows(s: Store, status: string)
    ensures forall t :: t in ListTasks(s, status) <==> t in s.rows && Wanted(t, status)
    ensures status == "all" ==> multiset(ListTasks(s, status)) == multiset(s.rows)
    ensures status == "all" ==> |ListTasks(s, status)| == |s.rows|
  {
    var r := ListTasks(s, status);
    forall t ensures t in r <==> t in multiset(Matching(s.rows, status)) {
    }
    if status == "all" {
      assert |r| == |multiset(r)|;
    }
  }

  /** A patch: `None` is a field the request leaves alone. */
  datatype TaskUpdate = TaskUpdate(title: Option<string>, description: Option<string>, priority: Option<string>,
                                   dueDate: Option<string>, status: Option<string>)

  predicate NothingGiven(u: TaskUpdate) {
    u.title.None? && u.description.None? && u.priority.None? && u.dueDate.None? && u.status.None?
  }

  /** A field as a patch leaves it: the new value when one is given. */
  function Patched<T>(given: Option<T>, current: T): (r: T)
    ensures given.Some? ==> r == given.value
    ensures given.None? ==> r == current
  {
    if given.Some? then given.value else current
  }

  /** The row after the patch: the given fields replaced, the update time
      set, everything else as it was. */
  function ApplyUpdate(t: Task, u: TaskUpdate, now: string): Task {
    t.(title := Patched(u.title, t.title),
       description := if u.description.Some? then u.description else t.description,
       priority := Patched(u.priority, t.priority),
       dueDate := if u.dueDate.Some? then u.dueDate else t.dueDate,
       status := Patched(u.status, t.status),
       updatedAt := now)
  }

  datatype Outcome<T> = Outcome(store: Store, reply: Result<T>)

  /** `update_task`: an empty patch is refused before the id is looked up;
      an unknown id changes nothing. */
  function UpdateTask(s: Store, id: nat, u: TaskUpdate, now: string): (r: Outcome<Task>)
    ensures NothingGiven(u) ==> r == Outcome(s, Err(NoUpdates))
    ensures !NothingGiven(u) && !HasId(s, id) ==> r == Outcome(s, Err(NotFound))
    ensures r.reply.Ok? <==> !NothingGiven(u) && HasId(s, id)
    ensures r.reply.Ok? ==> var k := IndexOf(s.rows, id).value;
      r.store == s.(rows := s.rows[k := r.reply.value])
      && r.reply.value == ApplyUpdate(s.rows[k], u, now)
  {
    if NothingGiven(u) then Outcome(s, Err(NoUpdates))
    else match IndexOf(s.rows, id)
      case None => Outcome(s, Err(NotFound))
      case Some(k) =>
        var t := ApplyUpdate(s.rows[k], u, now);
        Outcome(s.(rows := s.rows[k := t]), Ok(t))
  }

  /** An update changes exactly the given fields of the row (and its update
      time), and leaves every other row alone. */
  lemma UpdateChangesOnlyGiven(s: Store, id: nat, u: TaskUpdate, now: string)
    requires UpdateTask(s, id, u, now).reply.Ok?
    ensures var r := UpdateTask(s, id, u, now); var k := IndexOf(s.rows, id).value;
      var was := s.rows[k]; var t := r.reply.value;
      t.id == id && t.createdAt == was.createdAt && t.updatedAt == now
      && (u.title.None? ==> t.title == was.title) && (u.title.Some? ==> t.title == u.title.value)
      && (u.description.None? ==> t.description == was.description)
      && (u.description.Some? ==> t.description == u.description)
      && (u.priority.None? ==> t.priority == was.priority) && (u.priority.Some? ==> t.priority == u.priority.value)
      && (u.dueDate.None? ==> t.dueDate == was.dueDate) && (u.dueDate.Some? ==> t.dueDate == u.dueDate)
      && (u.status.None? ==> t.status == was.status) && (u.status.Some? ==> t.status == u.status.value)
      && |r.store.rows| == |s.rows|
      && forall i :: 0 <= i < |s.rows| && i != k ==> r.store.rows[i] == s.rows[i]
  {
  }

  /** Applying the same patch twice at the same time is applying it once. */
  lemma UpdateIdempotent(s: Store, id: nat, u: TaskUpdate, now: string)
    ensures var r := UpdateTask(s, id, u, now);
      UpdateTask(r.store, id, u, now) == r
  {
    var r := UpdateTask(s, id, u, now);
    if r.reply.Ok? {
      var k := IndexOf(s.rows, id).value;
      IdsKept(s.rows, k, r.reply.value);
      IndexUnique(r.store.rows, k, id);
    }
  }

  /** Replacing a row by one with the same id keeps every id. */
  lemma IdsKept(rows: seq<Task>, k: nat, t: Task)
    requires k < |rows| && rows[k].id == t.id
    ensures forall i :: 0 <= i < |rows| ==> rows[k := t][i].id == rows[i].id
  {
  }

  /** In a table whose row `k` has the id, the lookup finds row `k` when no
      later row has it. */
  lemma IndexUnique(rows: seq<Task>, k: nat, id: nat)
    requires k < |rows| && rows[k].id == id
    requires forall j :: k < j < |rows| ==> rows[j].id != id
    ensures IndexOf(rows, id) == Some(k)
    decreases |rows|
  {
    if k < |rows| - 1 {
      IndexUnique(rows[..|rows| - 1], k, id);
    }
  }

  /** `toggle_done`: "done" becomes "todo", anything else becomes "done". */
  function ToggledStatus(status: string): (r: string)
    ensures r == "done" <==> status != "done"
    ensures r == "todo" <==> status == "done"
  {
    if status != "done" then "done" else "todo"
  }

  function ToggleDone(s: Store, id: nat, now: string): (r: Outcome<Task>)
    ensures r.reply.Err? <==> !HasId(s, id)
    ensures r.reply.Err? ==> r == Outcome(s, Err(NotFound))
    ensures r.reply.Ok? ==> var k := IndexOf(s.rows, id).value;
      r.store == s.(rows := s.rows[k := r.reply.value])
      && r.reply.value == s.rows[k].(status := ToggledStatus(s.rows[k].status), updatedAt := now)
  {
    match IndexOf(s.rows, id)
    case None => Outcome(s, Err(NotFound))
    case Some(k) =>
      var t := s.rows[k].(status := ToggledStatus(s.rows[k].status), updatedAt := now);
      Outcome(s.(rows := s.rows[k := t]), Ok(t))
  }

  /** Toggling twice restores "todo" and "done", but turns "doing" (or any
      other status) into "todo". */
  lemma ToggleTwice(status: string)
    ensures status == "todo" || status == "done" ==> ToggledStatus(ToggledStatus(status)) == status
    ensures status != "done" ==> ToggledStatus(ToggledStatus(status)) == "todo"
  {
  }

  /** `delete_task`: the row goes, or "Task not found." when there is none. */
  function DeleteTask(s: Store, id: nat): (r: Outcome<string>)
    ensures r.reply.Err? <==> !HasId(s, id)
    ensures r.reply.Err? ==> r == Outcome(s, Err(NotFound))
    ensures r.reply.Ok? ==> r.reply.value == Deleted && r.store.nextId == s.nextId
    ensures r.reply.Ok? ==> var k := IndexOf(s.rows, id).value;
      r.store.rows == s.rows[..k] + s.rows[k + 1..]
  {
    match IndexOf(s.rows, id)
    case None => Outcome(s, Err(NotFound))
    case Some(k) => Outcome(s.(rows := s.rows[..k] + s.rows[k + 1..]), Ok(Deleted))
  }

  /** Every operation keeps the ids increasing and below the counter. */
  lemma OperationsKeepValid(s: Store, data: NewTask, id: nat, u: TaskUpdate, now: string)
    requires ValidStore(s) && s.nextId >= 1
    ensures ValidStore(AddTask(s, data, now).store)
    ensures ValidStore(UpdateTask(s, id, u, now).store)
    ensures ValidStore(ToggleDone(s, id, now).store)
    ensures ValidStore(DeleteTask(s, id).store)
  {
    AddKeepsValid(s, data, now);
    var r := UpdateTask(s, id, u, now);
    if r.reply.Ok? {
      ReplaceKeepsValid(s, IndexOf(s.rows, id).value, r.reply.value);
    }
    var g := ToggleDone(s, id, now);
    if g.reply.Ok? {
      ReplaceKeepsValid(s, IndexOf(s.rows, id).value, g.reply.value);
    }
    DeleteKeepsValid(s, id);
  }

  lemma ReplaceKeepsValid(s: Store, k: nat, t: Task)
    requires ValidStore(s) && k < |s.rows| && s.rows[k].id == t.id
    ensures ValidStore(s.(rows := s.rows[k := t]))
  {
    IdsKept(s.rows, k, t);
  }

  lemma DeleteKeepsValid(s: Store, id: nat)
    requires ValidStore(s)
    ensures ValidStore(DeleteTask(s, id).store)
  {
    var r := DeleteTask(s, id);
    if r.reply.Ok? {
      RemoveKeepsValid(s, IndexOf(s.rows, id).value);
    }
  }

  lemma RemoveKeepsValid(s: Store, k: nat)
    requires ValidStore(s) && k < |s.rows|
    ensures ValidStore(s.(rows := s.rows[..k] + s.rows[k + 1..]))
  {
    var rest := s.rows[..k] + s.rows[k + 1..];
    forall i | 0 <= i < |rest| ensures rest[i] == s.rows[if i < k then i else i + 1] {
    }
    forall i, j | 0 <= i < j < |rest| ensures rest[i].id < rest[j].id {
      assert rest[i] == s.rows[if i < k then i else i + 1];
      assert rest[j] == s.rows[if j < k then j else j + 1];
    }
  }

  lemma AddKeepsValid(s: Store, data: NewTask, now: string)
    requires ValidStore(s) && s.nextId >= 1
    ensures ValidStore(AddTask(s, data, now).store)
  {
  }

  /** A fresh id: the new task's id is none of the table's. */
  lemma AddedIdFresh(s: Store, data: NewTask, now: string)
    requires ValidStore(s) && s.nextId >= 1
    ensures !HasId(s, AddTask(s, data, now).task.id)
    ensures IndexOf(AddTask(s, data, now).store.rows, AddTask(s, data, now).task.id) == Some(|s.rows|)
  {
  }

  /** Deleting the task just added gives back the table as it was. */
  lemma AddThenDelete(s: Store, data: NewTask, now: string)
    requires ValidStore(s) && s.nextId >= 1
    ensures var a := AddTask(s, data, now); var d := DeleteTask(a.store, a.task.id);
      d.reply == Ok(Deleted) && d.store.rows == s.rows && d.store.nextId == s.nextId + 1
  {
    var a := AddTask(s, data, now);
    assert IndexOf(a.store.rows, a.task.id) == Some(|s.rows|);
    assert a.store.rows[..|s.rows|] == s.rows;
  }

  /** The backend's task test: create (status "todo"), list all (one row),
      set status "doing", toggle (to "done"), delete. */
  lemma CrudFlow(title: string, n0: string, n1: string, n2: string)
    ensures var a := AddTask(Store([], 1), NewTask(title, None, Some("low"), None), n0);
      var u := UpdateTask(a.store, a.task.id, TaskUpdate(None, None, None, None, Some("doing")), n1);
      var t := ToggleDone(u.store, a.task.id, n2);
      var d := DeleteTask(t.store, a.task.id);
      a.task.id > 0 && a.task.status == "todo"
      && |ListTasks(a.store, "all")| == 1
      && u.reply.Ok? && u.reply.value.status == "doing"
      && t.reply.Ok? && t.reply.value.status == "done"
      && d.reply == Ok(Deleted)
  {
    var a := AddTask(Store([], 1), NewTask(title, None, Some("low"), None), n0);
    ListAllLength(a.store);
    var u := UpdateTask(a.store, a.task.id, TaskUpdate(None, None, None, None, Some("doing")), n1);
    SetStatusOfOnlyRow(a.store, a.task, "doing", n1);
    var t := ToggleDone(u.store, a.task.id, n2);
    ToggleOnlyRow(u.store, u.reply.value, n2);
    OnlyRow(t.store, t.reply.value);
  }

  /** Listing with status "all" returns as many rows as the table has. */
  lemma ListAllLength(s: Store)
    ensures |ListTasks(s, "all")| == |s.rows|
  {
    ListedRows(s, "all");
  }

  /** Setting the status of the only row of a table. */
  lemma SetStatusOfOnlyRow(s: Store, t: Task, status: string, now: string)
    requires |s.rows| == 1 && s.rows[0] == t
    ensures var u := UpdateTask(s, t.id, TaskUpdate(None, None, None, None, Some(status)), now);
      u.reply.Ok? && u.reply.value.status == status && u.reply.value.id == t.id
      && |u.store.rows| == 1 && u.store.rows[0] == u.reply.value
  {
    OnlyRow(s, t);
    assert !NothingGiven(TaskUpdate(None, None, None, None, Some(status)));
  }

  /** Toggling the only row of a table. */
  lemma ToggleOnlyRow(s: Store, t: Task, now: string)
    requires |s.rows| == 1 && s.rows[0] == t
    ensures var r := ToggleDone(s, t.id, now);
      r.reply.Ok? && r.reply.value.status == ToggledStatus(t.status) && r.reply.value.id == t.id
      && |r.store.rows| == 1 && r.store.rows[0] == r.reply.value
  {
    OnlyRow(s, t);
  }

  /** In a table of one row, that row is the one its id finds. */
  lemma OnlyRow(s: Store, t: Task)
    requires |s.rows| == 1 && s.rows[0] == t
    ensures HasId(s, t.id) && IndexOf(s.rows, t.id) == Some(0)
  {
    assert s.rows[0].id == t.id;
  }
}

=== FILE: time_utils.dfy ===
/** packages/core/time_utils.py: the `YYYY-MM-DD` parser behind
    `parse_due_date` (Python's `datetime.strptime(value, "%Y-%m-%d")`) and
    the `format_dt` renderer. The same strptime format validates the date
    argument of the editor-activity timeline. */
module TimeUtils {
  import opened Wrappers
  import opened Strings
  import opened Calendar

  const DateFormatError: string := "Date must be in YYYY-MM-DD format."

  /** The text strptime's `%m` accepts: `1[0-2]|0[1-9]|[1-9]`. */
  predicate MonthToken(t: string) {
    (|t| == 1 && '1' <= t[0] <= '9')
    || (|t| == 2 && ((t[0] == '0' && '1' <= t[1] <= '9') || (t[0] == '1' && '0' <= t[1] <= '2')))
  }

  /** The text strptime's `%d` accepts: `3[01]|[12]\d|0[1-9]|[1-9]| [1-9]`.
      A leading space followed by one digit is allowed. */
  predicate DayToken(t: string) {
    (|t| == 1 && '1' <= t[0] <= '9')
    || (|t| == 2 && (
          (t[0] == '3' && (t[1] == '0' || t[1] == '1'))
          || ((t[0] == '1' || t[0] == '2') && IsDigit(t[1]))
          || (t[0] == '0' && '1' <= t[1] <= '9')
          || (t[0] == ' ' && '1' <= t[1] <= '9')))
  }

  function MonthTokenValue(t: string): (m: int)
    requires MonthToken(t)
    ensures 1 <= m <= 12
  {
    if |t| == 1 then DigitValue(t[0]) else DigitValue(t[0]) * 10 + DigitValue(t[1])
  }

  function DayTokenValue(t: string): (d: int)
    requires DayToken(t)
    ensures 1 <= d <= 31
  {
    if |t| == 1 then DigitValue(t[0])
    else if t[0] == ' ' then DigitValue(t[1])
    else DigitValue(t[0]) * 10 + DigitValue(t[1])
  }

  /** A four-digit year field. */
  function YearValue(t: string): (y: int)
    requires |t| == 4 && AllDigits(t)
    ensures 0 <= y <= 9999
  {
    DigitValue(t[0]) * 1000 + DigitValue(t[1]) * 100 + DigitValue(t[2]) * 10 + DigitValue(t[3])
  }

  /** `datetime.strptime(s, "%Y-%m-%d").date()`, or `None` where it raises
      `ValueError`: exactly four year digits, a dash, a one- or two-digit
      month, a dash, a day token, nothing after it, and a date that exists
      with a year of at least 1. */
  function ParseYmd(s: string): (r: Option<Date>)
    ensures r.Some? ==> IsPyDate(r.value)
  {
    if |s| < 5 || !AllDigits(s[..4]) || s[4] != '-' then None
    else
      var rest := s[5..];
      var monthText := BeforeFirst(rest, '-');
      if |monthText| == |rest| then None
      else
        var dayText := rest[|monthText| + 1..];
        if !MonthToken(monthText) || !DayToken(dayText) then None
        else
          var d := Date(YearValue(s[..4]), MonthTokenValue(monthText), DayTokenValue(dayText));
          if 1 <= d.year && d.day <= DaysInMonth(d.year, d.month) then Some(d) else None
  }

  /** `parse_due_date`: no value or an empty string means no due date; any
      other text must parse, else the fixed format error. */
  function ParseDueDate(value: Option<string>): (r: Result<Option<Date>>)
    ensures value.None? || value == Some("") <==> r == Ok(None)
    ensures r.Ok? && r.value.Some? ==> IsPyDate(r.value.value)
    ensures r.Err? ==> r.message == DateFormatError
    ensures value.Some? && value.value != "" ==> (r.Ok? <==> ParseYmd(value.value).Some?)
  {
    match value
    case None => Ok(None)
    case Some(text) =>
      if text == "" then Ok(None)
      else
        match ParseYmd(text)
        case Some(d) => Ok(Some(d))
        case None => Err(DateFormatError)
  }

  // ---------------------------------------------------------------------------
  // Properties of the parser
  // ---------------------------------------------------------------------------

  lemma PadTwoChars(n: nat)
    requires n < 100
    ensures PadNat(n, 2) == [DigitChar(n / 10), DigitChar(n % 10)]
  {
    if n >= 10 {
      assert NatToString(n / 10) == [DigitChar(n / 10)];
    }
  }

  lemma {:induction false} BeforeFirstDigits(m: string, tail: string)
    requires AllDigits(m)
    ensures BeforeFirst(m + "-" + tail, '-') == m
    decreases |m|
  {
    if |m| == 0 {
      assert (m + "-" + tail)[0] == '-';
    } else {
      assert (m + "-" + tail)[1..] == m[1..] + "-" + tail;
      BeforeFirstDigits(m[1..], tail);
      assert m == [m[0]] + m[1..];
    }
  }

  lemma FourDigits(n: nat)
    requires n < 10000
    ensures |PadNat(n, 4)| == 4 && YearValue(PadNat(n, 4)) == n
  {
    assert Pow10(4) == 10000;
    PadNatExactWidth(n, 4);
    PadNatValue(n, 4);
    var t := PadNat(n, 4);
    assert t == [t[0]] + [t[1]] + [t[2]] + [t[3]];
    DigitsValueAppend([t[0]], t[1]);
    DigitsValueAppend([t[0]] + [t[1]], t[2]);
    DigitsValueAppend([t[0]] + [t[1]] + [t[2]], t[3]);
    assert [t[0]][..0] == [];
  }

  /** How the parser splits `Y-M-D` text whose fields contain no dash. */
  lemma ParseFields(ys: string, ms: string, ds: string)
    requires |ys| == 4 && AllDigits(ys) && AllDigits(ms)
    ensures ParseYmd(ys + "-" + ms + "-" + ds)
      == if !MonthToken(ms) || !DayToken(ds) then None
         else
           var d := Date(YearValue(ys), MonthTokenValue(ms), DayTokenValue(ds));
           if 1 <= d.year && d.day <= DaysInMonth(d.year, d.month) then Some(d) else None
  {
    var s := ys + "-" + ms + "-" + ds;
    assert s[..4] == ys;
    assert s[4] == '-';
    assert s[5..] == ms + "-" + ds;
    BeforeFirstDigits(ms, ds);
    assert s[5..][|ms| + 1..] == ds;
  }

  /** On zero-padded `YYYY-MM-DD` text the parser accepts exactly the days
      that exist: the text of an impossible day (February 30, February 29
      of a common year, April 31) is rejected. */
  lemma ParseCanonical(y: int, m: int, dd: int)
    requires 1 <= y <= 9999 && 1 <= m <= 12 && 1 <= dd <= 31
    ensures ParseYmd(PadNat(y, 4) + "-" + PadNat(m, 2) + "-" + PadNat(dd, 2))
      == if dd <= DaysInMonth(y, m) then Some(Date(y, m, dd)) else None
  {
    FourDigits(y);
    TwoDigitMonth(m);
    TwoDigitDay(dd);
    ParseFields(PadNat(y, 4), PadNat(m, 2), PadNat(dd, 2));
  }

  lemma TwoDigitMonth(m: int)
    requires 1 <= m <= 12
    ensures AllDigits(PadNat(m, 2)) && MonthToken(PadNat(m, 2)) && MonthTokenValue(PadNat(m, 2)) == m
  {
    PadTwoChars(m);
    MonthDigits(m / 10, m % 10);
  }

  lemma MonthDigits(hi: nat, lo: nat)
    requires hi < 10 && lo < 10 && 1 <= hi * 10 + lo <= 12
    ensures var t := [DigitChar(hi), DigitChar(lo)];
      AllDigits(t) && MonthToken(t) && MonthTokenValue(t) == hi * 10 + lo
  {
    var t := [DigitChar(hi), DigitChar(lo)];
    assert t[0] == DigitChar(hi) && t[1] == DigitChar(lo);
  }

  lemma TwoDigitDay(d: int)
    requires 1 <= d <= 31
    ensures DayToken(PadNat(d, 2)) && DayTokenValue(PadNat(d, 2)) == d
  {
    PadTwoChars(d);
    DayDigits(d / 10, d % 10);
  }

  lemma DayDigits(hi: nat, lo: nat)
    requires hi < 10 && lo < 10 && 1 <= hi * 10 + lo <= 31
    ensures var t := [DigitChar(hi), DigitChar(lo)];
      DayToken(t) && DayTokenValue(t) == hi * 10 + lo
  {
    var t := [DigitChar(hi), DigitChar(lo)];
    assert t[0] == DigitChar(hi) && t[1] == DigitChar(lo);
  }

  /** `parse(d.isoformat()) == d`: due dates stored as ISO text read back
      as the same date. */
  lemma ParseIsoFormat(d: Date)
    requires IsPyDate(d)
    ensures ParseYmd(IsoFormat(d)) == Some(d)
    ensures ParseDueDate(Some(IsoFormat(d))) == Ok(Some(d))
  {
    ParseCanonical(d.year, d.month, d.day);
    IsoFieldWidths(d);
  }

  /** strptime also accepts a one-digit month and day. */
  lemma ParseShortFields()
    ensures ParseYmd("2024-1-5") == Some(Date(2024, 1, 5))
  {
    assert "2024-1-5" == "2024" + "-" + "1" + "-" + "5";
    ParseFields("2024", "1", "5");
  }

  // ---------------------------------------------------------------------------
  // format_dt
  // ---------------------------------------------------------------------------

  datatype DateTime = DateTime(date: Date, hour: int, minute: int, second: int)

  predicate IsPyDateTime(t: DateTime) {
    IsPyDate(t.date) && 0 <= t.hour < 24 && 0 <= t.minute < 60 && 0 <= t.second < 60
  }

  /** `%H:%M:%S`. */
  function ClockText(hour: nat, minute: nat, second: nat): string {
    PadNat(hour, 2) + ":" + PadNat(minute, 2) + ":" + PadNat(second, 2)
  }

  /** `format_dt`: `dt.strftime("%Y-%m-%d %H:%M:%S")`. The year is padded
      to four digits, as CPython's `%Y` does on Linux from 3.12.5 on; older
      C libraries print years below 1000 unpadded. */
  function FormatDt(t: DateTime): string
    requires IsPyDateTime(t)
  {
    IsoFormat(t.date) + " " + ClockText(t.hour, t.minute, t.second)
  }

  lemma ClockFields(h: nat, m: nat, s: nat)
    requires h < 100 && m < 100 && s < 100
    ensures var c := ClockText(h, m, s);
      |c| == 8 && c[2] == ':' && c[5] == ':'
      && AllDigits(c[0..2]) && DigitsValue(c[0..2]) == h
      && AllDigits(c[3..5]) && DigitsValue(c[3..5]) == m
      && AllDigits(c[6..8]) && DigitsValue(c[6..8]) == s
  {
    assert Pow10(2) == 100;
    PadNatExactWidth(h, 2);
    PadNatExactWidth(m, 2);
    PadNatExactWidth(s, 2);
    PadNatValue(h, 2);
    PadNatValue(m, 2);
    PadNatValue(s, 2);
    var c := ClockText(h, m, s);
    assert c[0..2] == PadNat(h, 2) && c[3..5] == PadNat(m, 2) && c[6..8] == PadNat(s, 2);
  }

  lemma {:induction false} SplitAtSeparator(a: string, sep: string, b: string)
    requires |sep| == 1
    ensures (a + sep + b)[..|a|] == a && (a + sep + b)[|a|] == sep[0]
    ensures (a + sep + b)[|a| + 1..] == b
  {
  }

  /** The rendering is 19 characters: the ISO date, which parses back to
      the date, a space, and the `HH:MM:SS` clock text of `ClockFields`. */
  lemma FormatDtRoundTrip(t: DateTime)
    requires IsPyDateTime(t)
    ensures |FormatDt(t)| == 19 && FormatDt(t)[10] == ' '
    ensures ParseYmd(FormatDt(t)[..10]) == Some(t.date)
    ensures FormatDt(t)[11..] == ClockText(t.hour, t.minute, t.second)
  {
    var iso, c := IsoFormat(t.date), ClockText(t.hour, t.minute, t.second);
    assert |iso| == 10 && |c| == 8 by {
      IsoFieldWidths(t.date);
      ClockFields(t.hour, t.minute, t.second);
    }
    SplitAtSeparator(iso, " ", c);
    ParseIsoFormat(t.date);
  }
}

=== FILE: timeline_grid.dfy ===
/** ddc-desktop/frontend/src/App.jsx, `buildTimelineGrid`: the intraday row
    of the editor-activity panel. The backend's bucket list is taken by
    position, padded with zero buckets up to the count the bucket width
    implies, cut to that count, and coloured with the heat palette. */
module TimelineGrid {
  import opened Wrappers
  import opened Strings
  import opened Collections
  import opened Palette

  const MinutesPerDay: nat := 24 * 60

  /** One bucket as the backend sends it. A missing `start_time` is `None`;
      missing counts are 0, as `item.typing || 0` reads them. */
  datatype TimelineItem = TimelineItem(startTime: Option<string>, typing: int, active: int, inactive: int)

  datatype TimelineCell = TimelineCell(color: string, title: string)

  datatype TimelineRow = TimelineRow(cells: seq<TimelineCell>, buckets: nat)

  /** `HH:MM` for a minute offset into the day: the hour and the minute
      zero-padded to two digits. Both sides of the application render a
      bucket start this way. */
  function ClockLabel(minutes: nat): (l: string)
    ensures |l| >= 5
  {
    PadNat(minutes / 60, 2) + ":" + PadNat(minutes % 60, 2)
  }

  /** A label inside the day is five characters and reads back as the
      minute offset it was made from. */
  lemma ClockLabelRoundTrip(minutes: nat)
    requires minutes < MinutesPerDay
    ensures var l := ClockLabel(minutes);
      |l| == 5 && l[2] == ':' && AllDigits(l[..2]) && AllDigits(l[3..])
      && DigitsValue(l[..2]) * 60 + DigitsValue(l[3..]) == minutes
  {
    assert Pow10(2) == 100;
    var h, m := PadNat(minutes / 60, 2), PadNat(minutes % 60, 2);
    PadNatExactWidth(minutes / 60, 2);
    PadNatExactWidth(minutes % 60, 2);
    PadNatValue(minutes / 60, 2);
    PadNatValue(minutes % 60, 2);
    var l := ClockLabel(minutes);
    assert l[..2] == h && l[3..] == m;
  }

  /** Different minute offsets inside the day get different labels. */
  lemma ClockLabelInjective(a: nat, b: nat)
    requires a < MinutesPerDay && b < MinutesPerDay && ClockLabel(a) == ClockLabel(b)
    ensures a == b
  {
    ClockLabelRoundTrip(a);
    ClockLabelRoundTrip(b);
  }

  /** `Math.max(1, Math.round(1440 / bucketMinutes))`, with `Math.round`
      rounding halves up. A zero width makes the JavaScript loop unbounded,
      so it is excluded. The ensures pin the rounding down without
      division: `n` is the integer nearest to 1440 / b, halves going up. */
  function ExpectedBuckets(bucketMinutes: int): (n: nat)
    requires bucketMinutes != 0
    ensures n >= 1
    ensures bucketMinutes < 0 || bucketMinutes > 2 * MinutesPerDay ==> n == 1
    ensures 0 < bucketMinutes <= 2 * MinutesPerDay ==>
      (2 * n - 1) * bucketMinutes <= 2 * MinutesPerDay < (2 * n + 1) * bucketMinutes
  {
    if bucketMinutes < 0 then 1
    else
      var q := (2 * MinutesPerDay + bucketMinutes) / (2 * bucketMinutes);
      DivBounds(2 * MinutesPerDay + bucketMinutes, 2 * bucketMinutes);
      assert q * (2 * bucketMinutes) == 2 * q * bucketMinutes;
      if q < 1 then 1 else q
  }

  /** The label of a zero-filled bucket: `HH:MM` of `i * bucketMinutes`.
      A negative width yields a single bucket, at offset 0. */
  function SlotLabel(i: nat, bucketMinutes: int): string {
    ClockLabel(if bucketMinutes > 0 then i * bucketMinutes else 0)
  }

  /** The `normalized` list: item `i` by position where the backend sent
      one, else a zero bucket labelled with its start. */
  function Normalize(items: seq<TimelineItem>, bucketMinutes: int): (r: seq<TimelineItem>)
    requires bucketMinutes != 0
    ensures |r| == ExpectedBuckets(bucketMinutes)
    ensures forall i :: 0 <= i < |r| && i < |items| ==> r[i] == items[i]
    ensures forall i :: |items| <= i < |r| ==>
      r[i] == TimelineItem(Some(SlotLabel(i, bucketMinutes)), 0, 0, 0)
  {
    var n := ExpectedBuckets(bucketMinutes);
    seq(n, i requires 0 <= i < n =>
      if i < |items| then items[i] else TimelineItem(Some(SlotLabel(i, bucketMinutes)), 0, 0, 0))
  }

  /** `item.start_time || HH:MM`: an absent or empty label falls back to
      the bucket's own start. */
  function StartLabel(item: TimelineItem, i: nat, bucketMinutes: int): string {
    match item.startTime
    case Some(s) => if s != "" then s else SlotLabel(i, bucketMinutes)
    case None => SlotLabel(i, bucketMinutes)
  }

  function TimelineTitle(start: string, item: TimelineItem): string {
    start + " | typing: " + IntToString(item.typing) + " | active: " + IntToString(item.active)
      + " | idle: " + IntToString(item.inactive)
  }

  function ItemTyping(item: TimelineItem): int { item.typing }

  function ItemActive(item: TimelineItem): int { item.active }

  /** The cells of the normalised list, coloured against its own maxima. */
  function TimelineCells(norm: seq<TimelineItem>, bucketMinutes: int): (r: seq<TimelineCell>)
    ensures |r| == |norm|
  {
    var maxTyping, maxActive := Max0(Values(norm, ItemTyping)), Max0(Values(norm, ItemActive));
    seq(|norm|, i requires 0 <= i < |norm| =>
      TimelineCell(PickHeatColor(norm[i].typing, norm[i].active, maxTyping, maxActive),
                   TimelineTitle(StartLabel(norm[i], i, bucketMinutes), norm[i])))
  }

  /** `buildTimelineGrid(items, bucketMinutes)`. */
  function BuildTimelineGrid(items: seq<TimelineItem>, bucketMinutes: int): (g: TimelineRow)
    requires bucketMinutes != 0
    ensures g.buckets == ExpectedBuckets(bucketMinutes) && |g.cells| == g.buckets
    ensures g.cells == TimelineCells(Normalize(items, bucketMinutes), bucketMinutes)
  {
    TimelineRow(TimelineCells(Normalize(items, bucketMinutes), bucketMinutes), ExpectedBuckets(bucketMinutes))
  }

  // ---------------------------------------------------------------------------
  // Properties
  // ---------------------------------------------------------------------------

  /** A bucket the backend sent is shown by position: its own label (or
      the slot's when it has none), its own counts, and a colour from the
      category its counts select. */
  lemma TimelineKeepsItem(items: seq<TimelineItem>, bucketMinutes: int, i: nat)
    requires bucketMinutes != 0 && i < |items| && i < ExpectedBuckets(bucketMinutes)
    ensures var cell := BuildTimelineGrid(items, bucketMinutes).cells[i];
      cell.title == TimelineTitle(StartLabel(items[i], i, bucketMinutes), items[i])
      && (cell.color in TypingColors <==> items[i].typing > 0)
      && (cell.color in ActiveColors <==> items[i].typing <= 0 && items[i].active > 0)
      && (cell.color == InactiveColor <==> items[i].typing <= 0 && items[i].active <= 0)
  {
    var norm := Normalize(items, bucketMinutes);
    HeatColorCategory(items[i].typing, items[i].active, Max0(Values(norm, ItemTyping)), Max0(Values(norm, ItemActive)));
  }

  /** A bucket the backend did not send is idle and titled with its own
      start and zero counts. */
  lemma TimelineZeroFill(items: seq<TimelineItem>, bucketMinutes: int, i: nat)
    requires bucketMinutes != 0 && |items| <= i < ExpectedBuckets(bucketMinutes)
    ensures var cell := BuildTimelineGrid(items, bucketMinutes).cells[i];
      cell.color == InactiveColor
      && cell.title == SlotLabel(i, bucketMinutes) + " | typing: 0 | active: 0 | idle: 0"
  {
    var norm := Normalize(items, bucketMinutes);
    var start := SlotLabel(i, bucketMinutes);
    var zero := TimelineItem(Some(start), 0, 0, 0);
    assert norm[i] == zero;
    assert StartLabel(zero, i, bucketMinutes) == start;
    ZeroTitle(start, zero);
  }

  lemma ZeroTitle(start: string, item: TimelineItem)
    requires item.typing == 0 && item.active == 0 && item.inactive == 0
    ensures TimelineTitle(start, item) == start + " | typing: 0 | active: 0 | idle: 0"
  {
    assert IntToString(0) == "0";
  }

  /** Buckets past the expected count never reach the row: the row depends
      only on the first `ExpectedBuckets` items. */
  lemma TimelineDropsExtra(items: seq<TimelineItem>, bucketMinutes: int)
    requires bucketMinutes != 0 && |items| > ExpectedBuckets(bucketMinutes)
    ensures BuildTimelineGrid(items, bucketMinutes)
      == BuildTimelineGrid(items[..ExpectedBuckets(bucketMinutes)], bucketMinutes)
  {
    assert Normalize(items, bucketMinutes) == Normalize(items[..ExpectedBuckets(bucketMinutes)], bucketMinutes);
  }

  /** The busiest typing bucket of the row, counting zero-filled ones, gets
      the brightest typing colour. */
  lemma TimelinePeak(items: seq<TimelineItem>, bucketMinutes: int, i: nat)
    requires bucketMinutes != 0 && i < ExpectedBuckets(bucketMinutes)
    requires var norm := Normalize(items, bucketMinutes);
      norm[i].typing > 0 && forall k :: 0 <= k < |norm| ==> norm[k].typing <= norm[i].typing
    ensures BuildTimelineGrid(items, bucketMinutes).cells[i].color == TypingColors[3]
  {
    var norm := Normalize(items, bucketMinutes);
    var m := Max0(Values(norm, ItemTyping));
    assert Values(norm, ItemTyping)[i] == norm[i].typing;
    assert m == norm[i].typing;
    PeakIsBrightest(norm[i].typing, norm[i].active, m, Max0(Values(norm, ItemActive)));
  }

  /** The rounded count against the floored one `floor(1440 / b)`: one
      more exactly when the remainder is at least half a bucket, so the two
      agree on every width that divides a day. */
  lemma ExpectedBucketsFromFloor(bucketMinutes: int)
    requires 0 < bucketMinutes <= MinutesPerDay
    ensures ExpectedBuckets(bucketMinutes) == MinutesPerDay / bucketMinutes
      + (if 2 * (MinutesPerDay % bucketMinutes) >= bucketMinutes then 1 else 0)
  {
    var b, n := bucketMinutes, ExpectedBuckets(bucketMinutes);
    var f, r := MinutesPerDay / b, MinutesPerDay % b;
    var m := f + (if 2 * r >= b then 1 else 0);
    assert 2 * MinutesPerDay == 2 * (f * b) + 2 * r;
    assert (2 * m - 1) * b == 2 * (f * b) + (2 * (m - f) - 1) * b;
    assert (2 * m + 1) * b == 2 * (f * b) + (2 * (m - f) + 1) * b;
    assert (2 * m - 1) * b <= 2 * MinutesPerDay < (2 * m + 1) * b;
    MulCancelLess(2 * n - 1, 2 * m + 1, b);
    MulCancelLess(2 * m - 1, 2 * n + 1, b);
  }
}

=== FILE: vscode_service.dfy ===
/** ddc-desktop/backend/app/services/vscode_service.py: the editor-activity
    log. `record_event` admits three event types; `heatmap` turns per-day
    totals into a dense window of the last `days` days; `timeline` spreads
    one day's events over fixed-width buckets. The SQL queries are
    abstracted to the rows they return, and the clock to a `today`
    parameter. */
module VsCodeActivity {
  import opened Wrappers
  import opened Strings
  import opened Calendar
  import opened Collections
  import opened TimeUtils
  import opened Palette
  import opened TimelineGrid

  datatype EventKind = Active | Inactive | Typing

  function KindName(k: EventKind): string {
    match k
    case Active => "active"
    case Inactive => "inactive"
    case Typing => "typing"
  }

  const AllowedEvents: set<string> := {"active", "inactive", "typing"}
  const InvalidEventError: string := "Event type tidak valid."
  const TimelineDateError: string := "Tanggal harus format YYYY-MM-DD."
  const BucketRangeError: string := "bucket_minutes harus di antara 5 dan 60."

  /** The event kind an accepted type name stands for. */
  function ParseEventKind(name: string): (r: Option<EventKind>)
    ensures r.Some? <==> name in AllowedEvents
    ensures r.Some? ==> KindName(r.value) == name
  {
    if name == "active" then Some(Active)
    else if name == "inactive" then Some(Inactive)
    else if name == "typing" then Some(Typing)
    else None
  }

  // ---------------------------------------------------------------------------
  // record_event
  // ---------------------------------------------------------------------------

  datatype ActivityRecord = ActivityRecord(id: nat, kind: EventKind, details: Option<string>, createdAt: string)

  /** The `vscode_activity` table: its rows in insertion order and the next
      row id SQLite will hand out. */
  datatype ActivityLog = ActivityLog(rows: seq<ActivityRecord>, nextId: nat)

  datatype Recorded = Recorded(log: ActivityLog, result: Result<ActivityRecord>)

  /** `record_event(event_type, details)` at clock reading `now`: an unknown
      type is answered with the error and inserts nothing; a known one
      appends a row stamped `now` and returns it. */
  function RecordEvent(log: ActivityLog, eventType: string, details: Option<string>, now: string): (r: Recorded)
    ensures r.result.Err? <==> eventType !in AllowedEvents
    ensures r.result.Err? ==> r.log == log && r.result.message == InvalidEventError
    ensures r.result.Ok? ==>
      var row := r.result.value;
      r.log.rows == log.rows + [row] && r.log.nextId > row.id
      && row.id == log.nextId && KindName(row.kind) == eventType
      && row.details == details && row.createdAt == now
  {
    match ParseEventKind(eventType)
    case None => Recorded(log, Err(InvalidEventError))
    case Some(kind) =>
      var row := ActivityRecord(log.nextId, kind, details, now);
      Recorded(ActivityLog(log.rows + [row], log.nextId + 1), Ok(row))
  }

  /** Every stored row carries an admitted type: recording keeps the log's
      type column inside the allowed set whatever the caller sends. */
  lemma RecordedKindsAllowed(log: ActivityLog, eventType: string, details: Option<string>, now: string)
    requires forall k :: 0 <= k < |log.rows| ==> KindName(log.rows[k].kind) in AllowedEvents
    ensures var rows := RecordEvent(log, eventType, details, now).log.rows;
      forall k :: 0 <= k < |rows| ==> KindName(rows[k].kind) in AllowedEvents
  {
  }

  // ---------------------------------------------------------------------------
  // heatmap
  // ---------------------------------------------------------------------------

  /** `days` clamped into [7, 365]. */
  function ClampDays(days: int): (n: nat)
    ensures 7 <= n <= 365
    ensures 7 <= days <= 365 ==> n == days
    ensures days < 7 ==> n == 7
    ensures days > 365 ==> n == 365
  {
    if days < 7 then 7 else if days > 365 then 365 else days
  }

  /** One row of the grouped query: a day, an event type and how many
      events of that type the day holds. */
  datatype DayRow = DayRow(day: string, kind: EventKind, total: nat)

  datatype DayItem = DayItem(date: string, active: nat, typing: nat, inactive: nat)

  datatype HeatmapReport = HeatmapReport(days: nat, items: seq<DayItem>)

  /** Row `j` is the last row for `day` and `kind`. */
  predicate LastRowFor(rows: seq<DayRow>, j: int, day: string, kind: EventKind) {
    0 <= j < |rows| && rows[j].day == day && rows[j].kind == kind
    && forall k :: j < k < |rows| ==> rows[k].day != day || rows[k].kind != kind
  }

  /** The count the `counts` dictionary holds for a day and type: the total
      of the last row for that pair, or 0 when there is none. */
  function DayTotal(rows: seq<DayRow>, day: string, kind: EventKind): (n: nat)
    ensures (forall j :: 0 <= j < |rows| ==> rows[j].day != day || rows[j].kind != kind) ==> n == 0
    ensures forall j :: LastRowFor(rows, j, day, kind) ==> n == rows[j].total
  {
    match LastIndex(rows, (r: DayRow) => r.day == day && r.kind == kind)
    case None => 0
    case Some(j) => rows[j].total
  }

  /** The item the loop emits for one day of the window. */
  function ItemOn(rows: seq<DayRow>, d: Date): DayItem
    requires IsPyDate(d)
  {
    var key := IsoFormat(d);
    DayItem(key, DayTotal(rows, key, Active), DayTotal(rows, key, Typing), DayTotal(rows, key, Inactive))
  }

  predicate AllPyDates(ds: seq<Date>) {
    forall k :: 0 <= k < |ds| ==> IsPyDate(ds[k])
  }

  /** The items of the given days, in order. */
  function DayItems(rows: seq<DayRow>, ds: seq<Date>): (r: seq<DayItem>)
    requires AllPyDates(ds)
    ensures |r| == |ds|
  {
    if |ds| == 0 then []
    else DayItems(rows, ds[..|ds| - 1]) + [ItemOn(rows, ds[|ds| - 1])]
  }

  /** The days `today - (n - 1)` through `today`, oldest first; each is a
      day Python can represent when the oldest one is. */
  function Window(today: Date, n: nat): (w: seq<Date>)
    requires IsPyDate(today) && n >= 1 && SubDays(today, n - 1).year >= 1
    ensures |w| == n && w[n - 1] == today && AllPyDates(w)
    ensures forall i :: 0 <= i < n ==>
      w[i] == AddDays(SubDays(today, n - 1), i) && IsPyDate(w[i]) && NotAfter(w[i], today)
  {
    var start := SubDays(today, n - 1);
    AddSubDays(today, n - 1);
    forall i: nat | i < n
      ensures IsPyDate(AddDays(start, i)) && NotAfter(AddDays(start, i), today)
    {
      AddDaysNotBefore(start, i);
      if i < n - 1 {
        AddDaysMonotone(start, i, n - 1);
      }
    }
    seq(n, i requires 0 <= i < n => AddDays(start, i))
  }

  /** The cursor walk of `heatmap`: from `today - (n - 1)`, one day at a
      time, while the cursor is not after `today`. */
  method WalkWindow(today: Date, n: nat) returns (ds: seq<Date>)
    requires IsPyDate(today) && IsPyDate(Next(today)) && n >= 1 && SubDays(today, n - 1).year >= 1
    ensures ds == Window(today, n)
  {
    var w := Window(today, n);
    PastToday(today);
    ds := [];
    var cursor := SubDays(today, n - 1);
    var i: nat := 0;
    while NotAfter(cursor, today)
      invariant i <= n && ds == w[..i]
      invariant i < n ==> cursor == w[i]
      invariant i == n ==> cursor == Next(today)
      decreases n - i
    {
      WindowStep(today, n, i);
      ds := ds + [cursor];
      cursor := Next(cursor);
      i := i + 1;
    }
    if i < n {
      WindowStep(today, n, i);
    }
  }

  /** `heatmap(days)` with today's date `today`. The requires is where
      Python's `date` arithmetic stays in range: `today - timedelta(days - 1)`
      must not fall before year 1, and the walk's last step, one day past
      `today`, must not pass year 9999. */
  method Heatmap(days: int, today: Date, rows: seq<DayRow>) returns (r: HeatmapReport)
    requires IsPyDate(today) && IsPyDate(Next(today)) && SubDays(today, ClampDays(days) - 1).year >= 1
    ensures r.days == ClampDays(days)
    ensures r.items == DayItems(rows, Window(today, r.days))
  {
    var n := ClampDays(days);
    var ds := WalkWindow(today, n);
    r := HeatmapReport(n, DayItems(rows, ds));
  }

  lemma PastToday(today: Date)
    requires Valid(today)
    ensures !NotAfter(Next(today), today)
  {
  }

  lemma WindowStep(today: Date, n: nat, i: nat)
    requires IsPyDate(today) && i < n && SubDays(today, n - 1).year >= 1
    ensures var w := Window(today, n);
      NotAfter(w[i], today) && (i + 1 < n ==> Next(w[i]) == w[i + 1])
      && (i + 1 == n ==> Next(w[i]) == Next(today))
  {
    AddDaysSucc(SubDays(today, n - 1), i);
  }

  /** The window ends on `today` and steps one day at a time. */
  lemma WindowShape(today: Date, n: nat)
    requires IsPyDate(today) && n >= 1 && SubDays(today, n - 1).year >= 1
    ensures var w := Window(today, n);
      w[n - 1] == today && forall i :: 0 <= i < n - 1 ==> w[i + 1] == Next(w[i])
  {
    var start := SubDays(today, n - 1);
    forall i | 0 <= i < n - 1
      ensures AddDays(start, i + 1) == Next(AddDays(start, i))
    {
      AddDaysSucc(start, i);
    }
  }

  /** The dates of the window are strictly ascending as text, so the
      report is sorted and holds no date twice. */
  lemma WindowAscending(rows: seq<DayRow>, today: Date, n: nat, i: nat, j: nat)
    requires IsPyDate(today) && n >= 1 && SubDays(today, n - 1).year >= 1 && i < j < n
    ensures var w := Window(today, n);
      Less(ItemOn(rows, w[i]).date, ItemOn(rows, w[j]).date)
  {
    var w := Window(today, n);
    AddDaysMonotone(SubDays(today, n - 1), i, j);
    IsoOrder(w[i], w[j]);
  }

  /** Row `j` is the only row for `day` and `kind`, as `GROUP BY day,
      event_type` guarantees. */
  predicate UniqueRowFor(rows: seq<DayRow>, j: int, day: string, kind: EventKind) {
    0 <= j < |rows| && rows[j].day == day && rows[j].kind == kind
    && forall k :: 0 <= k < |rows| && k != j ==> rows[k].day != day || rows[k].kind != kind
  }

  function ItemCount(item: DayItem, kind: EventKind): nat {
    match kind
    case Active => item.active
    case Typing => item.typing
    case Inactive => item.inactive
  }

  /** A day without rows reports zeros; otherwise each type reports the
      total of the grouped row for that day and type. */
  lemma HeatmapDayCounts(rows: seq<DayRow>, d: Date, kind: EventKind)
    requires IsPyDate(d)
    ensures (forall j :: 0 <= j < |rows| ==> rows[j].day != IsoFormat(d)) ==>
      ItemOn(rows, d) == DayItem(IsoFormat(d), 0, 0, 0)
    ensures forall j :: UniqueRowFor(rows, j, IsoFormat(d), kind) ==>
      ItemCount(ItemOn(rows, d), kind) == rows[j].total
  {
    forall j | UniqueRowFor(rows, j, IsoFormat(d), kind)
      ensures ItemCount(ItemOn(rows, d), kind) == rows[j].total
    {
      assert LastRowFor(rows, j, IsoFormat(d), kind);
    }
  }

  // ---------------------------------------------------------------------------
  // timeline
  // ---------------------------------------------------------------------------

  /** The hour and minute of a timestamp `datetime.fromisoformat` accepted. */
  datatype Clock = Clock(hour: int, minute: int)

  predicate ValidClock(c: Clock) {
    0 <= c.hour < 24 && 0 <= c.minute < 60
  }

  /** One event of the requested day. `stamp` is `None` when its
      `created_at` text does not parse; such rows are skipped. */
  datatype EventRow = EventRow(stamp: Option<Clock>, kind: EventKind)

  predicate StampsValid(rows: seq<EventRow>) {
    forall k :: 0 <= k < |rows| ==> rows[k].stamp.Some? ==> ValidClock(rows[k].stamp.value)
  }

  datatype BucketCounts = BucketCounts(typing: nat, active: nat, inactive: nat)

  datatype TimelineReport = TimelineReport(date: string, bucketMinutes: int, items: seq<TimelineItem>)

  /** `int(24 * 60 / bucket_minutes)`. */
  function BucketsPerDay(bucketMinutes: int): nat
    requires bucketMinutes > 0
  {
    MinutesPerDay / bucketMinutes
  }

  /** The bucket an event falls in: `int((hour * 60 + minute) / b)`. */
  function BucketOf(c: Clock, bucketMinutes: int): int
    requires ValidClock(c) && bucketMinutes > 0
  {
    (c.hour * 60 + c.minute) / bucketMinutes
  }

  /** Whether an event is tallied at all: it parsed, and its bucket is one
      of the `BucketsPerDay` buckets. */
  predicate Lands(e: EventRow, bucketMinutes: int)
    requires bucketMinutes > 0
  {
    e.stamp.Some? && ValidClock(e.stamp.value)
    && 0 <= BucketOf(e.stamp.value, bucketMinutes) < BucketsPerDay(bucketMinutes)
  }

  /** Whether an event is tallied in bucket `k` under `kind`. */
  predicate LandsIn(e: EventRow, bucketMinutes: int, k: int, kind: EventKind)
    requires bucketMinutes > 0
  {
    Lands(e, bucketMinutes) && BucketOf(e.stamp.value, bucketMinutes) == k && e.kind == kind
  }

  /** The number of events that are tallied at all. */
  function Landed(rows: seq<EventRow>, bucketMinutes: int): (n: nat)
    requires bucketMinutes > 0
    ensures n <= |rows|
  {
    if |rows| == 0 then 0
    else Landed(rows[..|rows| - 1], bucketMinutes) + if Lands(rows[|rows| - 1], bucketMinutes) then 1 else 0
  }

  /** The number of events tallied in bucket `k` under `kind`. */
  function LandedIn(rows: seq<EventRow>, bucketMinutes: int, k: int, kind: EventKind): nat
    requires bucketMinutes > 0
  {
    if |rows| == 0 then 0
    else
      var before := LandedIn(rows[..|rows| - 1], bucketMinutes, k, kind);
      before + if LandsIn(rows[|rows| - 1], bucketMinutes, k, kind) then 1 else 0
  }

  function CountOf(c: BucketCounts, kind: EventKind): nat {
    match kind
    case Typing => c.typing
    case Active => c.active
    case Inactive => c.inactive
  }

  function Bump(c: BucketCounts, kind: EventKind): (r: BucketCounts)
    ensures CountOf(r, kind) == CountOf(c, kind) + 1
    ensures forall other :: other != kind ==> CountOf(r, other) == CountOf(c, other)
  {
    match kind
    case Typing => c.(typing := c.typing + 1)
    case Active => c.(active := c.active + 1)
    case Inactive => c.(inactive := c.inactive + 1)
  }

  function BucketSum(c: BucketCounts): nat {
    c.typing + c.active + c.inactive
  }

  /** The number of events over all items of a timeline. */
  function ItemsTotal(items: seq<TimelineItem>): int {
    if |items| == 0 then 0
    else
      var last := items[|items| - 1];
      ItemsTotal(items[..|items| - 1]) + last.typing + last.active + last.inactive
  }

  /** The number of events over all buckets. */
  function Total(counts: seq<BucketCounts>): nat {
    if |counts| == 0 then 0 else Total(counts[..|counts| - 1]) + BucketSum(counts[|counts| - 1])
  }

  lemma {:induction false} TotalBump(counts: seq<BucketCounts>, k: nat, kind: EventKind)
    requires k < |counts|
    ensures Total(counts[k := Bump(counts[k], kind)]) == Total(counts) + 1
    decreases |counts|
  {
    var bumped := counts[k := Bump(counts[k], kind)];
    var last := |counts| - 1;
    assert bumped[..last] == if k < last then counts[..last][k := Bump(counts[k], kind)] else counts[..last];
    if k < last {
      TotalBump(counts[..last], k, kind);
    }
  }

  /** `counts` is the tally of `rows`: every bucket's count is the number
      of events for that bucket and type, and the grand total the number of
      events that landed. */
  predicate Tallied(rows: seq<EventRow>, bucketMinutes: int, counts: seq<BucketCounts>)
    requires bucketMinutes > 0
  {
    |counts| == BucketsPerDay(bucketMinutes)
    && (forall k, kind :: 0 <= k < |counts| ==>
          CountOf(counts[k], kind) == LandedIn(rows, bucketMinutes, k, kind))
    && Total(counts) == Landed(rows, bucketMinutes)
  }

  /** One pass of the tallying loop: a parsed event whose bucket is in
      range adds one to its own type in that bucket. */
  function TallyStep(counts: seq<BucketCounts>, e: EventRow, bucketMinutes: int): seq<BucketCounts>
    requires bucketMinutes > 0 && (e.stamp.Some? ==> ValidClock(e.stamp.value))
  {
    if e.stamp.Some? && 0 <= BucketOf(e.stamp.value, bucketMinutes) < |counts| then
      var bucket := BucketOf(e.stamp.value, bucketMinutes);
      counts[bucket := Bump(counts[bucket], e.kind)]
    else counts
  }

  /** One event changes one bucket's count of one type, by one, exactly
      when it lands there. */
  lemma StepBucket(counts: seq<BucketCounts>, e: EventRow, bucketMinutes: int, k: int, kind: EventKind)
    requires bucketMinutes > 0 && (e.stamp.Some? ==> ValidClock(e.stamp.value))
    requires 0 <= k < |counts| == BucketsPerDay(bucketMinutes)
    ensures |TallyStep(counts, e, bucketMinutes)| == |counts|
    ensures CountOf(TallyStep(counts, e, bucketMinutes)[k], kind)
      == CountOf(counts[k], kind) + if LandsIn(e, bucketMinutes, k, kind) then 1 else 0
  {
  }

  lemma TallyStepKeeps(rows: seq<EventRow>, e: EventRow, bucketMinutes: int, counts: seq<BucketCounts>)
    requires bucketMinutes > 0 && (e.stamp.Some? ==> ValidClock(e.stamp.value))
    requires Tallied(rows, bucketMinutes, counts)
    ensures Tallied(rows + [e], bucketMinutes, TallyStep(counts, e, bucketMinutes))
  {
    var next := TallyStep(counts, e, bucketMinutes);
    assert (rows + [e])[..|rows|] == rows;
    forall k, kind | 0 <= k < |counts|
      ensures CountOf(next[k], kind) == LandedIn(rows + [e], bucketMinutes, k, kind)
    {
      StepBucket(counts, e, bucketMinutes, k, kind);
    }
    if e.stamp.Some? && 0 <= BucketOf(e.stamp.value, bucketMinutes) < |counts| {
      TotalBump(counts, BucketOf(e.stamp.value, bucketMinutes), e.kind);
    }
  }

  lemma {:induction false} ZeroTotal(counts: seq<BucketCounts>)
    requires forall k :: 0 <= k < |counts| ==> counts[k] == BucketCounts(0, 0, 0)
    ensures Total(counts) == 0
    decreases |counts|
  {
    if |counts| > 0 {
      ZeroTotal(counts[..|counts| - 1]);
    }
  }

  /** The tallying loop of `timeline`. */
  method TallyBuckets(rows: seq<EventRow>, bucketMinutes: int) returns (counts: seq<BucketCounts>)
    requires 5 <= bucketMinutes <= 60 && StampsValid(rows)
    ensures Tallied(rows, bucketMinutes, counts)
  {
    var n := BucketsPerDay(bucketMinutes);
    counts := seq(n, _ => BucketCounts(0, 0, 0));
    ZeroTotal(counts);
    var i := 0;
    while i < |rows|
      invariant i <= |rows| && Tallied(rows[..i], bucketMinutes, counts)
    {
      TallyStepKeeps(rows[..i], rows[i], bucketMinutes, counts);
      assert rows[..i + 1] == rows[..i] + [rows[i]];
      counts := TallyStep(counts, rows[i], bucketMinutes);
      i := i + 1;
    }
    assert rows[..i] == rows;
  }

  /** The `HH:MM` starts of the first `n` buckets, in order. */
  function StartLabels(bucketMinutes: int, n: nat): (labels: seq<string>)
    requires bucketMinutes > 0
    ensures |labels| == n
  {
    if n == 0 then [] else StartLabels(bucketMinutes, n - 1) + [SlotLabel(n - 1, bucketMinutes)]
  }

  lemma {:induction false} StartLabelsAt(bucketMinutes: int, n: nat, k: nat)
    requires bucketMinutes > 0 && k < n
    ensures StartLabels(bucketMinutes, n)[k] == SlotLabel(k, bucketMinutes)
    decreases n
  {
    var prev, last := StartLabels(bucketMinutes, n - 1), SlotLabel(n - 1, bucketMinutes);
    assert StartLabels(bucketMinutes, n) == prev + [last];
    if k < n - 1 {
      StartLabelsAt(bucketMinutes, n - 1, k);
      assert (prev + [last])[k] == prev[k];
    }
  }

  function BucketItem(start: string, c: BucketCounts): TimelineItem {
    TimelineItem(Some(start), c.typing, c.active, c.inactive)
  }

  /** The counts `timeline` promises for bucket `k`: per type, the number
      of the day's events in it. */
  function ExpectedCounts(rows: seq<EventRow>, bucketMinutes: int, k: nat): BucketCounts
    requires bucketMinutes > 0
  {
    BucketCounts(LandedIn(rows, bucketMinutes, k, Typing), LandedIn(rows, bucketMinutes, k, Active),
      LandedIn(rows, bucketMinutes, k, Inactive))
  }

  /** The items `timeline` promises: one per whole bucket of the day. */
  function BucketItems(rows: seq<EventRow>, bucketMinutes: int): (items: seq<TimelineItem>)
    requires 5 <= bucketMinutes <= 60
    ensures |items| == BucketsPerDay(bucketMinutes)
  {
    var n := BucketsPerDay(bucketMinutes);
    var labels := StartLabels(bucketMinutes, n);
    seq(n, k requires 0 <= k < n => BucketItem(labels[k], ExpectedCounts(rows, bucketMinutes, k)))
  }

  /** `timeline(date_str, bucket_minutes)` over the events of that day. A
      date strptime rejects is reported first, then a width outside
      [5, 60]; otherwise one item per whole bucket of the day. */
  method Timeline(dateText: string, bucketMinutes: int, rows: seq<EventRow>) returns (r: Result<TimelineReport>)
    requires StampsValid(rows)
    ensures var p := ParseYmd(dateText);
      if p.None? then r == Err(TimelineDateError)
      else if bucketMinutes < 5 || bucketMinutes > 60 then r == Err(BucketRangeError)
      else r == Ok(TimelineReport(IsoFormat(p.value), bucketMinutes, BucketItems(rows, bucketMinutes)))
    ensures r.Ok? ==> ItemsTotal(r.value.items) == Landed(rows, bucketMinutes) <= |rows|
  {
    var parsed := ParseYmd(dateText);
    if parsed.None? {
      return Err(TimelineDateError);
    }
    if bucketMinutes < 5 || bucketMinutes > 60 {
      return Err(BucketRangeError);
    }
    var counts := TallyBuckets(rows, bucketMinutes);
    var items := RenderBuckets(counts, StartLabels(bucketMinutes, |counts|));
    RenderedAreExpected(rows, bucketMinutes, counts, items);
    r := Ok(TimelineReport(IsoFormat(parsed.value), bucketMinutes, items));
  }

  lemma RenderedAreExpected(rows: seq<EventRow>, bucketMinutes: int, counts: seq<BucketCounts>, items: seq<TimelineItem>)
    requires 5 <= bucketMinutes <= 60 && Tallied(rows, bucketMinutes, counts) && |items| == |counts|
    requires forall k :: 0 <= k < |counts| ==>
      items[k] == BucketItem(StartLabels(bucketMinutes, |counts|)[k], counts[k])
    ensures items == BucketItems(rows, bucketMinutes)
  {
    forall k | 0 <= k < |counts|
      ensures counts[k] == ExpectedCounts(rows, bucketMinutes, k)
    {
      var c := counts[k];
      assert CountOf(c, Typing) == c.typing && CountOf(c, Active) == c.active
        && CountOf(c, Inactive) == c.inactive;
    }
  }

  /** The item-building loop of `timeline`. */
  method RenderBuckets(counts: seq<BucketCounts>, labels: seq<string>) returns (items: seq<TimelineItem>)
    requires |labels| == |counts|
    ensures |items| == |counts|
    ensures forall k :: 0 <= k < |counts| ==> items[k] == BucketItem(labels[k], counts[k])
    ensures ItemsTotal(items) == Total(counts)
  {
    items := [];
    var idx := 0;
    while idx < |counts|
      invariant idx <= |counts| && |items| == idx
      invariant forall k :: 0 <= k < idx ==> items[k] == BucketItem(labels[k], counts[k])
      invariant ItemsTotal(items) == Total(counts[..idx])
    {
      var item := BucketItem(labels[idx], counts[idx]);
      assert counts[..idx + 1][..idx] == counts[..idx];
      assert (items + [item])[..idx] == items;
      items := items + [item];
      idx := idx + 1;
    }
    assert counts[..idx] == counts;
  }

  /** Every bucket of a successful timeline carries a five-character
      `HH:MM` start inside the day, and labels are pairwise distinct. */
  lemma TimelineLabels(rows: seq<EventRow>, bucketMinutes: int, i: nat, j: nat)
    requires 5 <= bucketMinutes <= 60 && i < j < BucketsPerDay(bucketMinutes)
    ensures var items := BucketItems(rows, bucketMinutes);
      items[j].startTime == Some(SlotLabel(j, bucketMinutes)) && |SlotLabel(j, bucketMinutes)| == 5
      && items[i].startTime != items[j].startTime
  {
    var n := BucketsPerDay(bucketMinutes);
    StartLabelsAt(bucketMinutes, n, i);
    StartLabelsAt(bucketMinutes, n, j);
    BucketStartsDistinct(bucketMinutes, i, j);
  }

  /** Bucket starts lie inside the day, so their labels are distinct. */
  lemma BucketStartsDistinct(bucketMinutes: int, i: nat, j: nat)
    requires 5 <= bucketMinutes <= 60 && i < j < BucketsPerDay(bucketMinutes)
    ensures |SlotLabel(j, bucketMinutes)| == 5 && SlotLabel(i, bucketMinutes) != SlotLabel(j, bucketMinutes)
  {
    BucketStartsInDay(bucketMinutes, i, j);
    ClockLabelRoundTrip(j * bucketMinutes);
    if ClockLabel(i * bucketMinutes) == ClockLabel(j * bucketMinutes) {
      ClockLabelInjective(i * bucketMinutes, j * bucketMinutes);
    }
  }

  lemma BucketStartsInDay(bucketMinutes: int, i: nat, j: nat)
    requires 5 <= bucketMinutes <= 60 && i < j < BucketsPerDay(bucketMinutes)
    ensures i * bucketMinutes < j * bucketMinutes < MinutesPerDay
  {
    var b, n := bucketMinutes, BucketsPerDay(bucketMinutes);
    DivBounds(MinutesPerDay, b);
    MulMonotone(j + 1, n, b);
    MulMonotone(i + 1, j, b);
    assert (j + 1) * b == j * b + b && (i + 1) * b == i * b + b;
  }

  /** When the width divides the day, no parsed event is dropped; on other
      widths the minutes past the last whole bucket are lost (at width 7,
      23:55 through 23:59). */
  lemma TimelineDropsOnlyTail(bucketMinutes: int, c: Clock)
    requires 5 <= bucketMinutes <= 60 && ValidClock(c)
    ensures BucketOf(c, bucketMinutes) >= 0
    ensures BucketOf(c, bucketMinutes) >= BucketsPerDay(bucketMinutes) <==>
      c.hour * 60 + c.minute >= BucketsPerDay(bucketMinutes) * bucketMinutes
    ensures MinutesPerDay % bucketMinutes == 0 ==> BucketOf(c, bucketMinutes) < BucketsPerDay(bucketMinutes)
  {
    var t, b, n := c.hour * 60 + c.minute, bucketMinutes, BucketsPerDay(bucketMinutes);
    var q := t / b;
    DivBounds(t, b);
    DivBounds(MinutesPerDay, b);
    assert (q + 1) * b == q * b + b;
    MulMonotone(if q >= n then n else q + 1, if q >= n then q else n, b);
    assert MinutesPerDay % b == 0 ==> n * b == MinutesPerDay;
  }

  /** The frontend row built from a backend timeline: every backend bucket
      is shown in place, and when the remainder of the day is at least half
      a bucket the frontend adds one zero-filled bucket at the end. */
  lemma FrontendShowsBackendTimeline(items: seq<TimelineItem>, bucketMinutes: int)
    requires 5 <= bucketMinutes <= 60 && |items| == BucketsPerDay(bucketMinutes)
    ensures var g := BuildTimelineGrid(items, bucketMinutes);
      |g.cells| == |items| + (if 2 * (MinutesPerDay % bucketMinutes) >= bucketMinutes then 1 else 0)
      && forall k :: 0 <= k < |items| ==>
           g.cells[k].title == TimelineTitle(StartLabel(items[k], k, bucketMinutes), items[k])
  {
    ExpectedBucketsFromFloor(bucketMinutes);
    forall k | 0 <= k < |items|
      ensures BuildTimelineGrid(items, bucketMinutes).cells[k].title
        == TimelineTitle(StartLabel(items[k], k, bucketMinutes), items[k])
    {
      TimelineKeepsItem(items, bucketMinutes, k);
    }
  }
}

=== FILE: wrappers.dfy ===
/** Failure-carrying result types shared by every module of the model.
    The services of the original system signal failures either by returning
    `None` or by returning a dictionary with an "error" key (or raising);
    both become `Option` / `Result` values here. */
module Wrappers {

  datatype Option<+T> = None | Some(value: T) {
    function GetOr(default: T): T {
      match this
      case Some(v) => v
      case None => default
    }
  }

  /** `Ok(value)` or `Err(message)`, the message being the text the source
      puts in its "error" entry or exception. */
  datatype Result<+T> = Ok(value: T) | Err(message: string)
}

=== FILE: yeargrid.dfy ===
/** ddc-desktop/frontend/src/App.jsx: the one-year grids of the dashboard.
    `buildContributionGrid` lays out GitHub contribution counts and
    `buildHeatmapGrid` editor-activity counts, one cell per day of the
    displayed year starting at January 1 (no weekday padding), with
    `ceil(days / 7)` week columns, month labels over the column holding
    each month's first day, and (heatmap only) quarter markers. */
module YearGrid {
  import opened Wrappers
  import opened Strings
  import opened Calendar
  import opened Collections
  import opened Palette

  /** `new Date(y, month, day)` reads a year 0..99 as 1900..1999. */
  function JsYear(year: int): (y: int)
    ensures 1900 <= y <= 1999 <==> 0 <= year <= 99 || 1900 <= year <= 1999
    ensures !(0 <= year <= 99) ==> y == year
  {
    if 0 <= year <= 99 then 1900 + year else year
  }

  /** `formatDateKey`: the year without padding, month and day padded to
      two digits. */
  function FormatDateKey(d: Date): string
    requires Valid(d)
  {
    IntToString(d.year) + "-" + PadNat(d.month, 2) + "-" + PadNat(d.day, 2)
  }

  // ---------------------------------------------------------------------------
  // Date keys
  // ---------------------------------------------------------------------------

  lemma TwoDigitField(n: nat)
    requires 1 <= n <= 31
    ensures |PadNat(n, 2)| == 2 && AllDigits(PadNat(n, 2)) && DigitsValue(PadNat(n, 2)) == n
  {
    assert Pow10(2) == 100;
    PadNatExactWidth(n, 2);
    PadNatValue(n, 2);
  }

  lemma IntToStringInjective(a: int, b: int)
    requires IntToString(a) == IntToString(b)
    ensures a == b
  {
    var s, t := IntToString(a), IntToString(b);
    assert a >= 0 ==> IsDigit(s[0]);
    assert b >= 0 ==> IsDigit(t[0]);
    if a < 0 && b < 0 {
      assert NatToString(-a) == s[1..] == NatToString(-b);
    }
  }

  lemma DateKeyFields(a: Date, b: Date)
    requires Valid(a) && Valid(b) && FormatDateKey(a) == FormatDateKey(b)
    ensures IntToString(a.year) == IntToString(b.year)
    ensures PadNat(a.month, 2) == PadNat(b.month, 2) && PadNat(a.day, 2) == PadNat(b.day, 2)
  {
    KeyFieldsOf(a);
    KeyFieldsOf(b);
  }

  /** The fields of a key sit at fixed offsets from its end. */
  function YearField(k: string): string {
    if |k| >= 6 then k[..|k| - 6] else ""
  }

  function MonthField(k: string): string {
    if |k| >= 6 then k[|k| - 5..|k| - 3] else ""
  }

  function DayField(k: string): string {
    if |k| >= 6 then k[|k| - 2..] else ""
  }

  lemma KeyFieldsOf(a: Date)
    requires Valid(a)
    ensures YearField(FormatDateKey(a)) == IntToString(a.year)
    ensures MonthField(FormatDateKey(a)) == PadNat(a.month, 2) && DayField(FormatDateKey(a)) == PadNat(a.day, 2)
  {
    var y, m, d := IntToString(a.year), PadNat(a.month, 2), PadNat(a.day, 2);
    assert |m| == 2 && |d| == 2 by {
      TwoDigitField(a.month);
      TwoDigitField(a.day);
    }
    KeySlices(y, m, d);
  }

  lemma KeySlices(y: string, m: string, d: string)
    requires |m| == 2 && |d| == 2
    ensures var k := y + "-" + m + "-" + d;
      |k| >= 6 && k[..|k| - 6] == y && k[|k| - 5..|k| - 3] == m && k[|k| - 2..] == d
  {
  }

  /** Different days have different keys. */
  lemma DateKeyInjective(a: Date, b: Date)
    requires Valid(a) && Valid(b) && FormatDateKey(a) == FormatDateKey(b)
    ensures a == b
  {
    DateKeyFields(a, b);
    PadNatValue(a.month, 2);
    PadNatValue(b.month, 2);
    PadNatValue(a.day, 2);
    PadNatValue(b.day, 2);
    IntToStringInjective(a.year, b.year);
  }

  /** For four-digit years the key is the ISO text the backend produces. */
  lemma DateKeyIsIso(d: Date)
    requires Valid(d) && 1000 <= d.year <= 9999
    ensures FormatDateKey(d) == IsoFormat(d)
  {
    var r := NatToString(d.year);
    assert Pow10(4) == 10000;
    NatToStringLength(d.year, 4);
    assert Pow10(3) == 1000;
    NatToStringLengthLower(d.year, 3);
    assert PadNat(d.year, 4) == r;
  }

  // ---------------------------------------------------------------------------
  // Label rows
  // ---------------------------------------------------------------------------

  datatype Mark = Mark(column: int, text: string)

  /** Writes each mark whose column lies inside the row, in order, so a
      later mark on the same column replaces an earlier one. */
  function PlaceLabels(row: seq<string>, marks: seq<Mark>): (r: seq<string>)
    ensures |r| == |row|
  {
    if |marks| == 0 then row
    else
      var before := PlaceLabels(row, marks[..|marks| - 1]);
      var m := marks[|marks| - 1];
      if 0 <= m.column < |before| then before[m.column := m.text] else before
  }

  /** A column shows the label of the last mark aimed at it, or keeps its
      initial text when no mark is. */
  lemma {:induction false} PlaceLabelsLastWins(row: seq<string>, marks: seq<Mark>, w: int)
    requires 0 <= w < |row|
    ensures PlaceLabels(row, marks)[w]
      == match LastIndex(marks, (m: Mark) => m.column == w)
         case Some(k) => marks[k].text
         case None => row[w]
    decreases |marks|
  {
    if |marks| > 0 {
      var init := marks[..|marks| - 1];
      PlaceLabelsLastWins(row, init, w);
    }
  }

  const MonthNames: seq<string> :=
    ["jan", "feb", "mar", "apr", "may", "jun", "jul", "aug", "sep", "oct", "nov", "dec"]

  /** The week column holding the first day of month `m`. */
  function MonthColumn(y: int, m: int): (c: int)
    requires 1 <= m <= 12
    ensures 0 <= c <= 47
  {
    DaysBeforeMonth(y, m) / 7
  }

  lemma MonthColumnsApart(y: int, a: int, b: int)
    requires 1 <= a < b <= 12
    ensures MonthColumn(y, a) + 4 <= MonthColumn(y, b)
  {
    DaysBeforeMonthMonotone(y, a, b);
  }

  /** The marks of the twelve month labels. */
  function MonthMarks(y: int): (ms: seq<Mark>)
    ensures |ms| == 12
    ensures forall k :: 0 <= k < 12 ==> ms[k] == Mark(MonthColumn(y, k + 1), MonthNames[k])
  {
    seq(12, k requires 0 <= k < 12 => Mark(MonthColumn(y, k + 1), MonthNames[k]))
  }

  /** The quarter markers: March, June, September and December. */
  function QuarterMarks(y: int): (ms: seq<Mark>)
    ensures |ms| == 4
  {
    [Mark(MonthColumn(y, 3), "mar"), Mark(MonthColumn(y, 6), "jun"),
     Mark(MonthColumn(y, 9), "sep"), Mark(MonthColumn(y, 12), "dec")]
  }

  predicate IsQuarterColumn(y: int, w: int) {
    w == MonthColumn(y, 3) || w == MonthColumn(y, 6) || w == MonthColumn(y, 9) || w == MonthColumn(y, 12)
  }

  function Blank(n: nat): (r: seq<string>)
    ensures |r| == n && forall w :: 0 <= w < n ==> r[w] == ""
  {
    seq(n, _ => "")
  }

  /** Number of week columns for a year of `days` days. */
  function Weeks(days: nat): (w: nat)
    ensures 7 * w >= days > 7 * (w - 1)
  {
    (days + 6) / 7
  }

  /** Marks at pairwise different columns: each column shows the label of
      the mark aimed at it, other columns stay as they were. */
  lemma DistinctMarks(row: seq<string>, marks: seq<Mark>, k: int, w: int)
    requires forall i, j :: 0 <= i < j < |marks| ==> marks[i].column < marks[j].column
    requires 0 <= w < |row|
    ensures 0 <= k < |marks| && marks[k].column == w ==> PlaceLabels(row, marks)[w] == marks[k].text
    ensures (forall i :: 0 <= i < |marks| ==> marks[i].column != w) ==> PlaceLabels(row, marks)[w] == row[w]
  {
    var at := (m: Mark) => m.column == w;
    PlaceLabelsLastWins(row, marks, w);
    var last := LastIndex(marks, at);
    if 0 <= k < |marks| && marks[k].column == w {
      assert at(marks[k]);
      assert last.Some? && last.value >= k;
    }
  }

  predicate IsMonthColumn(y: int, w: int) {
    exists m :: 1 <= m <= 12 && MonthColumn(y, m) == w
  }

  /** `monthLabels`: one label per month over the column of its first day,
      all other columns empty; the twelve columns are distinct, at least
      four weeks apart. */
  function MonthLabels(y: int): (r: seq<string>)
    ensures |r| == Weeks(DaysInYear(y))
    ensures forall m :: 1 <= m <= 12 ==> r[MonthColumn(y, m)] == MonthNames[m - 1]
    ensures forall w :: 0 <= w < |r| && !IsMonthColumn(y, w) ==> r[w] == ""
  {
    var marks := MonthMarks(y);
    var r := PlaceLabels(Blank(Weeks(DaysInYear(y))), marks);
    assert forall i, j :: 0 <= i < j < 12 ==> marks[i].column < marks[j].column by {
      forall a, b | 1 <= a < b <= 12 {
        MonthColumnsApart(y, a, b);
      }
    }
    forall m | 1 <= m <= 12 {
      DistinctMarks(Blank(Weeks(DaysInYear(y))), marks, m - 1, MonthColumn(y, m));
    }
    forall w | 0 <= w < |r| && !IsMonthColumn(y, w)
      ensures r[w] == ""
    {
      assert forall i :: 0 <= i < 12 ==> marks[i].column != w;
      DistinctMarks(Blank(Weeks(DaysInYear(y))), marks, 0, w);
    }
    r
  }

  /** `quarterCells`: "mar", "jun", "sep", "dec" over the columns of those
      months' first days, all other columns empty. */
  function QuarterCells(y: int): (r: seq<string>)
    ensures |r| == Weeks(DaysInYear(y))
    ensures r[MonthColumn(y, 3)] == "mar" && r[MonthColumn(y, 6)] == "jun"
    ensures r[MonthColumn(y, 9)] == "sep" && r[MonthColumn(y, 12)] == "dec"
    ensures forall w :: 0 <= w < |r| && !IsQuarterColumn(y, w) ==> r[w] == ""
  {
    QuarterMarksOrdered(y);
    var row := Blank(Weeks(DaysInYear(y)));
    QuarterLabelsPlaced(y, row);
    QuarterBlanksStay(y, row);
    PlaceLabels(row, QuarterMarks(y))
  }

  lemma QuarterMarksOrdered(y: int)
    ensures var marks := QuarterMarks(y);
      forall i, j :: 0 <= i < j < 4 ==> marks[i].column < marks[j].column
  {
    MonthColumnsApart(y, 3, 6);
    MonthColumnsApart(y, 6, 9);
    MonthColumnsApart(y, 9, 12);
  }

  lemma QuarterLabelsPlaced(y: int, row: seq<string>)
    requires |row| == Weeks(DaysInYear(y))
    requires var marks := QuarterMarks(y);
      forall i, j :: 0 <= i < j < 4 ==> marks[i].column < marks[j].column
    ensures var r := PlaceLabels(row, QuarterMarks(y));
      r[MonthColumn(y, 3)] == "mar" && r[MonthColumn(y, 6)] == "jun"
      && r[MonthColumn(y, 9)] == "sep" && r[MonthColumn(y, 12)] == "dec"
  {
    var marks := QuarterMarks(y);
    DistinctMarks(row, marks, 0, MonthColumn(y, 3));
    DistinctMarks(row, marks, 1, MonthColumn(y, 6));
    DistinctMarks(row, marks, 2, MonthColumn(y, 9));
    DistinctMarks(row, marks, 3, MonthColumn(y, 12));
  }

  lemma QuarterBlanksStay(y: int, row: seq<string>)
    requires var marks := QuarterMarks(y);
      forall i, j :: 0 <= i < j < 4 ==> marks[i].column < marks[j].column
    ensures var r := PlaceLabels(row, QuarterMarks(y));
      forall w :: 0 <= w < |r| && !IsQuarterColumn(y, w) ==> r[w] == row[w]
  {
    var marks := QuarterMarks(y);
    var r := PlaceLabels(row, marks);
    forall w | 0 <= w < |r| && !IsQuarterColumn(y, w)
      ensures r[w] == row[w]
    {
      DistinctMarks(row, marks, 0, w);
    }
  }

  /** Every quarter marker sits on a column whose month label names the
      same month. */
  lemma QuarterMarkersAgreeWithMonths(y: int, w: int)
    requires 0 <= w < Weeks(DaysInYear(y))
    ensures QuarterCells(y)[w] != "" ==> QuarterCells(y)[w] == MonthLabels(y)[w]
  {
    assert MonthLabels(y)[MonthColumn(y, 3)] == MonthNames[2];
    assert MonthLabels(y)[MonthColumn(y, 6)] == MonthNames[5];
    assert MonthLabels(y)[MonthColumn(y, 9)] == MonthNames[8];
    assert MonthLabels(y)[MonthColumn(y, 12)] == MonthNames[11];
  }

  // ---------------------------------------------------------------------------
  // Day cells
  // ---------------------------------------------------------------------------

  /** Cell `i` of a grid for year `y` shows the `i`-th day after January 1. */
  function DayOf(y: int, i: nat): Date {
    AddDays(Jan1(y), i)
  }

  /** Cell `i` of a grid for year `y` holds the day of ordinal `i + 1` of
      that year. */
  lemma DayOfInYear(y: int, i: nat)
    requires i < DaysInYear(y)
    ensures DayOf(y, i).year == y && DayOfYear(DayOf(y, i)) == i + 1
  {
    OffsetInYear(y, i);
  }

  /** Later cells hold later days, under different keys. */
  lemma DayOfOrder(y: int, i: nat, j: nat)
    requires i < j
    ensures Before(DayOf(y, i), DayOf(y, j))
    ensures FormatDateKey(DayOf(y, i)) != FormatDateKey(DayOf(y, j))
  {
    AddDaysMonotone(Jan1(y), i, j);
    if FormatDateKey(DayOf(y, i)) == FormatDateKey(DayOf(y, j)) {
      DateKeyInjective(DayOf(y, i), DayOf(y, j));
    }
  }

  /** The first cell is January 1 and the last December 31. */
  lemma GridEnds(y: int)
    ensures DayOf(y, 0) == Jan1(y)
    ensures DayOf(y, DaysInYear(y) - 1) == Dec31(y)
  {
    LastDayOffset(y);
  }

  // ---------------------------------------------------------------------------
  // Contribution grid
  // ---------------------------------------------------------------------------

  /** One entry of the contribution list: `count` is 0 when the source's
      field is missing or falsy. */
  datatype ContribItem = ContribItem(date: Option<string>, count: int)

  datatype ContribCell = ContribCell(color: string, title: string)

  datatype ContribGrid = ContribGrid(cells: seq<ContribCell>, weeks: nat, monthLabels: seq<string>, year: int)

  /** The count shown for `key`: the last entry with that non-empty date,
      else 0. */
  function ContribCount(items: seq<ContribItem>, key: string): (c: int)
    ensures (forall k :: 0 <= k < |items| ==> items[k].date != Some(key)) ==> c == 0
  {
    if key == "" then 0
    else
      match LastIndex(items, (it: ContribItem) => it.date == Some(key))
      case Some(k) => items[k].count
      case None => 0
  }

  function ContribCellFor(items: seq<ContribItem>, key: string, maxCount: int): ContribCell {
    var c := ContribCount(items, key);
    ContribCell(PickContributionColor(c, maxCount), key + " | contributions: " + IntToString(c))
  }

  function ContribCounts(items: seq<ContribItem>): (r: seq<int>)
    ensures |r| == |items| && forall k :: 0 <= k < |items| ==> r[k] == items[k].count
  {
    seq(|items|, k requires 0 <= k < |items| => items[k].count)
  }

  function ContribCells(items: seq<ContribItem>, y: int): (cells: seq<ContribCell>)
    ensures |cells| == DaysInYear(y)
  {
    var maxCount := Max0(ContribCounts(items));
    seq(DaysInYear(y), i requires 0 <= i < DaysInYear(y) =>
      ContribCellFor(items, FormatDateKey(DayOf(y, i)), maxCount))
  }

  lemma ContribCellAt(items: seq<ContribItem>, y: int, d: Date)
    requires Valid(d) && d.year == y
    ensures DayOfYear(d) - 1 < |ContribCells(items, y)|
    ensures ContribCells(items, y)[DayOfYear(d) - 1]
      == ContribCellFor(items, FormatDateKey(d), Max0(ContribCounts(items)))
  {
    var i := DayOfYear(d) - 1;
    DateAsOffset(d);
    assert DayOf(y, i) == d;
    ContribCellIndex(items, y, i);
  }

  lemma ContribCellIndex(items: seq<ContribItem>, y: int, i: nat)
    requires i < DaysInYear(y)
    ensures ContribCells(items, y)[i]
      == ContribCellFor(items, FormatDateKey(DayOf(y, i)), Max0(ContribCounts(items)))
  {
  }

  /** `buildContributionGrid(items, year)`: the cells of `ContribCells`
      for the year `new Date(year, 0, 1)` falls in. */
  function BuildContributionGrid(items: seq<ContribItem>, year: int): (g: ContribGrid)
    ensures g.cells == ContribCells(items, JsYear(year))
    ensures g.weeks == Weeks(|g.cells|) && g.monthLabels == MonthLabels(JsYear(year))
    ensures g.year == year
  {
    var y := JsYear(year);
    ContribGrid(ContribCells(items, y), Weeks(DaysInYear(y)), MonthLabels(y), year)
  }

  /** Each day of year `y` has its cell, titled with the day's key and the
      count of the last entry for that day (0 when there is none), coloured
      empty exactly when that count is not positive; the busiest day gets
      the brightest colour. */
  lemma ContributionCellOfDay(items: seq<ContribItem>, y: int, d: Date)
    requires Valid(d) && d.year == y
    ensures DayOfYear(d) - 1 < |ContribCells(items, y)|
    ensures var cell := ContribCells(items, y)[DayOfYear(d) - 1];
      var c := ContribCount(items, FormatDateKey(d));
      cell.title == FormatDateKey(d) + " | contributions: " + IntToString(c)
      && (cell.color == ContribEmpty <==> c <= 0)
  {
    ContribCellAt(items, y, d);
    ContributionColorEmpty(ContribCount(items, FormatDateKey(d)), Max0(ContribCounts(items)));
  }

  /** The busiest day of the year gets the brightest contribution colour. */
  lemma ContributionPeakDay(items: seq<ContribItem>, y: int, d: Date)
    requires Valid(d) && d.year == y
    requires var c := ContribCount(items, FormatDateKey(d));
      c > 0 && forall k :: 0 <= k < |items| ==> items[k].count <= c
    ensures DayOfYear(d) - 1 < |ContribCells(items, y)|
    ensures ContribCells(items, y)[DayOfYear(d) - 1].color == ContribColors[3]
  {
    ContribCellAt(items, y, d);
    var counts := ContribCounts(items);
    var c := ContribCount(items, FormatDateKey(d));
    var k :| 0 <= k < |items| && items[k].date == Some(FormatDateKey(d)) && items[k].count == c;
    assert counts[k] == c;
  }

  /** The last entry for a day decides its count; entries for other days
      and entries without a date do not matter. */
  lemma ContributionLastWins(items: seq<ContribItem>, key: string, later: ContribItem)
    requires key != "" && later.date == Some(key)
    ensures ContribCount(items + [later], key) == later.count
  {
  }

  lemma ContributionOtherDays(items: seq<ContribItem>, key: string, other: ContribItem)
    requires other.date != Some(key)
    ensures ContribCount(items + [other], key) == ContribCount(items, key)
  {
    assert (items + [other])[..|items|] == items;
  }

  // ---------------------------------------------------------------------------
  // Activity heatmap grid
  // ---------------------------------------------------------------------------

  datatype HeatItem = HeatItem(date: string, typing: int, active: int, inactive: int)

  datatype HeatCell = HeatCell(color: string, title: string, date: string)

  datatype HeatGrid = HeatGrid(
    cells: seq<HeatCell>, weeks: nat, monthLabels: seq<string>, quarterCells: seq<string>,
    year: int, rangeStartLabel: string, rangeEndLabel: string)

  /** `map.get(key) || { active: 0, typing: 0, inactive: 0 }`: the last item
      for the day, or zero counts. */
  function HeatEntry(items: seq<HeatItem>, key: string): (e: HeatItem)
    ensures (exists k :: 0 <= k < |items| && items[k].date == key) ==>
      exists k :: 0 <= k < |items| && items[k] == e && e.date == key
        && forall j :: k < j < |items| ==> items[j].date != key
    ensures (forall k :: 0 <= k < |items| ==> items[k].date != key) ==> e == HeatItem(key, 0, 0, 0)
  {
    match LastIndex(items, (it: HeatItem) => it.date == key)
    case Some(k) => items[k]
    case None => HeatItem(key, 0, 0, 0)
  }

  /** `map.set` while walking the items: the last item for a day is the one
      the heatmap keeps; items for other days do not change it. */
  lemma HeatmapLastWins(items: seq<HeatItem>, key: string, later: HeatItem)
    requires later.date == key
    ensures HeatEntry(items + [later], key) == later
  {
    var all := items + [later];
    assert all[|items|].date == key;
  }

  lemma HeatmapOtherDays(items: seq<HeatItem>, key: string, other: HeatItem)
    requires other.date != key
    ensures HeatEntry(items + [other], key) == HeatEntry(items, key)
  {
    var all := items + [other];
    assert all[..|items|] == items;
    assert forall j :: 0 <= j < |items| ==> all[j] == items[j];
  }

  function HeatTitle(key: string, e: HeatItem): string {
    key + " | typing: " + IntToString(e.typing) + " | active: " + IntToString(e.active)
      + " | idle: " + IntToString(e.inactive)
  }

  function HeatCellFor(items: seq<HeatItem>, key: string, maxTyping: int, maxActive: int): HeatCell {
    var e := HeatEntry(items, key);
    HeatCell(PickHeatColor(e.typing, e.active, maxTyping, maxActive), HeatTitle(key, e), key)
  }

  function HeatTyping(item: HeatItem): int { item.typing }

  function HeatActive(item: HeatItem): int { item.active }

  function HeatCells(items: seq<HeatItem>, y: int): (cells: seq<HeatCell>)
    ensures |cells| == DaysInYear(y)
  {
    var maxTyping := Max0(Values(items, HeatTyping));
    var maxActive := Max0(Values(items, HeatActive));
    seq(DaysInYear(y), i requires 0 <= i < DaysInYear(y) =>
      HeatCellFor(items, FormatDateKey(DayOf(y, i)), maxTyping, maxActive))
  }

  lemma HeatCellAt(items: seq<HeatItem>, y: int, d: Date)
    requires Valid(d) && d.year == y
    ensures DayOfYear(d) - 1 < |HeatCells(items, y)|
    ensures HeatCells(items, y)[DayOfYear(d) - 1]
      == HeatCellFor(items, FormatDateKey(d), Max0(Values(items, HeatTyping)), Max0(Values(items, HeatActive)))
  {
    var i := DayOfYear(d) - 1;
    DateAsOffset(d);
    assert DayOf(y, i) == d;
    HeatCellIndex(items, y, i);
  }

  lemma HeatCellIndex(items: seq<HeatItem>, y: int, i: nat)
    requires i < DaysInYear(y)
    ensures HeatCells(items, y)[i]
      == HeatCellFor(items, FormatDateKey(DayOf(y, i)), Max0(Values(items, HeatTyping)), Max0(Values(items, HeatActive)))
  {
  }

  lemma HeatCellKey(items: seq<HeatItem>, y: int, i: nat)
    requires i < DaysInYear(y)
    ensures HeatCells(items, y)[i].date == FormatDateKey(DayOf(y, i))
  {
  }

  /** `buildHeatmapGrid(items, year)`: the cells of `HeatCells` for the
      year `new Date(year, 0, 1)` falls in, its month labels and quarter
      markers, and the fixed range captions. */
  function BuildHeatmapGrid(items: seq<HeatItem>, year: int): (g: HeatGrid)
    ensures g.cells == HeatCells(items, JsYear(year))
    ensures g.weeks == Weeks(|g.cells|)
    ensures g.monthLabels == MonthLabels(JsYear(year)) && g.quarterCells == QuarterCells(JsYear(year))
    ensures g.year == year && g.rangeStartLabel == "january" && g.rangeEndLabel == "december"
  {
    var y := JsYear(year);
    HeatGrid(HeatCells(items, y), Weeks(DaysInYear(y)), MonthLabels(y), QuarterCells(y), year, "january", "december")
  }

  /** The heatmap's cells carry pairwise different date keys. */
  lemma HeatmapKeysDistinct(items: seq<HeatItem>, y: int, i: nat, j: nat)
    requires i < j < DaysInYear(y)
    ensures HeatCells(items, y)[i].date != HeatCells(items, y)[j].date
  {
    DayOfOrder(y, i, j);
    HeatCellKey(items, y, i);
    HeatCellKey(items, y, j);
  }

  /** The heatmap runs from January 1 to December 31. */
  lemma HeatmapEnds(items: seq<HeatItem>, y: int)
    ensures HeatCells(items, y)[0].date == FormatDateKey(Jan1(y))
    ensures HeatCells(items, y)[DaysInYear(y) - 1].date == FormatDateKey(Dec31(y))
  {
    GridEnds(y);
    HeatCellKey(items, y, 0);
    HeatCellKey(items, y, DaysInYear(y) - 1);
  }

  /** Every day of year `y` has its cell, at its ordinal minus one. */
  lemma HeatmapCoversYear(items: seq<HeatItem>, y: int, d: Date)
    requires Valid(d) && d.year == y
    ensures DayOfYear(d) - 1 < |HeatCells(items, y)|
    ensures HeatCells(items, y)[DayOfYear(d) - 1].date == FormatDateKey(d)
  {
    var i := DayOfYear(d) - 1;
    DateAsOffset(d);
    assert DayOf(y, i) == d;
    HeatCellKey(items, y, i);
  }

  /** A heatmap cell shows the counts of the last item for its day (zeros
      when there is none) and its colour reveals which count is positive. */
  lemma HeatmapCellOfDay(items: seq<HeatItem>, y: int, d: Date)
    requires Valid(d) && d.year == y
    ensures DayOfYear(d) - 1 < |HeatCells(items, y)|
    ensures var cell := HeatCells(items, y)[DayOfYear(d) - 1];
      var e := HeatEntry(items, FormatDateKey(d));
      cell.title == HeatTitle(FormatDateKey(d), e)
      && (cell.color in TypingColors <==> e.typing > 0)
      && (cell.color in ActiveColors <==> e.typing <= 0 && e.active > 0)
      && (cell.color == InactiveColor <==> e.typing <= 0 && e.active <= 0)
  {
    HeatCellAt(items, y, d);
    var e := HeatEntry(items, FormatDateKey(d));
    HeatColorCategory(e.typing, e.active, Max0(Values(items, HeatTyping)), Max0(Values(items, HeatActive)));
  }

  /** The tooltip of a day's cell shows the counts of the last item whose
      date is that day. */
  lemma HeatmapCellShowsLastItem(items: seq<HeatItem>, y: int, d: Date, k: nat)
    requires Valid(d) && d.year == y
    requires k < |items| && items[k].date == FormatDateKey(d)
    requires forall j :: k < j < |items| ==> items[j].date != FormatDateKey(d)
    ensures DayOfYear(d) - 1 < |HeatCells(items, y)|
    ensures HeatCells(items, y)[DayOfYear(d) - 1].title == HeatTitle(FormatDateKey(d), items[k])
  {
    HeatCellAt(items, y, d);
    var e := HeatEntry(items, FormatDateKey(d));
    var k' :| 0 <= k' < |items| && items[k'] == e && e.date == FormatDateKey(d)
      && forall j :: k' < j < |items| ==> items[j].date != FormatDateKey(d);
    assert k' == k;
  }

  lemma TwoDigitText(n: nat)
    requires 10 <= n < 100
    ensures PadNat(n, 2) == [DigitChar(n / 10), DigitChar(n % 10)]
  {
    assert NatToString(n / 10) == [DigitChar(n / 10)];
  }

  lemma DecemberLiterals()
    ensures PadNat(12, 2) == "12" && PadNat(31, 2) == "31"
  {
    TwoDigitText(12);
    TwoDigitText(31);
    assert DigitChar(1) == '1' && DigitChar(2) == '2' && DigitChar(3) == '3';
  }

  /** The key of December 31 is the year followed by "-12-31". */
  lemma DecemberKey(year: int)
    ensures FormatDateKey(Dec31(year)) == IntToString(year) + "-12-31"
  {
    DecemberLiterals();
    DecemberSuffix(IntToString(year));
  }

  lemma DecemberSuffix(y: string)
    ensures y + "-" + "12" + "-" + "31" == y + "-12-31"
  {
  }

  /** The day `defaultHeatmapDate` selects: today in the current year,
      else December 31. */
  function DefaultHeatmapDay(year: int, today: Date): (d: Date)
    requires Valid(today)
    ensures Valid(d) && d.year == year
    ensures year == today.year ==> d == today
    ensures year != today.year ==> d == Dec31(year)
  {
    if year == today.year then today else Dec31(year)
  }

  /** `defaultHeatmapDate(year)` with `today` for `new Date()`: the key of
      the selected day, written as a literal for December 31. */
  function DefaultHeatmapDate(year: int, today: Date): (r: string)
    requires Valid(today)
    ensures r == FormatDateKey(DefaultHeatmapDay(year, today))
  {
    if year == today.year then FormatDateKey(today)
    else
      DecemberKey(year);
      IntToString(year) + "-12-31"
  }

  /** Outside the two-digit years, the default selection names a cell of
      the heatmap shown for that year. */
  lemma DefaultDateHasCell(items: seq<HeatItem>, year: int, today: Date)
    requires Valid(today) && !(0 <= year <= 99)
    ensures var cells := HeatCells(items, JsYear(year));
      exists k :: 0 <= k < |cells| && cells[k].date == DefaultHeatmapDate(year, today)
  {
    var d := DefaultHeatmapDay(year, today);
    var key := DefaultHeatmapDate(year, today);
    HeatmapCoversYear(items, year, d);
    assert HeatCells(items, year)[DayOfYear(d) - 1].date == key;
  }
}
